=== FILE: README.md ===
# Timing summaries, duplicate subruns and path searches, in Dafny

This project models the working parts of three small command-line tools
and proves properties of the model.

- **SortModuleTimes.py** reads the timing logs of an art job. It keeps
  running statistics per module, in a registry that keeps the order in
  which modules first appear. It then prints them as an aligned text table.
  The model covers:
  - the weighted moment accumulator `Stats` and the keyed series
    `TimeModuleStatsClass`;
  - the registry `JobStatsClass` and the two log-line parsers;
  - the reading loop over the log files;
  - the column-width tracker and the left, right, center and justified
    string alignment;
  - the `TabularAlignmentClass` table formatter: line identifiers, format
    specifications, format selection, cell formatting, padding and joining.
- **ICARUSduplicateSubrunFiles.py** reads lists of ICARUS production file
  paths and reports the files whose run and subrun were already listed. The
  model covers:
  - the path parser `OutputFilePathParser`: protocol, host, port,
    directories, base name, suffix, configuration name and job stages;
  - the stage accessors, `parseDate` and `parseTime`;
  - the duplicate-tracking loop, with what it prints on both streams,
    its counters and its exit status;
  - the closing summary message.
- **FindInPath.py** lists the files of the directories of PATH-like
  variables whose names match some patterns. The model covers:
  - the suffix and pattern filters, `WrapString` and `FindInDir`;
  - `Find`, with its pattern preparation;
  - `FormatRecords`;
  - the merge of the search directories of several variables.

Things outside the program become parameters or inputs:

- Each log file and each file list is its sequence of lines.
- A directory is an entry in a map from paths to listings.
- The environment is a map from names to values.
- Regular-expression matching, `float()`, `math.sqrt`, the `%g`/`%4.1f`
  renderings and the cell formatters are function parameters.

Python's `split`, `strip`, `startswith`, `endswith`, `join`, `int` and
`str` are written out in `Strings`. Python's exceptions become `Result`
and `Option` values that carry what was raised.

Each Python file maps to these modules:

| Python file | Modules |
|---|---|
| SortModuleTimes.py | `Statistics`, `ModuleStats`, `Registry`, `TimingLines`, `TimingReader`, `Alignment`, `TableFormats`, `Tabular`, `TabularClass` |
| ICARUSduplicateSubrunFiles.py | `OutputPath`, `DuplicateSubruns` |
| FindInPath.py | `FindInPath` |
| shared | `Wrappers`, `Strings` |

Where the source updates an object in place, the model is a class:
`Stats`, `TimeModuleStatsClass`, `JobStatsClass`, `MaxItemLengthsClass`,
`TabularAlignmentClass` and `OutputFilePathParser`. Where the source loops,
the model is a method with a loop, proved against a function that
specifies it. That function's properties are then proved as lemmas.

Where the code and its comments or help texts disagree, the model follows
the code. Three examples:

- `JustifyString` as written raises for every string of two or more words.
- A `FormatTable` padding pass reads a stale loop variable.
- FindInPath's help text calls `PATH` the default variable, but no default
  is set.

Each of these is under "Findings" below, modelled both as written and as
intended.

## Model

| member | source | states |
|---|---|---|
| Strings.TrimLeft | SortModuleTimes.py:508 | `lstrip` removes only leading blanks: the result is a suffix of the input, with no blank at its front, and only blanks were removed |
| Strings.TrimRight | SortModuleTimes.py:508 | `rstrip` removes only trailing blanks: the result is a prefix of the input, with no blank at its end |
| Strings.Strip | SortModuleTimes.py:508 | a stripped line has no blank at either end, is a slice of the line with only blanks before and after it, and a line without such blanks is returned unchanged |
| Strings.Split | SortModuleTimes.py:205 | `line.split()` yields non-empty tokens without blanks |
| Strings.SplitJoin | SortModuleTimes.py:205 | splitting words joined by single blanks gives the words back |
| Strings.SplitOn | FindInPath.py:231 | `value.split(sep)` yields at least one piece, and no piece holds the separator |
| Strings.JoinSplitOn | FindInPath.py:231 | joining the pieces of `value.split(sep)` with `sep` rebuilds `value` |
| Strings.SplitOnJoin | ICARUSduplicateSubrunFiles.py:28 | splitting pieces joined by a separator they lack gives the pieces back |
| Strings.NatToString | ICARUSduplicateSubrunFiles.py:80 | `str(n)` is a non-empty run of digits with no leading zero |
| Strings.ParseInt | SortModuleTimes.py:217-219 | `int()` succeeds exactly when the token is an optional sign followed by at least one digit, and its value is the decimal value of those digits, negated after a `-` |
| Strings.DigitsRoundTrip | ICARUSduplicateSubrunFiles.py:80 | the digits of `str(n)` read back as `n` |
| Strings.IntRoundTrip | SortModuleTimes.py:217-219 | `int(str(i)) == i` for every integer |
| Statistics.SignedSqrtSign | SortModuleTimes.py:33-35 | `signed_sqrt(x)` has the sign of `x`, given a `sqrt` that is never negative |
| Statistics.MinOfIsLeast | SortModuleTimes.py:67 | `min` is `None` exactly when nothing was added; otherwise it is one of the added values and none is smaller |
| Statistics.MaxOfIsGreatest | SortModuleTimes.py:68 | `max` is `None` exactly when nothing was added; otherwise it is one of the added values and none is larger |
| Statistics.MinAtMostMax | SortModuleTimes.py:67-68 | after at least one `add`, `min <= max` |
| Statistics.SumsOfConcat | SortModuleTimes.py:63-66 | the weight, sum and sum of squares of two runs of adds are the sums of the runs' totals |
| Statistics.AddOrderIrrelevant | SortModuleTimes.py:57-68 | adding two runs of samples in either order leaves the same count, sums, minimum and maximum |
| Statistics.DeviationExpansion | SortModuleTimes.py:83 | the weighted squared deviation around `a` expands to `Σwv² − 2aΣwv + a²Σw` |
| Statistics.VarianceIsMeanSquaredDeviation | SortModuleTimes.py:77-83 | for a non-zero total weight, `rms2 = sqaverage − average²` is the weighted mean squared deviation from the average |
| Statistics.VarianceNonNegative | SortModuleTimes.py:83 | with non-negative weights, `rms2` is never negative |
| Statistics.TotalWeightNonNegative | SortModuleTimes.py:64 | with non-negative weights, the total weight is never negative |
| Statistics.UnitWeightTotal | SortModuleTimes.py:57-64 | with the default weight 1, the total weight is the number of adds |
| Statistics.OneTwoThree | SortModuleTimes.py:77-83 | adding 1, 2 and 3 with unit weights gives an average of 2 and an `rms2` of 2/3 |
| Statistics.Stats.constructor | SortModuleTimes.py:40-54 | a new accumulator holds no samples |
| Statistics.Stats.Clear | SortModuleTimes.py:43-54 | `clear` forgets every sample |
| Statistics.Stats.Add | SortModuleTimes.py:57-68 | `add(value, weight)` raises `n` by 1, `w` by the weight, `sum` by weight·value and `sumsq` by weight·value², and updates `min` and `max` exactly as the two comparisons do |
| Statistics.Stats.Average | SortModuleTimes.py:77-79 | `average` is 0 for a zero total weight; otherwise it times the weight gives the sum |
| Statistics.Stats.SqAverage | SortModuleTimes.py:80-82 | `sqaverage` is 0 for a zero total weight; otherwise it times the weight gives the sum of squares |
| Statistics.Stats.Rms2 | SortModuleTimes.py:83 | `rms2` is the variance of the samples, and it is not negative when the weights are not |
| Statistics.Stats.Rms | SortModuleTimes.py:84 | `rms` is not negative when the weights are not and `sqrt` never returns a negative value |
| Statistics.Stats.Stdev | SortModuleTimes.py:85-87 | `stdev` is 0 below two samples, and never negative when the weights are not |
| Statistics.Stats.Stdevp | SortModuleTimes.py:88 | `stdevp` is never negative when the weights are not and `sqrt` never returns a negative value |
| ModuleStats.FirstOccurrencesKeys | SortModuleTimes.py:104-108 | the tracked entries have pairwise different event keys and cover every key fed |
| ModuleStats.FirstOfEventIffNew | SortModuleTimes.py:106 | a record is kept exactly when its `(run, subRun, event)` was not seen before |
| ModuleStats.FirstOccurrencesAreFirsts | SortModuleTimes.py:104-108 | the entries are the first record of each event, in feeding order |
| ModuleStats.TimeModuleStats.constructor | SortModuleTimes.py:93-100 | a new series has its key, its tracking flag, no samples and no entries |
| ModuleStats.TimeModuleStats.TrackedCount | SortModuleTimes.py:103-111 | with tracking on, the count of the accumulator is the number of entries |
| ModuleStats.TimeModuleStats.Add | SortModuleTimes.py:103-112 | `add` returns False and changes nothing for an event already tracked; otherwise it appends the entry, records its key, feeds the time with unit weight and returns True |
| ModuleStats.TimeModuleStats.FormatStatsAsList | SortModuleTimes.py:114-127 | the row is exactly `[name, "n/a"]` when nothing or only zero time was added; otherwise it has 7 cells: average, RMS relative to the average in percent (the average is then non-zero), total, count, minimum, maximum |
| ModuleStats.TimeModuleStats.FormatTimesAsList | SortModuleTimes.py:129-139 | the row holds the name and then `min(n, max_events)` cells: the rendered times of the first entries, or "n/a" when nothing is tracked |
| ModuleStats.SliceLength | SortModuleTimes.py:138 | a slice bound never exceeds the list length |
| Registry.IndexOf | SortModuleTimes.py:184 | `list.index` gives the first position that holds the object |
| Registry.MaxOfCounts | SortModuleTimes.py:152 | `max` of the counts is one of them, and none is larger |
| Registry.MinOfCounts | SortModuleTimes.py:157 | `min` of the counts is one of them, and none is smaller |
| Registry.AgreeReplace | SortModuleTimes.py:168-191 | overwriting the slot of a module with a new series of that module, and filing it under its key, keeps list and dictionary in agreement |
| Registry.AgreeExtend | SortModuleTimes.py:174-191 | registering a new module at or past the end of the list keeps list and dictionary in agreement |
| Registry.AgreeLostPastEnd | SortModuleTimes.py:174-191 | registering a known module past the end breaks the agreement: its old slot still lists the replaced series, or the same series twice |
| Registry.JobStats.constructor | SortModuleTimes.py:144-147 | a new registry is empty and consistent |
| Registry.JobStats.GetAt | SortModuleTimes.py:164-165 | indexing by position works exactly for `-len <= i < len`, counting negative positions from the end; otherwise it raises `IndexError` |
| Registry.JobStats.GetByKey | SortModuleTimes.py:164-166 | lookup by module key succeeds exactly for a registered key, and gives a listed series with that key |
| Registry.JobStats.SetAt | SortModuleTimes.py:168-191 | setting by position fails, changing nothing, on a negative position beyond the start, an empty slot, or a slot holding another module. A position past the end extends the list to `pos+1`. Afterwards the slot and the key lookup hold the new series, and other slots are unchanged. Consistency is kept, except when a module already registered is set past the end: then its earlier slot stays listed, and consistency is lost |
| Registry.JobStats.SetByKey | SortModuleTimes.py:181-191 | setting by key appends a new key at the end, replaces a known one in its slot, and fails, changing nothing, only when the known series is not in the list. Setting a series under its own module key keeps consistency |
| Registry.JobStats.MaxEvents | SortModuleTimes.py:150-153 | 0 for an empty registry; otherwise the largest entry count, failing only on an empty slot |
| Registry.JobStats.MinEvents | SortModuleTimes.py:155-158 | 0 for an empty registry; otherwise the smallest entry count, failing only on an empty slot |
| Registry.MinEventsAtMostMax | SortModuleTimes.py:150-158 | once modules are registered, `MinEvents() <= MaxEvents()` |
| TimingLines.CheckHeader | SortModuleTimes.py:205-213 | a token list passes exactly with the fixed keywords at positions 0, 1, 3 and 5 and the exact token count. An `IndexError` arises only with fewer than 6 tokens, when a keyword position past the end is reached; a short list can also fail with `FormatError` at an earlier keyword. With 6 tokens or more every failure is `FormatError` |
| TimingLines.EventFields | SortModuleTimes.py:217-219 | run, subrun and event are read exactly when all three tokens are integers |
| TimingLines.ParseTimeModuleLine | SortModuleTimes.py:200-227 | a module line parses exactly for 10 tokens with the keywords in place, integer fields and a readable time, into the fields at positions 2, 4, 6, (7, 8) and 9; errors carry the line |
| TimingLines.ParseTimeEventLine | SortModuleTimes.py:229-255 | an event line parses exactly for 8 tokens with the keywords in place, integer fields and a readable time |
| TimingLines.ModuleLineRoundTrip | SortModuleTimes.py:200-227 | a module line written in the documented format parses back to its record |
| TimingLines.EventLineRoundTrip | SortModuleTimes.py:229-255 | an event line written in the format parses back to its record |
| TimingLines.ParsersExclusive | SortModuleTimes.py:205-236 | no line is accepted by both parsers |
| TimingReader.StripAll | SortModuleTimes.py:508 | every line is stripped, one for one |
| TimingReader.ModuleOrderSpec | SortModuleTimes.py:522-527 | modules are registered once each, and exactly those that have records |
| TimingReader.RepeatedLineSkipped | SortModuleTimes.py:509 | a stripped line equal to the one before it contributes nothing |
| TimingReader.OtherLineIgnored | SortModuleTimes.py:541 | a line with neither prefix contributes nothing |
| TimingReader.FileErrorPersists | SortModuleTimes.py:514-519 | a parse error ends the reading of the file with that error |
| TimingReader.LogErrorPersists | SortModuleTimes.py:502-519 | a parse error in one file ends the whole reading |
| TimingReader.ReplayAppend | SortModuleTimes.py:502-544 | reading two runs of lines one after the other is reading them together |
| TimingReader.ReplayMatches | SortModuleTimes.py:522-540 | after the loop, the modules are in first-met order, each series holds exactly its module's records, and the event series holds the event records |
| TimingReader.HoldsAfterAdd | SortModuleTimes.py:103-111 | feeding one more record keeps a tracked series equal to the first record of each event |
| TimingReader.FeedSeries | SortModuleTimes.py:530-540 | a series fed records in turn holds what feeding it all of them leaves |
| TimingReader.ReadFile | SortModuleTimes.py:505-541 | reading one file ends with the error of its first bad line, or with the view of its entries added on top |
| TimingReader.ReadNextFile | SortModuleTimes.py:502-541 | one more file read extends the entries of the files before it, or fails with its own first error |
| TimingReader.ReadAll | SortModuleTimes.py:502-544 | the loop over all files fails exactly when some line fails, with the first error; otherwise it gives the view of all entries |
| TimingReader.ReadLogs | SortModuleTimes.py:497-544 | the program's reading loop, classifying each line by its prefix, is `ReadAll` of the classifier |
| Alignment.Fill | SortModuleTimes.py:287-292 | `f * n` is `max(n, 0)` copies of `f` |
| Alignment.Truncate | SortModuleTimes.py:461 | `s[:w]` is the first `min(len, w)` characters |
| Alignment.LeftString | SortModuleTimes.py:290 | `LeftString` is `max(len(s), w)` long, with `s` as prefix and only fill after it |
| Alignment.RightString | SortModuleTimes.py:292 | `RightString` is `max(len(s), w)` long, with `s` as suffix and only fill before it |
| Alignment.CenterString | SortModuleTimes.py:285-287 | `CenterString` puts `max(0, w−len)//2` fill characters before `s` and only fill after it; as written the result is `len(s)+w` long |
| Alignment.CenterTruncated | SortModuleTimes.py:285-287 | cut to the column width as the table does by default, a centered string that fits is exactly `w` long, with `(w−len)//2` fill characters on its left |
| Alignment.CenterTruncatedLong | SortModuleTimes.py:285-287 | a string longer than the width, centered and cut, is its first `w` characters |
| Alignment.JoinLength | SortModuleTimes.py:470 | pieces joined by a one-character separator are as long as the pieces plus one per gap |
| Alignment.JustifyString | SortModuleTimes.py:294-313 | the justification loop, with line 300 corrected to subtract from the width and run in exact arithmetic, computes `Justified`: the tokens in order, each gap filled with its integer share of the missing width. The closing check at line 311, corrected too, is not evaluated; `WidthCheck` proves it |
| Alignment.JustifiedWidth | SortModuleTimes.py:299-311 | in exact arithmetic, for two or more tokens, the justified string is `max(len(s), w)` long: exactly `w` when the text fits, as long as the text when the text is wider |
| Alignment.WidthCheck | SortModuleTimes.py:300-311 | the fill the loop assigns is all spread by the last gap, and when the text fits, fill and tokens together make up exactly `w`: the closing check as intended, `assignedSpace + sum(map(len, tokens)) == w` |
| Alignment.WidthCheckAsWrittenFails | SortModuleTimes.py:311 | with line 300 corrected, `"a b"` at width 5 gets 3 fill characters, so the closing `assert assignedSpace == w` as written fails |
| Alignment.WidthCheckAsWritten | SortModuleTimes.py:311 | with line 300 corrected, the closing `assert assignedSpace == w` as written holds for a text that fits exactly when every token is empty, that is when the text is nothing but fill characters |
| Alignment.JustifiedGaps | SortModuleTimes.py:300-308 | with a space size of at least 1, every gap gets at least one fill character |
| Alignment.RunningTotalIsProduct | SortModuleTimes.py:302-306 | after `k` turns, `totalSpace` is `k` times the space size |
| Alignment.ShareStep | SortModuleTimes.py:306-309 | each turn's `int(totalSpace − assignedSpace)` is the next share of the integer spread |
| Alignment.JustifyStringAsWritten | SortModuleTimes.py:294-300 | as written, the function raises `TypeError` exactly for strings of two or more tokens |
| Alignment.JustifyTwoWordsFails | SortModuleTimes.py:300 | `JustifyString("a b", 5)` raises as written |
| Alignment.Widened | SortModuleTimes.py:265-275 | after a row, the width list is as long as the longer of the list and the row |
| Alignment.MaxItemLengths.constructor | SortModuleTimes.py:262-263 | a new tracker holds `n` unset widths |
| Alignment.MaxItemLengths.Add | SortModuleTimes.py:265-275 | `add(items)` extends the list to the row length and sets each column to the larger of its width and the cell length |
| Alignment.WidenedGrows | SortModuleTimes.py:265-275 | a width, once set, never shrinks, and every cell of the row fits its column |
| Alignment.CellFits | SortModuleTimes.py:437-451 | every formatted cell fits the final width of its column |
| Alignment.WidthAttained | SortModuleTimes.py:437-451 | every column width is the length of one of its cells |
| Alignment.ColumnWidthsAreMaxima | SortModuleTimes.py:414-451 | the column widths are the maxima of the cell lengths: every cell fits, and each width is reached |
| TableFormats.LineNoOf | SortModuleTimes.py:339-343 | `LineNo` of a single number holds a list of that one number and its factor |
| TableFormats.LineNoDefault | SortModuleTimes.py:339 | `LineNo` without a factor takes the default factor 5 |
| TableFormats.LineNoDefaultScore | SortModuleTimes.py:339-357 | with the default factor, `LineNo(lineno)` scores 5 on the row it designates, negative numbers counting from the end, and nothing on any other row |
| TableFormats.Designated | SortModuleTimes.py:346-348 | each listed line number designates a row, negative numbers counted from the end |
| TableFormats.CountIsMultiplicity | SortModuleTimes.py:351-354 | the success count is how often the row occurs among the designated rows |
| TableFormats.LineNoScore | SortModuleTimes.py:351-357 | `LineNo` answers `None` exactly when no listed number designates the row. Otherwise it answers 1 for a zero factor, else count × factor |
| TableFormats.Call | SortModuleTimes.py:329-358 | calling a line identifier: the base class answers `None`, `CatchAllLines` answers 1, and `LineNo` runs its counting loop to `Score` |
| TableFormats.ParseFormatSpec | SortModuleTimes.py:363-371 | a specification is rejected (`FormatNotSupported`) exactly when it is neither `None`, a string nor a dictionary; a dictionary keeps its alignment and truncation and gets `format` defaulted to `str` |
| TableFormats.ParseSpecsSpec | SortModuleTimes.py:374-383 | a specification list parses to the parsed specifications in order, or fails at the index of its first unsupported one |
| TableFormats.ParseSpecsFailurePersists | SortModuleTimes.py:377-382 | specifications after an unsupported one change nothing |
| TableFormats.KeyIndex | SortModuleTimes.py:384 | a selector's position in the format dictionary is where it is, and absent selectors have none |
| TableFormats.PutLookup | SortModuleTimes.py:384 | after `formats[sel] = v`, `sel` gives `v`, every other selector gives what it gave, and no selector is repeated |
| TableFormats.KeyIndexUnique | SortModuleTimes.py:384 | in a dictionary without repeated selectors, a selector's position is the one place that holds it |
| TableFormats.BestIsFirstGreatest | SortModuleTimes.py:394-404 | `SelectFormat` returns the format of the first selector with the strictly greatest score; a later equal score does not replace it, and no score gives `None` |
| Tabular.RowFormats | SortModuleTimes.py:410-411 | one selected format per row |
| Tabular.FormatCells | SortModuleTimes.py:420-435 | formatting the cells of a row gives one string per cell |
| Tabular.FormatCellsSpec | SortModuleTimes.py:420-435 | each cell is formatted with its own spec or the last one for cells beyond the list; formatting fails exactly at the first cell whose formatter is neither a string nor callable |
| Tabular.FormatCellsFailurePersists | SortModuleTimes.py:431-433 | once a cell fails, later cells change nothing |
| Tabular.FormatRow | SortModuleTimes.py:416-438 | a formatted row has one string per cell |
| Tabular.FormatRowSpec | SortModuleTimes.py:416-424 | a row without cells formats to nothing. A row with cells fails when no format was selected (`None[iItem]`) or when the format list is empty. Otherwise it formats by `FormatCells` |
| Tabular.Contents | SortModuleTimes.py:415-439 | the formatted table has one row per data row, each as long as its data row |
| Tabular.ContentsSpec | SortModuleTimes.py:415-439 | the table formats exactly when every row does, row by row; otherwise it fails with the first failing row's error |
| Tabular.ContentsFailurePersists | SortModuleTimes.py:416-438 | once a row fails, later rows change nothing |
| Tabular.ContentsUsable | SortModuleTimes.py:416-438 | once the rows formatted, every row with cells had a non-empty format |
| Tabular.StaleFrom | SortModuleTimes.py:442-444 | the stale look-up `AllFormats[iItem]` fails only with `NameError` (no cell yet) or with an index past the last row |
| Tabular.AlignCellAsWritten | SortModuleTimes.py:451-461 | as written, aligning a cell fails exactly when it is justified and has two or more words (`JustifyString` raises); otherwise the cell is aligned as `AlignCell` intends |
| Tabular.PadRow | SortModuleTimes.py:445-463 | padding a row as intended keeps its number of cells |
| Tabular.Laid | SortModuleTimes.py:442-465 | padding as intended keeps the number of rows and of cells in each |
| Tabular.PadCells | SortModuleTimes.py:445-463 | the padding of a row fails only with a `TypeError` of that row, at a cell that is justified and has two or more words; on success it has one cell per cell padded |
| Tabular.FirstUnjustifiableIs | SortModuleTimes.py:445-457 | the item loop stops at the first cell whose `JustifyString` raises: a cell that raises, with none before it that does, is the one any longer part of the row fails at |
| Tabular.PassFrom | SortModuleTimes.py:442-465 | the padding pass raises only `NameError`, an `IndexError` of the stale look-up, or a `TypeError` at a row it reached |
| Tabular.FirstUnjustifiable | SortModuleTimes.py:445-457 | the cell whose `JustifyString` raises is a justified cell of two or more words with no such cell before it in its row |
| Tabular.PassFromPads | SortModuleTimes.py:445-463 | with a live counter, row `k` pads exactly when the pass goes past it, then as `PadRow` intends, and otherwise fails with the error the pass names for that row |
| Tabular.PassWithoutJustify | SortModuleTimes.py:442-465 | when no cell is justified with two or more words, the padding pass fails exactly as the stale look-up does |
| Tabular.PassFromSpec | SortModuleTimes.py:442-465 | the padding pass gets through exactly when the stale look-up does and no cell is justified with two or more words |
| Tabular.PassFromNamesCell | SortModuleTimes.py:442-465 | a `TypeError` raised by the padding pass names the first cell of its row that is justified and has two or more words |
| Tabular.JustifiableFromAll | SortModuleTimes.py:296-300 | the row-by-row condition under which no `TypeError` is raised holds exactly when no cell of those rows is justified with two or more words |
| Tabular.StaleOnlyFails | SortModuleTimes.py:408-466 | when it succeeds, `FormatTable` as written returns the intended table. Its only extra failures are the stale look-up and the `TypeError` of `JustifyString` as written |
| Tabular.JustifiableTable | SortModuleTimes.py:408-466 | a table without justified cells of two or more words fails as written exactly where the stale look-up fails it, and otherwise is the intended table |
| Tabular.OneJustifiedCellFails | SortModuleTimes.py:455 | a table of one cell `"a b"` with a justified format raises `TypeError` as written, while the intended table exists |
| Tabular.CounterUnset | SortModuleTimes.py:417-444 | the cell counter is still unset after the formatting pass exactly when it started unset and no row has a cell |
| Tabular.StaleFromUnset | SortModuleTimes.py:444 | with the counter unset, the padding pass raises `NameError` at its first row |
| Tabular.StaleHarmless | SortModuleTimes.py:444 | the stale look-up raises `NameError` exactly when the table has rows but no cell, and never fails when some row has a cell and no row is longer than the table |
| Tabular.OneRowTwoCellsFails | SortModuleTimes.py:444 | a one-row, two-cell table makes `FormatTable` as written raise `IndexError`, while the intended table exists |
| Tabular.AlignCellFits | SortModuleTimes.py:451-461 | for the intended alignment (justified cells by the corrected `JustifyString`, in exact arithmetic), with default truncation every aligned cell that fits is exactly the column width. Right alignment puts the text last, left puts it first, and center puts `(w−len)//2` fill characters before it |
| Tabular.IntendedTableCells | SortModuleTimes.py:442-466 | the intended table has one padded cell per formatted cell, each the column width long under default truncation (justified cells in exact arithmetic) |
| Tabular.Lines | SortModuleTimes.py:469-470 | one line per row |
| Tabular.AlignedLines | SortModuleTimes.py:469-470 | under default truncation, two rows with the same number of cells join to lines of the same length |
| TabularClass.FormatItems | SortModuleTimes.py:417-436 | the cell loop of one row computes `FormatRow` |
| TabularClass.FormatContents | SortModuleTimes.py:414-439 | the row loop computes the formatted contents; on success the tracker holds the column widths and the stale counter is where the loop left it |
| TabularClass.AlignItem | SortModuleTimes.py:451-461 | one cell aligned and cut as written, `JustifyString` raising included: `AlignCellAsWritten` |
| TabularClass.PadItems | SortModuleTimes.py:445-463 | the cell loop as written, with `JustifyString` raising, gives the intended padding of the row when no cell is justified with two or more words, and otherwise the `TypeError` of the first such cell (`PadCells`) |
| TabularClass.PadContents | SortModuleTimes.py:442-465 | the padding pass fails with the first error of `PassFrom`, stale look-up or `TypeError`, when there is one; otherwise it gives every row padded as intended |
| TabularClass.PadRowOfPass | SortModuleTimes.py:444-463 | one row of the padding pass, the look-up `AllFormats[iItem]` included, fails with the error `PassFrom` gives from that row, or pads the row as intended and leaves the pass from the next row |
| TabularClass.TabularAlignment.constructor | SortModuleTimes.py:318-326 | a table built with no specifications has no rows and no formats |
| TabularClass.TabularAlignment.New | SortModuleTimes.py:318-326 | a table built with specifications fails exactly when they do not parse; otherwise it has no rows and one catch-all format |
| TabularClass.TabularAlignment.SetRowFormats | SortModuleTimes.py:374-385 | the dictionary entry of the selector is set to the parsed list, or nothing changes when a specification is not supported |
| TabularClass.TabularAlignment.SetDefaultFormats | SortModuleTimes.py:387-388 | the same, for the catch-all selector |
| TabularClass.TabularAlignment.AddData | SortModuleTimes.py:390 | the rows are appended and the formats kept |
| TabularClass.TabularAlignment.AddRow | SortModuleTimes.py:391 | one row is appended and the formats kept |
| TabularClass.TabularAlignment.SelectFormat | SortModuleTimes.py:394-405 | for a row index in range (negative from the end) the loop returns the first best-scoring format; otherwise it raises `IndexError` |
| TabularClass.TabularAlignment.SelectAll | SortModuleTimes.py:410-411 | the format of every row |
| TabularClass.TabularAlignment.FormatTable | SortModuleTimes.py:408-467 | `FormatTable` as written, stale look-up and `JustifyString` as written included |
| TabularClass.TabularAlignment.ToStrings | SortModuleTimes.py:469-470 | each padded row joined by the separator, or the error of `FormatTable` as written, the `TypeError` of a justified cell of two or more words included |
| OutputPath.LastIndex | ICARUSduplicateSubrunFiles.py:25 | the last `/` of a path has no `/` after it; a path without one has none |
| OutputPath.MatchStageSound | ICARUSduplicateSubrunFiles.py:16 | a match of `StagePattern` covers the end of the name from its start, with groups the pattern allows and no run |
| OutputPath.MatchStageComplete | ICARUSduplicateSubrunFiles.py:16 | a name that ends in a stage tag is matched at that tag's start, with its groups |
| OutputPath.MatchFirstStageSound | ICARUSduplicateSubrunFiles.py:17 | a match of `FirstStagePattern` covers the end of the name, with a run and a subrun |
| OutputPath.MatchFirstStageComplete | ICARUSduplicateSubrunFiles.py:17 | a name that ends in a first-stage tag is matched at that tag's start, with its run, subrun and process |
| OutputPath.DateFields | ICARUSduplicateSubrunFiles.py:96-104 | `parseDate` yields a year below 10000, then a month and a day below 100 |
| OutputPath.ParseDate | ICARUSduplicateSubrunFiles.py:96-104 | the `insert(0, …)` steps compute `DateFields` |
| OutputPath.DateFieldsRoundTrip | ICARUSduplicateSubrunFiles.py:96-104 | `parseDate(y*10000 + m*100 + d) == [y, m, d]` for `m, d < 100` and `y < 10000` |
| OutputPath.DateFieldsPack | ICARUSduplicateSubrunFiles.py:96-104 | an eight-digit date packs back from its fields |
| OutputPath.TimeFields | ICARUSduplicateSubrunFiles.py:107-117 | `parseTime` yields an hour, minute and second below 100 |
| OutputPath.ParseTime | ICARUSduplicateSubrunFiles.py:107-117 | the steps of `parseTime` compute `TimeFields`: hour, minute and second, each below 100 |
| OutputPath.TimeFieldsRoundTrip | ICARUSduplicateSubrunFiles.py:107-117 | an `hhmmss` integer with fields below 100 gives its fields back |
| OutputPath.Stage.RunAndSubRun | ICARUSduplicateSubrunFiles.py:126-128 | a stage's `runAndSubRun` is `Some((run, subRun))` exactly when `hasRun` (either is known), else `None` |
| OutputPath.MakeStage | ICARUSduplicateSubrunFiles.py:88-124 | a stage is built from a match with its tag, its process and a valid date. Run and subrun are present as in the match. A date `datetime` rejects raises |
| OutputPath.TagsAppend | ICARUSduplicateSubrunFiles.py:153-163 | stage tags concatenate in stage order |
| OutputPath.PeelStagesSpec | ICARUSduplicateSubrunFiles.py:149-159 | the loop peels stages off the end of the name. The remainder followed by the tags is the name, no peeled stage has a run, and the remainder ends in no stage |
| OutputPath.SplitBaseNameSpec | ICARUSduplicateSubrunFiles.py:144-172 | the configuration name followed by every tag, in order, is the base name. Only the first stage can have a run, and it then has both run and subrun. Without such a stage, the configuration name ends in no stage |
| OutputPath.SplitPath | ICARUSduplicateSubrunFiles.py:25 | `os.path.split` gives the text after the last `/` as the tail, or the whole path when there is no `/`; the head is the text up to that last `/` less its trailing `/`s, kept whole when it is all `/`s |
| OutputPath.StripSlashes | ICARUSduplicateSubrunFiles.py:25 | the head loses its trailing `/`s and nothing else: the result is a prefix, the removed suffix is all `/`s, and the result does not end with `/` |
| OutputPath.SplitExt | ICARUSduplicateSubrunFiles.py:26 | base name and suffix rebuild the file name; the suffix is empty or starts at the last `.` and holds no other `.`, and it is non-empty exactly when some `.` follows a character other than `.` |
| OutputPath.FindProtocolSep | ICARUSduplicateSubrunFiles.py:22-23 | the protocol separator found is the first `://` of the path, and none is found exactly when the path holds no `://` |
| OutputPath.PathFields.RunAndSubRun | ICARUSduplicateSubrunFiles.py:47-50 | `runAndSubRun` is `Some` exactly when `hasRun` (there is a first stage, with a run or subrun), and then holds the first stage's pair |
| OutputPath.PathFields.Run | ICARUSduplicateSubrunFiles.py:51-52 | `run` is the first stage's run when `hasRun`, and `None` otherwise |
| OutputPath.PathFields.SubRun | ICARUSduplicateSubrunFiles.py:53-54 | `subRun` is the first stage's subrun when `hasRun`, and `None` otherwise |
| OutputPath.PathFields.ToString | ICARUSduplicateSubrunFiles.py:75-82 | `__str__` fails (an attribute never set) exactly for a non-empty host name with no port |
| OutputPath.RSplitColon | ICARUSduplicateSubrunFiles.py:35 | `rsplit(':', 1)` splits at the last `:` |
| OutputPath.ParsePathSpec | ICARUSduplicateSubrunFiles.py:21-39 | `parse` keeps the text before the first `://` as protocol and the file name as is. It splits the base name into configuration name and tags. Without a protocol there is no host and the directory path is as given. With one, the first directory is the host (and port) and is blanked |
| OutputPath.WithHostSpec | ICARUSduplicateSubrunFiles.py:28-37 | the host step keeps the file fields, and splits a host with `:` at its last `:` into host and port |
| OutputPath.BareNamePrintsWithSlash | ICARUSduplicateSubrunFiles.py:44-82 | a bare file name prints back with a leading `/`, because the empty directory path is joined in |
| OutputPath.LocalPathRoundTrip | ICARUSduplicateSubrunFiles.py:21-82 | a local path with a directory, parsed and printed, gives the path back |
| OutputPath.RemotePathRoundTrip | ICARUSduplicateSubrunFiles.py:21-82 | a `proto://host:port/path` with a non-zero port, parsed and printed, gives the path back |
| OutputPath.OutputFilePathParser.constructor | ICARUSduplicateSubrunFiles.py:7-17 | an unparsed parser has empty fields |
| OutputPath.OutputFilePathParser.New | ICARUSduplicateSubrunFiles.py:19 | building a parser fails exactly when parsing does; otherwise its fields are `ParsePath(path)` |
| OutputPath.OutputFilePathParser.ParseBaseName | ICARUSduplicateSubrunFiles.py:144-172 | the loop of `_parseBaseName` sets the configuration name and stages to `SplitBaseName`, touching no other field |
| OutputPath.OutputFilePathParser.AssignDirs | ICARUSduplicateSubrunFiles.py:28-37 | the directory, host and port assignments leave exactly the fields `WithHost` describes, and fail only where it does, on a port that is not an integer |
| OutputPath.OutputFilePathParser.Parse | ICARUSduplicateSubrunFiles.py:21-39 | `parse` assigns the fields `ParsePath` describes; the port keeps its old value when the host has no `:` |
| DuplicateSubruns.SourceList | ICARUSduplicateSubrunFiles.py:213 | the named lists, or standard input when none is named |
| DuplicateSubruns.StepSucceeds | ICARUSduplicateSubrunFiles.py:232-236 | one line ends the loop exactly when it names a file whose path does not parse |
| DuplicateSubruns.StepCounts | ICARUSduplicateSubrunFiles.py:226-235 | one step counts an unreadable list as an error and a file line as a file |
| DuplicateSubruns.StepEntry | ICARUSduplicateSubrunFiles.py:238-245 | a line without a key leaves the dictionary alone. A new key enters with its path and provenance, and a known key gets the provenance appended |
| DuplicateSubruns.StepMet | ICARUSduplicateSubrunFiles.py:238-245 | one more line keeps `met` equal to the first path and the listings of each key read so far |
| DuplicateSubruns.StepDuplicates | ICARUSduplicateSubrunFiles.py:244 | one more line keeps `nDuplicates` equal to the number of keys listed more than once |
| DuplicateSubruns.StepStdout | ICARUSduplicateSubrunFiles.py:239-240 | one more line keeps standard output equal to the unique lines read so far |
| DuplicateSubruns.StepStderr | ICARUSduplicateSubrunFiles.py:242-251 | one more line keeps standard error equal to the duplicate reports of the lines read so far |
| DuplicateSubruns.FoldSucceeds | ICARUSduplicateSubrunFiles.py:223-256 | the loop ends normally exactly when every file line parses |
| DuplicateSubruns.FirstUnparsed | ICARUSduplicateSubrunFiles.py:234-236 | when some file line does not parse, the first such line, every line before it parsing |
| DuplicateSubruns.FoldHalts | ICARUSduplicateSubrunFiles.py:231-251 | a loop that raises stops at the first unparsable path with that path's error, that line counted in `nFiles`, and the counts, `met` and both outputs of the lines before it |
| DuplicateSubruns.FailureStays | ICARUSduplicateSubrunFiles.py:236 | a parse error ends the loop; nothing read after it matters |
| DuplicateSubruns.FoldCounts | ICARUSduplicateSubrunFiles.py:216-235 | `nErrors` is the number of unreadable lists, and `nFiles` the number of non-blank, non-comment lines |
| DuplicateSubruns.FoldMet | ICARUSduplicateSubrunFiles.py:238-245 | `met` holds exactly the keys listed, each with the path of its first file and every place it was listed, in order |
| DuplicateSubruns.FoldDuplicates | ICARUSduplicateSubrunFiles.py:244 | `nDuplicates` is the number of run/subrun pairs listed more than once |
| DuplicateSubruns.FoldStdout | ICARUSduplicateSubrunFiles.py:239-240 | standard output is every raw line whose file has no run, or whose key was not met before, when unique files are printed, and nothing otherwise |
| DuplicateSubruns.FoldStderr | ICARUSduplicateSubrunFiles.py:242-251 | standard error is one report per repeated listing, naming its first listing and first path, when duplicates are printed, and nothing otherwise |
| DuplicateSubruns.RunAppend | ICARUSduplicateSubrunFiles.py:223-256 | reading two runs of lines one after the other is reading them together |
| DuplicateSubruns.FindDuplicates | ICARUSduplicateSubrunFiles.py:213-256 | the loop over the lists computes `Fold` of their lines, with the provenance format chosen by the number of lists, including the error and the variables and output left by an unparsable path |
| DuplicateSubruns.ReadList | ICARUSduplicateSubrunFiles.py:231-255 | the loop over the lines of one list computes `Run` of its lines, stopping at the first unparsable path with the state as it then stands |
| DuplicateSubruns.Consider | ICARUSduplicateSubrunFiles.py:233-238 | one line is stripped, skipped when blank or a comment, and parsed; this computes `Step` |
| DuplicateSubruns.Record | ICARUSduplicateSubrunFiles.py:239-254 | the dictionary update and the two prints of one file line compute `Step` |
| DuplicateSubruns.ExitCode | ICARUSduplicateSubrunFiles.py:273 | the exit status is 0 exactly when every list could be opened, else 1 |
| DuplicateSubruns.MostListings | ICARUSduplicateSubrunFiles.py:266 | the largest number of listings is that of some key, and no key has more |
| DuplicateSubruns.RunlessListBreaksSummary | ICARUSduplicateSubrunFiles.py:262-266 | as written, a list whose files all lack a run makes the summary raise on `max()` of nothing |
| DuplicateSubruns.IntendedSummaryReports | ICARUSduplicateSubrunFiles.py:259-269 | the intended summary never fails, and says "all unique" exactly when no run/subrun pair is listed twice |
| DuplicateSubruns.DistinctEndings | ICARUSduplicateSubrunFiles.py:263-269 | the two summary forms are different texts |
| FindInPath.EndsWith | FindInPath.py:48-52 | true exactly when some listed suffix ends the string; false for no suffixes |
| FindInPath.WrapString | FindInPath.py:80-84 | the result starts with `left` and ends with `right`, and is `s` with at most `left` put before and `right` after |
| FindInPath.WrapStringKeepsWrapped | FindInPath.py:81-82 | a string that already starts with `left` and ends with `right` is unchanged |
| FindInPath.WrapStringIdempotent | FindInPath.py:80-84 | wrapping twice is wrapping once |
| FindInPath.WrapEmptyInStars | FindInPath.py:80-84 | `WrapString("", "*", "*") == "*"`: the added front already ends the string |
| FindInPath.PathJoin | FindInPath.py:68 | `os.path.join(dir, item)` ends with the item. An absolute item replaces the directory, and a separator is added only when the directory lacks one |
| FindInPath.AnyMatches | FindInPath.py:40-43 | some pattern matches the file name |
| FindInPath.MatchesPatterns | FindInPath.py:36-44 | no patterns accept everything; otherwise true exactly when some pattern matches the file name |
| FindInPath.FilterMembers | FindInPath.py:62-77 | a record is found exactly for a listed item that passes both filters, with its directory, name and joined path |
| FindInPath.FilterSource | FindInPath.py:62-77 | every record found names a listed item that passes both filters |
| FindInPath.FilterKeeps | FindInPath.py:62-77 | every listed item that passes both filters is found |
| FindInPath.FilterAppend | FindInPath.py:62-75 | the records keep the listing order |
| FindInPath.FindInDir | FindInPath.py:55-78 | the listing loop computes the kept records; a missing directory gives none |
| FindInPath.RegexPatterns | FindInPath.py:92-97 | one regular expression per filter |
| FindInPath.GlobPatterns | FindInPath.py:99-106 | one shell pattern per filter |
| FindInPath.RegexAt | FindInPath.py:92-97 | each regular expression compiles, in its own place, to itself (anchored with `^` and `$` in full-match mode) |
| FindInPath.GlobAt | FindInPath.py:99-106 | each shell pattern compiles, in its own place, to itself (surrounded by `*` unless in full-match mode) |
| FindInPath.PatternsShape | FindInPath.py:92-106 | in full-match mode every regular expression is wrapped in `^…$` and the shell patterns are kept; otherwise the regular expressions are kept and every shell pattern is wrapped in `*…*`. The regular expressions come first, and nothing is dropped |
| FindInPath.CompileRegexes | FindInPath.py:92-97 | the first loop of `Find` computes `RegexPatterns` |
| FindInPath.CompileGlobs | FindInPath.py:99-106 | the second loop appends `GlobPatterns` |
| FindInPath.FindAllMembers | FindInPath.py:108-111 | a record is found exactly for an item, listed in an existing search directory, that passes the filters |
| FindInPath.Find | FindInPath.py:87-112 | `Find` is the concatenation of the per-directory results in search order |
| FindInPath.FormatRecords | FindInPath.py:115-125 | exactly one formatted string per record, in input order |
| FindInPath.Dedup | FindInPath.py:232 | the merged list holds exactly the listed directories |
| FindInPath.FirstIndex | FindInPath.py:232 | the first occurrence of a directory |
| FindInPath.FirstIndexUnique | FindInPath.py:232 | a position that holds a directory not met before is its first occurrence |
| FindInPath.DedupSpec | FindInPath.py:231-232 | the merged list has no repeats, in first-occurrence order |
| FindInPath.Reversed | FindInPath.py:236 | `reverse()` mirrors the list |
| FindInPath.SearchDirsSpec | FindInPath.py:221-236 | the search directories are exactly the listed ones, none twice, in first-listing order, or in the opposite order when reversed |
| FindInPath.AddSearchDirs | FindInPath.py:231-232 | the inner loop adds each directory not yet met, at the end |
| FindInPath.MergeSearchDirs | FindInPath.py:220-236 | the variable loop computes `SearchDirs` and reports each unset variable |
| FindInPath.VariableList | FindInPath.py:166-222 | as written, the variable list is `None` without a variable option, and the loop over it fails |
| FindInPath.NoVariableOptionFails | FindInPath.py:166-222 | without any variable option the program fails, where the help text promises `PATH` |
| FindInPath.IntendedVariableList | FindInPath.py:170-173 | as intended, `PATH` when no variable option is given, else the given list |
| FindInPath.IntendedVariableListAgrees | FindInPath.py:166-222 | the intended list agrees with the program whenever a variable option is given |

## Left out

- Opening, decompressing and reading files (`OPEN`, `open`, `readlines`, `os.listdir`, `os.path.isdir`, `os.environ`), printing, logging and `sys.exit`: files are their lines, directories a map to their listings, the environment a map, and output the sequences of lines the programs would print.
- Command-line parsing in all three programs: options are parameters.
- Floating point: `Stats` works over real numbers, so rounding is not modelled. `math.sqrt`, `float()` and the `%g`, `%4.1f` and `Format %` renderings are function parameters.
- Statistics.Stats.Rms, Stdev, Stdevp: state only their sign and their zero cases, because the square root is a parameter.
- Alignment.JustifyString, JustifiedWidth, WidthCheck, Tabular.AlignCellFits, IntendedTableCells: the corrected justification loop is modelled in exact arithmetic, where gap `k` of `m` receives the integer share `(k*d)//m - ((k-1)*d)//m` of the fill `d`, as the comment trace 1.4 … 7.0 of lines 299-308 intends. In Python's doubles, `totalSpace` adds `spaceSize` once per gap and can end just below `d` (`d = 8` over `m = 6` gaps reaches 7.999999999999999), so `int()` gives the last gap one fill character less and the line comes out one character short of `w`. The model does not capture that rounding.
- `Stats(bFloat=False)`: the integer mode of the accumulator is not modelled separately; reals hold integers exactly.
- `TimingReader`: the reading loop is modelled on values: module order, per-module records and event records. Updating the `JobStatsClass` and `TimeModuleStatsClass` objects in place is modelled by `Registry`, `ModuleStats` and `FeedSeries` on their own. The loop itself does not operate on those objects, so aliasing between the registry and the series is not captured there.
- The presentation part of SortModuleTimes (lines 546-561) and `Print` (472-473): the table is modelled up to `ToStrings`.
- `MaxItemLengthsClass.__len__`, `__iter__` and `__getitem__`, and `JobStatsClass.__iter__` and `__len__`: plain list access.
- `Alignment.CenterString`: the right fill `w − left` makes every centered string `len(s)+w` long. The model keeps this. The default truncation at line 461 hides it, as `CenterTruncated` shows; with `truncate` off, centered cells are wider than their column.
- AlignCellFits: states the column width for the intended alignment, where a justified cell uses the corrected `JustifyString`. As written, such a cell of two or more words raises `TypeError` instead (`AlignCellAsWritten`); every cell that aligns as written is the intended one, so the widths hold for it.
- Cell formatting with a `%` pattern or a callable is a function parameter. A pattern that does not fit its value raises in Python; the model does not cover that.
- Regular expressions: matching is a parameter. `fnmatch.translate` is represented by keeping the shell pattern in a `Glob` value, and compilation errors are not modelled.
- `OutputPath.MakeStage`: the microsecond computation of `parseTime` (line 111) is left out. Only the date fields `datetime.datetime` checks are modelled.
- `OutputFilePathParser.dump` and `JobStageClass.dump`: debugging text, not used by the loop.
- `Strings`: `strip` and `split` treat ASCII whitespace as blank, not every Unicode space. `AllDigits` and `ParseInt` accept only ASCII digits. ICARUSduplicateSubrunFiles.py is a Python 3 script: there the `\d` of its path patterns and `int()` also accept other Unicode decimal digits, and `int()` (the port at line 36) also accepts underscores between digits and surrounding blanks.
- `TabularClass.TabularAlignment.SetRowFormats`, `SetDefaultFormats` and `TableFormats.BestIsFirstGreatest`: the format dictionary is keyed by selector value and kept in insertion order. Python keys the selector objects by identity and iterates a dictionary in no fixed order. So each `SetDefaultFormats` call, which builds a new `CatchAllLines()`, adds a second entry in Python but replaces the first here, and between equal scores the model picks the earlier entry where Python's choice depends on the dictionary's order.
- `FindInPath`: the separator is one character (`--separator` takes any string in Python). `options.Suffixes` is `None` when no suffix is given, which the model writes as the empty list.
- `FindInPath`: the "No matches." exit with status 2 (lines 241-243) is not modelled; it is logging and `sys.exit`.
- `DuplicateSubruns`: a path that cannot be parsed raises and ends the program. The model ends the loop with a `Halt` that holds the error together with the loop variables and the output printed so far (`FoldHalts`); the traceback Python prints is not modelled.
- `DuplicateSubruns.MostListings`, `SummaryAsWritten` and `SummaryIntended` are ghost, because the maximum is picked from a map's keys.

## Findings

| source | as written | input that shows it | evidently intended | confidence | as-written member | corrected member |
|---|---|---|---|---|---|---|
| SortModuleTimes.py:300 | `float(f - sum(map(len, tokens)))` subtracts a number from the fill string, so `JustifyString` raises `TypeError` for every text of two or more tokens, and so does a table with such a justified cell | `JustifyString("a b", 5)` | `w - sum(...)`: the missing width spread over the gaps, the result exactly `w` wide (in exact arithmetic; see `Alignment.JustifyString` under "## Left out") | high, not executed | Alignment.JustifyTwoWordsFails | Alignment.JustifiedWidth |
| SortModuleTimes.py:311 | `assert assignedSpace == w` compares the fill alone with the whole width, so even with line 300 corrected the check fails for every text that fits and holds a character other than the fill (`Alignment.WidthCheckAsWritten`) | `JustifyString("a b", 5)` with line 300 corrected: 3 fill characters, not 5 | `assignedSpace + sum(map(len, tokens)) == w` when the text fits | high, not executed | Alignment.WidthCheckAsWrittenFails | Alignment.WidthCheck |
| SortModuleTimes.py:444 | the padding pass reads `AllFormats[iItem]` with `iItem` left over from the previous loop. The table raises `IndexError` when a row is longer than the table has rows, and `NameError` when no cell exists | a one-row table with two cells | no look-up there: `Spec` is set per cell just below | high, not executed | Tabular.OneRowTwoCellsFails | Tabular.IntendedTableCells |
| ICARUSduplicateSubrunFiles.py:262-266 | "all unique" is decided by `len(met) == nFiles`, but files without a run never enter `met`. When no listed file has a run, `max()` runs over an empty dictionary and raises `ValueError` | `--summary` with one list holding one file name that has no run | "all unique" exactly when no run/subrun pair is listed twice, and no failure | medium, not executed | DuplicateSubruns.RunlessListBreaksSummary | DuplicateSubruns.IntendedSummaryReports |
| FindInPath.py:166-222 | `VarNames` has no default, so without `--varname`, `-B`, `-L` or `-F` the loop iterates over `None` and raises `TypeError` | running with no variable option | `PATH`, as the `--bin` help text calls it the default | medium, not executed | FindInPath.NoVariableOptionFails | FindInPath.IntendedVariableList |

=== FILE: alignment.dfy ===
/**
 * The cell helpers of the table printer of SortModuleTimes.py: the column
 * width tracker `MaxItemLengthsClass` and the padding functions
 * `LeftString`, `RightString`, `CenterString` and `JustifyString`.
 *
 * A fill "character" `f` is a `char`: `JustifyString` asserts that it is one
 * character long, and the table printer only ever uses the blank.
 */
module Alignment {
  import opened Wrappers
  import opened Strings

  /** `f * n`: `n` copies of `f`, none when `n` is not positive. */
  function Fill(f: char, n: int): (r: string)
    ensures |r| == (if n > 0 then n else 0)
    ensures forall i :: 0 <= i < |r| ==> r[i] == f
  {
    seq(if n > 0 then n else 0, _ => f)
  }

  function Max(a: int, b: int): int {
    if a < b then b else a
  }

  /** `s[:w]` */
  function Truncate(s: string, w: nat): (r: string)
    ensures |r| == (if |s| < w then |s| else w) && r == s[..|r|]
  {
    if |s| <= w then s else s[..w]
  }

  /** `LeftString(s, w, f)`: `s` padded on the right up to width `w`. */
  function LeftString(s: string, w: nat, f: char): (r: string)
    ensures |r| == Max(|s|, w)
    ensures r[..|s|] == s
    ensures forall i :: |s| <= i < |r| ==> r[i] == f
  {
    s + Fill(f, w - |s|)
  }

  /** `RightString(s, w, f)`: `s` padded on the left up to width `w`. */
  function RightString(s: string, w: nat, f: char): (r: string)
    ensures |r| == Max(|s|, w)
    ensures r[|r| - |s|..] == s
    ensures forall i :: 0 <= i < |r| - |s| ==> r[i] == f
  {
    var r := Fill(f, w - |s|) + s;
    assert r[|r| - |s|..] == s;
    r
  }

  /** The left fill of `CenterString`: half of what is missing, rounded down. */
  function CenterLeft(s: string, w: nat): nat {
    Max(0, w - |s|) / 2
  }

  /**
   * `CenterString(s, w, f)`. The right fill is `w` minus the left fill, not
   * the width still missing, so the result is always `|s| + w` long: `s`
   * follows the left fill and only fill characters follow `s`.
   */
  function CenterString(s: string, w: nat, f: char): (r: string)
    ensures |r| == |s| + w
    ensures forall i :: 0 <= i < CenterLeft(s, w) ==> r[i] == f
    ensures r[CenterLeft(s, w)..CenterLeft(s, w) + |s|] == s
    ensures forall i :: CenterLeft(s, w) + |s| <= i < |r| ==> r[i] == f
  {
    var left := CenterLeft(s, w);
    var r := Fill(f, left) + s + Fill(f, w - left);
    assert r[left..left + |s|] == s;
    r
  }

  /**
   * Cut to the column width, as the table printer does by default, a
   * centered string that fits is exactly `w` long: `(w - |s|) / 2` fill
   * characters, `s`, and the rest of the width in fill characters.
   */
  lemma CenterTruncated(s: string, w: nat, f: char)
    requires |s| <= w
    ensures var r := Truncate(CenterString(s, w, f), w);
      r == Fill(f, (w - |s|) / 2) + s + Fill(f, w - |s| - (w - |s|) / 2)
  {
    var left := (w - |s|) / 2;
    var c := CenterString(s, w, f);
    var r := Truncate(c, w);
    var e := Fill(f, left) + s + Fill(f, w - |s| - left);
    assert |r| == w == |e|;
    forall i | 0 <= i < w ensures r[i] == e[i] {
      if left <= i < left + |s| {
        assert c[left..left + |s|][i - left] == s[i - left];
      }
    }
  }

  /** A centered string longer than the width, cut to it, is its first `w` characters. */
  lemma CenterTruncatedLong(s: string, w: nat, f: char)
    requires |s| > w
    ensures Truncate(CenterString(s, w, f), w) == s[..w]
  {
    var c := CenterString(s, w, f);
    assert c[..|s|] == c[0..0 + |s|];
  }

  /** The total length of the pieces. */
  function SumLen(tokens: seq<string>): nat {
    if tokens == [] then 0 else SumLen(tokens[..|tokens| - 1]) + |tokens[|tokens| - 1]|
  }

  /** Pieces joined with a one-character separator: their lengths plus one per gap. */
  lemma {:induction false} JoinLength(parts: seq<string>, c: char)
    requires parts != []
    ensures |Join(parts, [c])| == SumLen(parts) + |parts| - 1
    decreases |parts|
  {
    if |parts| > 1 {
      JoinLength(parts[1..], c);
      SumLenFront(parts);
    }
  }

  lemma {:induction false} SumLenFront(parts: seq<string>)
    requires parts != []
    ensures SumLen(parts) == |parts[0]| + SumLen(parts[1..])
    decreases |parts|
  {
    if |parts| > 1 {
      var init := parts[..|parts| - 1];
      SumLenFront(init);
      assert init[1..] == parts[1..][..|parts| - 2];
    }
  }

  /**
   * The fill characters the corrected `JustifyString` spreads over the `m`
   * gaps between the tokens: what the width leaves over, at least one per gap.
   */
  function Spread(w: nat, total: nat, m: nat): nat {
    Max(m, w - total)
  }

  /** The fill characters given to the first `k` gaps: `k * d / m` rounded down. */
  function Assigned(k: nat, d: nat, m: nat): nat
    requires m > 0
  {
    (k * d) / m
  }

  /**
   * The first `k + 1` tokens joined by the gaps the corrected `JustifyString`
   * computes: gap `j` gets `Assigned(j) - Assigned(j - 1)` fill characters.
   */
  function JustPrefix(tokens: seq<string>, k: nat, d: nat, f: char): string
    requires k < |tokens| && |tokens| > 1
  {
    if k == 0 then tokens[0]
    else
      var m := |tokens| - 1;
      JustPrefix(tokens, k - 1, d, f) + Fill(f, Assigned(k, d, m) - Assigned(k - 1, d, m)) + tokens[k]
  }

  /**
   * What `JustifyString(s, w, f)` evidently means to return: a string with
   * no gap between `f`-separated tokens centered; otherwise the tokens with
   * the width left over spread over the gaps, at least one fill per gap.
   */
  function Justified(s: string, w: nat, f: char): string {
    var tokens := SplitOn(s, f);
    if |tokens| <= 1 then CenterString(s, w, f)
    else JustPrefix(tokens, |tokens| - 1, Spread(w, SumLen(tokens), |tokens| - 1), f)
  }

  /** `int(x)`: truncation toward zero. */
  function Trunc(x: real): int {
    if x >= 0.0 then x.Floor else -((-x).Floor)
  }

  lemma FloorBetween(x: real, q: int)
    requires q as real <= x < q as real + 1.0
    ensures x.Floor == q
  {
  }

  /** The real quotient `n / m` lies between the integer quotient and the next integer. */
  lemma QuotientBounds(n: nat, m: nat)
    requires m > 0
    ensures (n / m) as real <= n as real / m as real < (n / m) as real + 1.0
  {
    var q, r := n / m, n % m;
    assert n == q * m + r && 0 <= r < m;
    var x := n as real / m as real;
    assert x * m as real == n as real;
    assert (x - q as real) * m as real == r as real;
    RealFactorBounds(x - q as real, m as real, r as real);
  }

  lemma RealFactorBounds(y: real, m: real, p: real)
    requires m > 0.0 && y * m == p && 0.0 <= p < m
    ensures 0.0 <= y < 1.0
  {
  }

  /** `max(1., a / m)` is the spread `max(m, a)` shared over `m` gaps. */
  lemma SpaceSize(a: int, m: nat)
    requires m > 0
    ensures (if a as real / m as real > 1.0 then a as real / m as real else 1.0) == Max(m, a) as real / m as real
  {
    var y := a as real / m as real;
    assert y * m as real == a as real;
    if a <= m {
      RealAtMostOne(y, m as real, a as real);
    }
  }

  lemma RealAtMostOne(y: real, m: real, p: real)
    requires m > 0.0 && y * m == p && p <= m
    ensures y <= 1.0
  {
  }

  /** `a >= b * m` gives `a / m >= b`. */
  lemma DivAtLeast(a: nat, b: nat, m: nat)
    requires m > 0 && a >= b * m
    ensures a / m >= b
  {
    var q := a / m;
    assert a == q * m + a % m;
    assert (q + 1) * m > b * m;
    ProductOrder(q + 1, b, m);
  }

  lemma ProductOrder(x: int, y: int, m: int)
    requires m > 0 && x * m > y * m
    ensures x > y
  {
  }

  /** Successive shares never decrease, and with `d >= m` each gap gets at least one. */
  lemma AssignedStep(k: nat, d: nat, m: nat)
    requires m > 0 && k > 0
    ensures Assigned(k, d, m) >= Assigned(k - 1, d, m)
    ensures d >= m ==> Assigned(k, d, m) >= Assigned(k - 1, d, m) + 1
  {
    var q := ((k - 1) * d) / m;
    assert (k - 1) * d == q * m + ((k - 1) * d) % m;
    assert k * d == (k - 1) * d + d;
    DivAtLeast(k * d, q, m);
    if d >= m {
      DivAtLeast(k * d, q + 1, m);
    }
  }

  /**
   * The corrected `JustifyString(s, w, f)`, with the running share of the
   * width kept as a real number and cut with `int()` as the loop does. The
   * closing `assert`, corrected as well, is not evaluated: `WidthCheck`
   * proves that it holds of the fill the loop assigns.
   */
  method JustifyString(s: string, w: nat, f: char) returns (r: string)
    ensures r == Justified(s, w, f)
  {
    var tokens := SplitOn(s, f);
    if |tokens| <= 1 {
      return CenterString(s, w, f);
    }
    var m := |tokens| - 1;
    var d := Spread(w, SumLen(tokens), m);
    var share := (w - SumLen(tokens)) as real / m as real;
    var spaceSize := if share > 1.0 then share else 1.0;
    SpaceSize(w - SumLen(tokens), m);
    var totalSpace := 0.0;
    var assignedSpace := 0;
    r := tokens[0];
    var k := 1;
    while k <= m
      invariant 1 <= k <= m + 1
      invariant totalSpace == RunningTotal(k - 1, spaceSize)
      invariant assignedSpace == Assigned(k - 1, d, m)
      invariant r == JustPrefix(tokens, k - 1, d, f)
    {
      ShareStep(k, d, m, spaceSize);
      totalSpace := totalSpace + spaceSize;
      var tokenSpace := Trunc(totalSpace - assignedSpace as real);
      r := r + Fill(f, tokenSpace) + tokens[k];
      assignedSpace := assignedSpace + tokenSpace;
      k := k + 1;
    }
  }

  /** `totalSpace` after `k` turns: the space size added `k` times. */
  function RunningTotal(k: nat, spaceSize: real): real {
    if k == 0 then 0.0 else RunningTotal(k - 1, spaceSize) + spaceSize
  }

  lemma {:induction false} RunningTotalIsProduct(k: nat, spaceSize: real)
    ensures RunningTotal(k, spaceSize) == k as real * spaceSize
  {
    if k > 0 {
      RunningTotalIsProduct(k - 1, spaceSize);
    }
  }

  /**
   * One turn of the loop of `JustifyString`: cutting off what the first
   * `k - 1` gaps were given from the running total leaves the share of gap `k`.
   */
  lemma ShareStep(k: nat, d: nat, m: nat, spaceSize: real)
    requires m > 0 && k > 0 && spaceSize == d as real / m as real
    ensures Trunc(RunningTotal(k, spaceSize) - Assigned(k - 1, d, m) as real) ==
      Assigned(k, d, m) - Assigned(k - 1, d, m)
  {
    var x := RunningTotal(k, spaceSize);
    var q, a := Assigned(k, d, m), Assigned(k - 1, d, m);
    RunningTotalBounds(k, d, m, spaceSize);
    AssignedStep(k, d, m);
    TruncShare(x, q, a);
  }

  /** After `k` turns the running total lies between `Assigned(k)` and the next integer. */
  lemma RunningTotalBounds(k: nat, d: nat, m: nat, spaceSize: real)
    requires m > 0 && spaceSize == d as real / m as real
    ensures Assigned(k, d, m) as real <= RunningTotal(k, spaceSize) < Assigned(k, d, m) as real + 1.0
  {
    var n := k * d;
    RunningTotalIsProduct(k, spaceSize);
    ScaledQuotient(k, d, m);
    QuotientBounds(n, m);
  }

  lemma ScaledQuotient(k: nat, d: nat, m: nat)
    requires m > 0
    ensures k as real * (d as real / m as real) == (k * d) as real / m as real
  {
  }

  lemma TruncShare(x: real, q: int, a: int)
    requires q as real <= x < q as real + 1.0 && a <= q
    ensures Trunc(x - a as real) == q - a
  {
    FloorBetween(x - a as real, q - a);
  }

  /** The length of the first `k + 1` tokens with their gaps. */
  lemma {:induction false} JustPrefixLength(tokens: seq<string>, k: nat, d: nat, f: char)
    requires k < |tokens| && |tokens| > 1
    ensures |JustPrefix(tokens, k, d, f)| == SumLen(tokens[..k + 1]) + Assigned(k, d, |tokens| - 1)
  {
    if k > 0 {
      JustPrefixLength(tokens, k - 1, d, f);
      AssignedStep(k, d, |tokens| - 1);
      assert tokens[..k + 1][..k] == tokens[..k];
    }
  }

  /**
   * A string with at least two tokens comes out of the corrected
   * `JustifyString` exactly `w` long when it fits, and unchanged in length
   * when it does not (every gap keeps at least one fill character).
   */
  lemma JustifiedWidth(s: string, w: nat, f: char)
    requires |SplitOn(s, f)| >= 2
    ensures |Justified(s, w, f)| == Max(|s|, w)
  {
    var tokens := SplitOn(s, f);
    var m := |tokens| - 1;
    var total := SumLen(tokens);
    var d := Spread(w, total, m);
    var r := JustPrefix(tokens, m, d, f);
    assert Justified(s, w, f) == r;
    JustPrefixLength(tokens, m, d, f);
    assert tokens[..m + 1] == tokens;
    MulDivCancel(m, d);
    assert |r| == total + d;
    JoinSplitOn(s, f);
    JoinLength(tokens, f);
    assert |s| == total + m;
  }

  /**
   * The closing check of `JustifyString` as meant: all the fill characters
   * are assigned by the last gap, and when the text fits the width they and
   * the tokens make up exactly `w`.
   */
  lemma WidthCheck(s: string, w: nat, f: char)
    requires |SplitOn(s, f)| >= 2
    ensures var tokens := SplitOn(s, f);
      var d := Spread(w, SumLen(tokens), |tokens| - 1);
      Assigned(|tokens| - 1, d, |tokens| - 1) == d && (|s| <= w ==> d + SumLen(tokens) == w)
  {
    var tokens := SplitOn(s, f);
    MulDivCancel(|tokens| - 1, Spread(w, SumLen(tokens), |tokens| - 1));
    JoinSplitOn(s, f);
    JoinLength(tokens, f);
    assert |s| == SumLen(tokens) + |tokens| - 1;
  }

  /**
   * The closing check as written, `assignedSpace == w`, fails even with the
   * fill size corrected: `"a b"` at width 5 spreads 3 fill characters over
   * its one gap, not 5.
   */
  lemma WidthCheckAsWrittenFails()
    ensures var tokens := SplitOn("a b", ' ');
      |tokens| == 2 && Assigned(1, Spread(5, SumLen(tokens), |tokens| - 1), 1) == 3 != 5
  {
    assert CharEnd("a b", ' ') == 1;
    assert "a b"[2..] == "b" && "a b"[..1] == "a";
    assert CharEnd("b", ' ') == 1;
    assert SplitOn("b", ' ') == ["b"];
    assert SplitOn("a b", ' ') == ["a", "b"];
  }

  /**
   * The closing check as written, `assignedSpace == w`, with the fill size
   * corrected, holds for a text that fits exactly when its tokens are all
   * empty: when the text is nothing but fill characters.
   */
  lemma WidthCheckAsWritten(s: string, w: nat, f: char)
    requires |SplitOn(s, f)| >= 2 && |s| <= w
    ensures var tokens := SplitOn(s, f);
      Assigned(|tokens| - 1, Spread(w, SumLen(tokens), |tokens| - 1), |tokens| - 1) == w <==> SumLen(tokens) == 0
  {
    WidthCheck(s, w, f);
  }

  lemma MulDivCancel(m: nat, d: nat)
    requires m > 0
    ensures Assigned(m, d, m) == d
  {
    var q := (m * d) / m;
    assert m * d == d * m;
    DivAtLeast(m * d, d, m);
    assert q * m + (m * d) % m == m * d;
    ProductAtMost(q, d, m);
  }

  lemma ProductAtMost(x: int, y: int, m: int)
    requires m > 0 && x * m <= y * m
    ensures x <= y
  {
  }

  /** Every gap between two tokens of a justified string gets at least one fill character. */
  lemma JustifiedGaps(tokens: seq<string>, k: nat, d: nat)
    requires 0 < k < |tokens| && d >= |tokens| - 1
    ensures Assigned(k, d, |tokens| - 1) - Assigned(k - 1, d, |tokens| - 1) >= 1
  {
    AssignedStep(k, d, |tokens| - 1);
  }

  /** The error `JustifyString` raises as written. */
  datatype JustifyError = TypeError

  /**
   * `JustifyString(s, w, f)` as written: the fill size is computed from
   * `f - sum(...)`, a string minus a number, so every string with two tokens
   * or more raises a `TypeError`; only the centered case returns.
   */
  function JustifyStringAsWritten(s: string, w: nat, f: char): (r: Result<string, JustifyError>)
    ensures r.Failure? <==> |SplitOn(s, f)| >= 2
    ensures r.Success? ==> r.value == Justified(s, w, f)
  {
    if |SplitOn(s, f)| <= 1 then Success(CenterString(s, w, f)) else Failure(TypeError)
  }

  /** Two words never come out of `JustifyString` as written. */
  lemma JustifyTwoWordsFails()
    ensures JustifyStringAsWritten("a b", 5, ' ').Failure?
  {
    assert CharEnd("a b", ' ') == 1;
  }

  /** `new` value of a column width after a cell of length `len`: the larger of the two. */
  function Wider(current: Option<nat>, len: nat): nat {
    if current.None? || current.value < len then len else current.value
  }

  /**
   * The widths after `add(items)`: one slot per column of the longer of the
   * two, each column of `items` widened to its cell's length.
   */
  function Widened(m: seq<Option<nat>>, items: seq<string>): (r: seq<Option<nat>>)
    ensures |r| == Max(|m|, |items|)
  {
    seq(Max(|m|, |items|), i requires 0 <= i < Max(|m|, |items|) =>
      if i < |items| then Some(Wider(if i < |m| then m[i] else None, |items[i]|)) else m[i])
  }

  /** `MaxItemLengthsClass`: the width of each column seen so far, `None` before any cell. */
  class MaxItemLengths {
    var maxlength: seq<Option<nat>>

    /** `MaxItemLengthsClass(n)` */
    constructor (n: nat)
      ensures |maxlength| == n && forall i :: 0 <= i < n ==> maxlength[i].None?
    {
      maxlength := seq(n, _ => None);
    }

    /**
     * `add(items)`: each cell widens its column to its own length, the list
     * of widths growing with `None` slots as far as the row reaches.
     */
    method Add(items: seq<string>)
      modifies this
      ensures maxlength == Widened(old(maxlength), items)
    {
      var i := 0;
      while i < |items|
        invariant 0 <= i <= |items|
        invariant maxlength == Widened(old(maxlength), items[..i])
      {
        var current: Option<nat>;
        if i < |maxlength| {
          current := maxlength[i];
        } else {
          maxlength := maxlength + seq(i + 1 - |maxlength|, _ => None);
          current := None;
        }
        var itemLength := |items[i]|;
        if current.None? || current.value < itemLength {
          maxlength := maxlength[i := Some(itemLength)];
        }
        assert maxlength == Widened(old(maxlength), items[..i + 1]) by {
          var e := Widened(old(maxlength), items[..i + 1]);
          assert |maxlength| == |e|;
          forall j | 0 <= j < |e| ensures maxlength[j] == e[j] {
            if j < i {
              assert items[..i + 1][j] == items[..i][j];
            }
          }
        }
        i := i + 1;
      }
      assert items[..i] == items;
    }
  }

  /** A width, once set, only grows, and each cell of the row fits its column. */
  lemma WidenedGrows(m: seq<Option<nat>>, items: seq<string>, i: nat)
    requires i < Max(|m|, |items|)
    ensures i < |m| && m[i].Some? ==> Widened(m, items)[i].Some? && m[i].value <= Widened(m, items)[i].value
    ensures i < |items| ==> Widened(m, items)[i].Some? && |items[i]| <= Widened(m, items)[i].value
    ensures Widened(m, items)[i].Some? ==>
      (|items| > i && Widened(m, items)[i].value == |items[i]|) ||
      (i < |m| && m[i].Some? && Widened(m, items)[i].value == m[i].value)
  {
  }

  /** The widths of a table's columns: every row added in turn to an empty tracker. */
  function ColumnWidths(rows: seq<seq<string>>): seq<Option<nat>> {
    if rows == [] then [] else Widened(ColumnWidths(rows[..|rows| - 1]), rows[|rows| - 1])
  }

  /** A cell fits the width of its column. */
  lemma {:induction false} CellFits(rows: seq<seq<string>>, r: nat, j: nat)
    requires r < |rows| && j < |rows[r]|
    ensures j < |ColumnWidths(rows)| && ColumnWidths(rows)[j].Some?
    ensures |rows[r][j]| <= ColumnWidths(rows)[j].value
  {
    var init, last := rows[..|rows| - 1], rows[|rows| - 1];
    var before := ColumnWidths(init);
    if r < |rows| - 1 {
      assert rows[r] == init[r];
      CellFits(init, r, j);
    }
    WidenedGrows(before, last, j);
  }

  /** Every cell of row `r` has a column width. */
  lemma RowHasWidths(rows: seq<seq<string>>, r: nat)
    requires r < |rows|
    ensures |rows[r]| <= |ColumnWidths(rows)| && forall j :: 0 <= j < |rows[r]| ==> ColumnWidths(rows)[j].Some?
  {
    forall j | 0 <= j < |rows[r]| ensures j < |ColumnWidths(rows)| && ColumnWidths(rows)[j].Some? {
      CellFits(rows, r, j);
    }
    if rows[r] != [] {
      CellFits(rows, r, |rows[r]| - 1);
    }
  }

  /** Each column's width is the length of one of its cells. */
  lemma {:induction false} WidthAttained(rows: seq<seq<string>>, j: nat)
    requires j < |ColumnWidths(rows)|
    ensures ColumnWidths(rows)[j].Some?
    ensures exists r :: 0 <= r < |rows| && j < |rows[r]| && |rows[r][j]| == ColumnWidths(rows)[j].value
  {
    var init, last := rows[..|rows| - 1], rows[|rows| - 1];
    var before := ColumnWidths(init);
    WidenedGrows(before, last, j);
    if j < |last| && ColumnWidths(rows)[j].value == |last[j]| {
      assert rows[|rows| - 1] == last;
    } else {
      WidthAttained(init, j);
      var r :| 0 <= r < |init| && j < |init[r]| && |init[r][j]| == before[j].value;
      assert rows[r] == init[r];
    }
  }

  /** Cell `j` of row `r` fits the width of its column. */
  predicate FitsColumn(rows: seq<seq<string>>, r: nat, j: nat)
    requires r < |rows| && j < |rows[r]|
  {
    j < |ColumnWidths(rows)| && ColumnWidths(rows)[j].Some? && |rows[r][j]| <= ColumnWidths(rows)[j].value
  }

  /** The width of column `j` is the length of one of its cells. */
  predicate WidthOfSomeCell(rows: seq<seq<string>>, j: nat)
    requires j < |ColumnWidths(rows)|
  {
    && ColumnWidths(rows)[j].Some?
    && exists r :: 0 <= r < |rows| && j < |rows[r]| && |rows[r][j]| == ColumnWidths(rows)[j].value
  }

  /**
   * Each column's width is the length of its longest cell: every cell fits
   * its column, and some cell of the column is exactly that long.
   */
  lemma ColumnWidthsAreMaxima(rows: seq<seq<string>>)
    ensures forall r, j :: 0 <= r < |rows| && 0 <= j < |rows[r]| ==> FitsColumn(rows, r, j)
    ensures forall j :: 0 <= j < |ColumnWidths(rows)| ==> WidthOfSomeCell(rows, j)
  {
    forall r, j | 0 <= r < |rows| && 0 <= j < |rows[r]| ensures FitsColumn(rows, r, j) {
      CellFits(rows, r, j);
    }
    forall j | 0 <= j < |ColumnWidths(rows)| ensures WidthOfSomeCell(rows, j) {
      WidthAttained(rows, j);
    }
  }
}

=== FILE: duplicate_subruns.dfy ===
/**
 * The main loop of the ICARUS duplicate-subrun finder: it reads file lists,
 * parses every listed file name and reports the names whose run and subrun
 * were already seen.
 *
 * The loop is proved against `Fold`, one `Step` per line read (or per list
 * that cannot be opened).  The lemmas then say what the fold produces in
 * terms of the whole input: where each run and subrun was listed, how many
 * of them are listed more than once, and which lines are echoed as unique
 * and which are reported as duplicates.  The lemmas hold for any path
 * parser; the loop uses `ParsePath`.
 */
module DuplicateSubruns {
  import opened Wrappers
  import opened Strings
  import opened OutputPath

  /** A file list: one that cannot be opened, or its name and its lines. */
  datatype Source = Unreadable(name: string) | Listing(name: string, lines: seq<string>)

  /**
   * What the loop sees, in order.  A line carries its text, the text
   * stripped of surrounding blanks, and the outcome of parsing the stripped
   * text as a path: the run and subrun of the path (none when it has no
   * run), or the parse error.  The loop looks at the outcome only for lines
   * naming a file.
   */
  datatype Event =
    | CannotOpen(name: string)
    | Line(source: string, index: nat, text: string, path: string, parsed: Result<Option<Key>, PathError>)

  /** The run and subrun of a file: the dictionary key. */
  type Key = (Option<int>, Option<int>)

  /** Where a file name was read: the list name and the 0-based line number. */
  type Provenance = (string, nat)

  /** A dictionary value: the first path with the key, then every place it was listed. */
  datatype Entry = Entry(path: string, provenances: seq<Provenance>)

  /** Which of the two reports are printed; `manySources` selects the format of `RenderReport`. */
  datatype Options = Options(printUnique: bool, printDuplicate: bool, manySources: bool)

  /** The loop variables and what was printed on the two output streams. */
  datatype Tally = Tally(
    nErrors: nat, nFiles: nat, nDuplicates: nat, met: map<Key, Entry>,
    stdout: seq<string>, stderr: seq<Report>)

  /**
   * How a parse error ends the loop: the error, and the loop variables and
   * the output as they stand when it is raised, the failing line already
   * counted in `nFiles`.
   */
  datatype Halt = Halt(error: PathError, tally: Tally)

  function Start(): Tally {
    Tally(0, 0, 0, map[], [], [])
  }

  /** The sources to read: those named, or standard input when none is. */
  function SourceList(named: seq<Source>, stdin: Source): (r: seq<Source>)
    ensures r != []
    ensures named != [] ==> r == named
  {
    if named != [] then named else [stdin]
  }

  /** The key of a path, parsed: its run and subrun when it has a run. */
  function PathKey(path: string): Result<Option<Key>, PathError> {
    match ParsePath(path)
    case Failure(err) => Failure(err)
    case Success(f) => Success(f.RunAndSubRun())
  }

  /** Line `index` of list `name`. */
  function LineEvent(name: string, index: nat, text: string): Event {
    Line(name, index, text, Strip(text), PathKey(Strip(text)))
  }

  /** The lines of a list, numbered from 0. */
  function LineEvents(name: string, lines: seq<string>): seq<Event> {
    if lines == [] then []
    else LineEvents(name, lines[..|lines| - 1]) + [LineEvent(name, |lines| - 1, lines[|lines| - 1])]
  }

  function SourceEvents(s: Source): seq<Event> {
    match s
    case Unreadable(name) => [CannotOpen(name)]
    case Listing(name, lines) => LineEvents(name, lines)
  }

  /** Everything the loop sees, source after source. */
  function Events(sources: seq<Source>): seq<Event> {
    if sources == [] then []
    else Events(sources[..|sources| - 1]) + SourceEvents(sources[|sources| - 1])
  }

  /** `formatProvenance(name, line)` */
  function FormatProvenance(p: Provenance, many: bool): string {
    if many then "'" + p.0 + "' line " + NatToString(p.1) else "line " + NatToString(p.1)
  }

  /** `str()` of an optional number. */
  function OptionString(o: Option<int>): string {
    match o
    case None => "None"
    case Some(i) => IntToString(i)
  }

  /** A duplicate, as reported on standard error. */
  datatype Report = Report(path: string, run: Option<int>, subRun: Option<int>, first: Provenance, firstPath: string)

  /** The text of a duplicate report. */
  function RenderReport(r: Report, many: bool): string {
    "# " + r.path + " (R:" + OptionString(r.run) + " S:" + OptionString(r.subRun) + ") duplicate of "
      + FormatProvenance(r.first, many) + " ('" + r.firstPath + "')"
  }

  /** A line naming a file: not blank and not a comment once stripped. */
  predicate IsFileLine(e: Event) {
    e.Line? && e.path != [] && e.path[0] != '#'
  }

  /**
   * One pass of the loop body: a list that cannot be opened is counted; a
   * blank or comment line is skipped; any other line is parsed (a parse
   * error ends the program) and its key looked up.
   */
  function Step(t: Tally, e: Event, opts: Options): Result<Tally, Halt> {
    match e
    case CannotOpen(_) =>
      Success(Tally(t.nErrors + 1, t.nFiles, t.nDuplicates, t.met, t.stdout, t.stderr))
    case Line(source, index, text, path, parsed) =>
      if path == [] || path[0] == '#' then Success(t)
      else
        match parsed
        case Failure(err) => Failure(Halt(err, t.(nFiles := t.nFiles + 1)))
        case Success(key) =>
          if key.None? || key.value !in t.met then
            var stdout := if opts.printUnique then t.stdout + [text] else t.stdout;
            var met := if key.Some? then t.met[key.value := Entry(path, [(source, index)])] else t.met;
            Success(Tally(t.nErrors, t.nFiles + 1, t.nDuplicates, met, stdout, t.stderr))
          else
            var previous := t.met[key.value];
            var entry := Entry(previous.path, previous.provenances + [(source, index)]);
            var nDuplicates := if |previous.provenances| == 1 then t.nDuplicates + 1 else t.nDuplicates;
            var stderr :=
              if opts.printDuplicate then
                t.stderr + [Report(path, key.value.0, key.value.1, entry.provenances[0], entry.path)]
              else t.stderr;
            Success(Tally(t.nErrors, t.nFiles + 1, nDuplicates, t.met[key.value := entry], t.stdout, stderr))
  }

  /** The loop over `events` from the variables `t`; the first parse error ends it. */
  function Run(t: Tally, events: seq<Event>, opts: Options): Result<Tally, Halt> {
    if events == [] then Success(t)
    else
      match Run(t, events[..|events| - 1], opts)
      case Failure(err) => Failure(err)
      case Success(t') => Step(t', events[|events| - 1], opts)
  }

  /** The whole loop, from the initial variables. */
  function Fold(events: seq<Event>, opts: Options): Result<Tally, Halt> {
    Run(Start(), events, opts)
  }

  // ---------------------------------------------------------------------
  // What the fold computes, stated on the whole input
  // ---------------------------------------------------------------------

  /** The key of a line: present for a file line that parses and has a run. */
  function KeyAt(e: Event): (r: Option<Key>)
    ensures r.Some? ==> IsFileLine(e) && e.parsed.Success?
  {
    if IsFileLine(e) && e.parsed.Success? then e.parsed.value else None
  }

  /** Every place, in reading order, where a file with key `k` is listed. */
  function Provenances(events: seq<Event>, k: Key): seq<Provenance> {
    if events == [] then []
    else
      var e := events[|events| - 1];
      Provenances(events[..|events| - 1], k) + (if KeyAt(e) == Some(k) then [(e.source, e.index)] else [])
  }

  /** The path of the first file listed with key `k`. */
  function FirstPath(events: seq<Event>, k: Key): string {
    if events == [] then ""
    else
      var e := events[|events| - 1];
      if Provenances(events[..|events| - 1], k) == [] && KeyAt(e) == Some(k) then e.path
      else FirstPath(events[..|events| - 1], k)
  }

  function CountFiles(events: seq<Event>): nat {
    if events == [] then 0
    else CountFiles(events[..|events| - 1]) + (if IsFileLine(events[|events| - 1]) then 1 else 0)
  }

  function CountUnopened(events: seq<Event>): nat {
    if events == [] then 0
    else CountUnopened(events[..|events| - 1]) + (if events[|events| - 1].CannotOpen? then 1 else 0)
  }

  /** The lines of files that have no run, or whose run and subrun were not listed before. */
  function UniqueLines(events: seq<Event>): seq<string> {
    if events == [] then []
    else
      var init := events[..|events| - 1];
      var e := events[|events| - 1];
      var k := KeyAt(e);
      UniqueLines(init)
        + (if IsFileLine(e) && e.parsed.Success? && (k.None? || Provenances(init, k.value) == [])
           then [e.text] else [])
  }

  /** One message per file whose run and subrun were listed before, naming the first listing. */
  function DuplicateLines(events: seq<Event>): seq<Report> {
    if events == [] then []
    else
      var init := events[..|events| - 1];
      var e := events[|events| - 1];
      var k := KeyAt(e);
      DuplicateLines(init)
        + (if k.Some? && Provenances(init, k.value) != [] then
             [Report(e.path, k.value.0, k.value.1, Provenances(init, k.value)[0],
                     FirstPath(init, k.value))]
           else [])
  }

  /** The keys listed at least twice. */
  function Repeated(met: map<Key, Entry>): set<Key> {
    set k | k in met && |met[k].provenances| >= 2
  }

  /** The dictionary holds exactly the listed keys, each with its first path and all its listings. */
  ghost predicate MetAgrees(met: map<Key, Entry>, events: seq<Event>) {
    (forall k :: k in met <==> Provenances(events, k) != [])
    && (forall k :: k in met ==> met[k] == Entry(FirstPath(events, k), Provenances(events, k)))
  }

  /** Every file line parses. */
  predicate AllParse(events: seq<Event>) {
    forall i :: 0 <= i < |events| && IsFileLine(events[i]) ==> events[i].parsed.Success?
  }

  // ---------------------------------------------------------------------
  // One step at a time
  // ---------------------------------------------------------------------

  lemma ProvenancesSnoc(init: seq<Event>, e: Event, k: Key)
    ensures Provenances(init + [e], k)
         == Provenances(init, k) + (if KeyAt(e) == Some(k) then [(e.source, e.index)] else [])
    ensures FirstPath(init + [e], k)
         == if Provenances(init, k) == [] && KeyAt(e) == Some(k) then e.path else FirstPath(init, k)
  {
    assert (init + [e])[..|init|] == init;
  }

  lemma StepSucceeds(t: Tally, e: Event, opts: Options)
    ensures Step(t, e, opts).Success? <==> (IsFileLine(e) ==> e.parsed.Success?)
  {
  }

  /** A file line that does not parse ends the loop, counted as a file, with nothing else changed. */
  lemma StepHalts(t: Tally, e: Event, opts: Options)
    requires IsFileLine(e) && e.parsed.Failure?
    ensures Step(t, e, opts) == Failure(Halt(e.parsed.error, t.(nFiles := t.nFiles + 1)))
  {
  }

  lemma StepCounts(t0: Tally, e: Event, opts: Options, t: Tally)
    requires Step(t0, e, opts) == Success(t)
    ensures t.nErrors == t0.nErrors + (if e.CannotOpen? then 1 else 0)
    ensures t.nFiles == t0.nFiles + (if IsFileLine(e) then 1 else 0)
  {
  }

  /** How one step changes the dictionary, in terms of the key of the line. */
  lemma StepEntry(t0: Tally, e: Event, opts: Options, t: Tally)
    requires Step(t0, e, opts) == Success(t)
    ensures KeyAt(e).None? ==> t.met == t0.met
    ensures KeyAt(e).Some? && KeyAt(e).value !in t0.met
        ==> t.met == t0.met[KeyAt(e).value := Entry(e.path, [(e.source, e.index)])]
    ensures KeyAt(e).Some? && KeyAt(e).value in t0.met
        ==> t.met == t0.met[KeyAt(e).value := Entry(t0.met[KeyAt(e).value].path,
                                                    t0.met[KeyAt(e).value].provenances + [(e.source, e.index)])]
  {
  }

  lemma StepMet(init: seq<Event>, e: Event, opts: Options, t0: Tally, t: Tally)
    requires MetAgrees(t0.met, init) && Step(t0, e, opts) == Success(t)
    ensures MetAgrees(t.met, init + [e])
  {
    StepEntry(t0, e, opts, t);
    forall k ensures (k in t.met <==> Provenances(init + [e], k) != [])
      && (k in t.met ==> t.met[k] == Entry(FirstPath(init + [e], k), Provenances(init + [e], k)))
    {
      ProvenancesSnoc(init, e, k);
    }
  }

  lemma StepDuplicates(t0: Tally, e: Event, opts: Options, t: Tally)
    requires Step(t0, e, opts) == Success(t) && t0.nDuplicates == |Repeated(t0.met)|
    ensures t.nDuplicates == |Repeated(t.met)|
  {
    StepEntry(t0, e, opts, t);
    var key := KeyAt(e);
    if key.Some? {
      var k := key.value;
      if k !in t0.met {
        assert Repeated(t.met) == Repeated(t0.met);
      } else if |t0.met[k].provenances| == 1 {
        assert k !in Repeated(t0.met);
        assert Repeated(t.met) == Repeated(t0.met) + {k};
      } else {
        assert Repeated(t.met) == Repeated(t0.met);
      }
    }
  }

  lemma StepStdout(init: seq<Event>, e: Event, opts: Options, t0: Tally, t: Tally)
    requires MetAgrees(t0.met, init) && Step(t0, e, opts) == Success(t)
    requires t0.stdout == if opts.printUnique then UniqueLines(init) else []
    ensures t.stdout == if opts.printUnique then UniqueLines(init + [e]) else []
  {
    assert (init + [e])[..|init|] == init;
  }

  lemma StepStderr(init: seq<Event>, e: Event, opts: Options, t0: Tally, t: Tally)
    requires MetAgrees(t0.met, init) && Step(t0, e, opts) == Success(t)
    requires t0.stderr == if opts.printDuplicate then DuplicateLines(init) else []
    ensures t.stderr == if opts.printDuplicate then DuplicateLines(init + [e]) else []
  {
    assert (init + [e])[..|init|] == init;
    var key := KeyAt(e);
    if key.Some? && key.value in t0.met {
      assert t0.met[key.value].provenances == Provenances(init, key.value);
    }
  }

  // ---------------------------------------------------------------------
  // The whole loop
  // ---------------------------------------------------------------------

  /** The loop ends normally exactly when every line naming a file parses. */
  lemma {:induction false} FoldSucceeds(events: seq<Event>, opts: Options)
    ensures Fold(events, opts).Success? <==> AllParse(events)
    decreases |events|
  {
    if events != [] {
      var init := events[..|events| - 1];
      var e := events[|events| - 1];
      FoldSucceeds(init, opts);
      assert events == init + [e];
      AllParseSnoc(init, e);
      if Fold(init, opts).Success? {
        StepSucceeds(Fold(init, opts).value, e, opts);
      }
    }
  }

  lemma AllParseSnoc(init: seq<Event>, e: Event)
    ensures AllParse(init + [e]) <==> AllParse(init) && (IsFileLine(e) ==> e.parsed.Success?)
  {
    var events := init + [e];
    assert forall i :: 0 <= i < |init| ==> events[i] == init[i];
    assert events[|init|] == e;
  }

  /** A parse error ends the loop: nothing read after it changes the outcome. */
  lemma {:induction false} FailureStays(t: Tally, prefix: seq<Event>, events: seq<Event>, opts: Options)
    requires prefix <= events && Run(t, prefix, opts).Failure?
    ensures Run(t, events, opts) == Run(t, prefix, opts)
    decreases |events|
  {
    if events != prefix {
      assert prefix <= events[..|events| - 1];
      FailureStays(t, prefix, events[..|events| - 1], opts);
    }
  }

  /** A fold that succeeds succeeded on all but the last line, and the last step succeeded. */
  lemma FoldLast(events: seq<Event>, opts: Options, t: Tally) returns (t0: Tally)
    requires events != [] && Fold(events, opts) == Success(t)
    ensures Fold(events[..|events| - 1], opts) == Success(t0)
    ensures Step(t0, events[|events| - 1], opts) == Success(t)
  {
    t0 := Fold(events[..|events| - 1], opts).value;
  }

  /** Unreadable lists and lines naming a file are counted. */
  lemma {:induction false} FoldCounts(events: seq<Event>, opts: Options, t: Tally)
    requires Fold(events, opts) == Success(t)
    ensures t.nErrors == CountUnopened(events)
    ensures t.nFiles == CountFiles(events)
    decreases |events|
  {
    if events != [] {
      var init := events[..|events| - 1];
      var t0 := FoldLast(events, opts, t);
      FoldCounts(init, opts, t0);
      StepCounts(t0, events[|events| - 1], opts, t);
    }
  }

  /**
   * The dictionary holds exactly the runs and subruns listed, each with the
   * path of its first listing and every place it was listed, in order.
   */
  lemma {:induction false} FoldMet(events: seq<Event>, opts: Options, t: Tally)
    requires Fold(events, opts) == Success(t)
    ensures MetAgrees(t.met, events)
    decreases |events|
  {
    if events != [] {
      var init := events[..|events| - 1];
      var e := events[|events| - 1];
      var t0 := FoldLast(events, opts, t);
      FoldMet(init, opts, t0);
      assert events == init + [e];
      StepMet(init, e, opts, t0, t);
    }
  }

  /** The count of duplicates is the number of subruns listed more than once. */
  lemma {:induction false} FoldDuplicates(events: seq<Event>, opts: Options, t: Tally)
    requires Fold(events, opts) == Success(t)
    ensures t.nDuplicates == |Repeated(t.met)|
    ensures Repeated(t.met) == set k | k in t.met && |Provenances(events, k)| >= 2
    decreases |events|
  {
    FoldMet(events, opts, t);
    if events != [] {
      var init := events[..|events| - 1];
      var t0 := FoldLast(events, opts, t);
      FoldDuplicates(init, opts, t0);
      StepDuplicates(t0, events[|events| - 1], opts, t);
    }
  }

  /** What is echoed on standard output: the unique lines, raw, when asked for. */
  lemma {:induction false} FoldStdout(events: seq<Event>, opts: Options, t: Tally)
    requires Fold(events, opts) == Success(t)
    ensures t.stdout == if opts.printUnique then UniqueLines(events) else []
    decreases |events|
  {
    if events != [] {
      var init := events[..|events| - 1];
      var e := events[|events| - 1];
      var t0 := FoldLast(events, opts, t);
      FoldStdout(init, opts, t0);
      FoldMet(init, opts, t0);
      assert events == init + [e];
      StepStdout(init, e, opts, t0, t);
    }
  }

  /** What is reported on standard error: one report per duplicate, when asked for. */
  lemma {:induction false} FoldStderr(events: seq<Event>, opts: Options, t: Tally)
    requires Fold(events, opts) == Success(t)
    ensures t.stderr == if opts.printDuplicate then DuplicateLines(events) else []
    decreases |events|
  {
    if events != [] {
      var init := events[..|events| - 1];
      var e := events[|events| - 1];
      var t0 := FoldLast(events, opts, t);
      FoldStderr(init, opts, t0);
      FoldMet(init, opts, t0);
      assert events == init + [e];
      StepStderr(init, e, opts, t0, t);
    }
  }

  /** The first line naming a file whose path does not parse. */
  function FirstUnparsed(events: seq<Event>): (k: nat)
    requires !AllParse(events)
    ensures k < |events| && IsFileLine(events[k]) && events[k].parsed.Failure? && AllParse(events[..k])
  {
    var init := events[..|events| - 1];
    AllParseSnoc(init, events[|events| - 1]);
    assert events == init + [events[|events| - 1]];
    if AllParse(init) then |events| - 1
    else
      var k := FirstUnparsed(init);
      assert init[..k] == events[..k];
      k
  }

  /**
   * A parse error ends the loop with the error of the first file line that
   * does not parse, and with everything the lines before it produced: the
   * dictionary, the counts (that line included in `nFiles`) and the lines
   * already printed on both streams.
   */
  lemma {:induction false} FoldHalts(events: seq<Event>, opts: Options, h: Halt)
    requires Fold(events, opts) == Failure(h)
    ensures !AllParse(events)
    ensures var k := FirstUnparsed(events);
      var before := events[..k];
      h.error == events[k].parsed.error
      && h.tally.nErrors == CountUnopened(before) && h.tally.nFiles == CountFiles(before) + 1
      && MetAgrees(h.tally.met, before)
      && h.tally.stdout == (if opts.printUnique then UniqueLines(before) else [])
      && h.tally.stderr == (if opts.printDuplicate then DuplicateLines(before) else [])
    decreases |events|
  {
    FoldSucceeds(events, opts);
    var init := events[..|events| - 1];
    var e := events[|events| - 1];
    var k := FirstUnparsed(events);
    if Fold(init, opts).Failure? {
      FoldHalts(init, opts, h);
      assert FirstUnparsed(init) == k by {
        var j := FirstUnparsed(init);
        assert init[j] == events[j] && init[..j] == events[..j];
      }
      assert init[..k] == events[..k];
    } else {
      var t0 := Fold(init, opts).value;
      FoldSucceeds(init, opts);
      assert k == |init|;
      assert events[..k] == init;
      FoldCounts(init, opts, t0);
      FoldMet(init, opts, t0);
      FoldStdout(init, opts, t0);
      FoldStderr(init, opts, t0);
    }
  }

  // ---------------------------------------------------------------------
  // Sequence facts for the loop
  // ---------------------------------------------------------------------

  lemma RunSnoc(t: Tally, events: seq<Event>, e: Event, opts: Options)
    ensures Run(t, events, opts).Failure? ==> Run(t, events + [e], opts) == Run(t, events, opts)
    ensures Run(t, events, opts).Success?
        ==> Run(t, events + [e], opts) == Step(Run(t, events, opts).value, e, opts)
  {
    assert (events + [e])[..|events|] == events;
  }

  /** Reading two stretches of input in a row is reading the first, then the second. */
  lemma {:induction false} RunAppend(t: Tally, a: seq<Event>, b: seq<Event>, opts: Options)
    ensures Run(t, a + b, opts)
         == if Run(t, a, opts).Failure? then Run(t, a, opts) else Run(Run(t, a, opts).value, b, opts)
    decreases |b|
  {
    if b == [] {
      assert a + b == a;
    } else {
      var init := b[..|b| - 1];
      assert a + b == (a + init) + [b[|b| - 1]];
      RunAppend(t, a, init, opts);
      RunSnoc(t, a + init, b[|b| - 1], opts);
      if Run(t, a, opts).Success? {
        RunSnoc(Run(t, a, opts).value, init, b[|b| - 1], opts);
      }
    }
  }

  lemma {:induction false} EventsPrefix(sources: seq<Source>, i: nat)
    requires i <= |sources|
    ensures Events(sources[..i]) <= Events(sources)
    decreases |sources|
  {
    if i < |sources| {
      assert sources[..|sources| - 1][..i] == sources[..i];
      EventsPrefix(sources[..|sources| - 1], i);
    } else {
      assert sources[..i] == sources;
    }
  }

  lemma EventsNext(sources: seq<Source>, i: nat)
    requires i < |sources|
    ensures Events(sources[..i + 1]) == Events(sources[..i]) + SourceEvents(sources[i])
  {
    assert sources[..i + 1][..i] == sources[..i];
  }

  lemma LineEventsNext(name: string, lines: seq<string>, j: nat)
    requires j < |lines|
    ensures LineEvents(name, lines[..j + 1]) == LineEvents(name, lines[..j]) + [LineEvent(name, j, lines[j])]
  {
    assert lines[..j + 1][..j] == lines[..j];
  }

  lemma {:induction false} LineEventsPrefix(name: string, lines: seq<string>, j: nat)
    requires j <= |lines|
    ensures LineEvents(name, lines[..j]) <= LineEvents(name, lines)
    decreases |lines|
  {
    if j < |lines| {
      assert lines[..|lines| - 1][..j] == lines[..j];
      LineEventsPrefix(name, lines[..|lines| - 1], j);
    } else {
      assert lines[..j] == lines;
    }
  }

  /** One more line of a list: the loop either goes on from its step, or stops there for good. */
  lemma ListLineNext(t: Tally, name: string, lines: seq<string>, iLine: nat, tally: Tally, opts: Options)
    requires iLine < |lines| && Run(t, LineEvents(name, lines[..iLine]), opts) == Success(tally)
    ensures Run(t, LineEvents(name, lines[..iLine + 1]), opts) == Step(tally, LineEvent(name, iLine, lines[iLine]), opts)
    ensures Step(tally, LineEvent(name, iLine, lines[iLine]), opts).Failure? ==>
      Run(t, LineEvents(name, lines), opts) == Step(tally, LineEvent(name, iLine, lines[iLine]), opts)
  {
    LineEventsNext(name, lines, iLine);
    RunSnoc(t, LineEvents(name, lines[..iLine]), LineEvent(name, iLine, lines[iLine]), opts);
    if Step(tally, LineEvent(name, iLine, lines[iLine]), opts).Failure? {
      LineEventsPrefix(name, lines, iLine + 1);
      FailureStays(t, LineEvents(name, lines[..iLine + 1]), LineEvents(name, lines), opts);
    }
  }

  /** One more source: the loop goes on with the source's own events, or stops there for good. */
  lemma SourceNext(sources: seq<Source>, i: nat, tally: Tally, opts: Options)
    requires i < |sources| && Fold(Events(sources[..i]), opts) == Success(tally)
    ensures Fold(Events(sources[..i + 1]), opts) == Run(tally, SourceEvents(sources[i]), opts)
    ensures Run(tally, SourceEvents(sources[i]), opts).Failure? ==>
      Fold(Events(sources), opts) == Run(tally, SourceEvents(sources[i]), opts)
  {
    EventsNext(sources, i);
    RunAppend(Start(), Events(sources[..i]), SourceEvents(sources[i]), opts);
    if Run(tally, SourceEvents(sources[i]), opts).Failure? {
      EventsPrefix(sources, i + 1);
      FailureStays(Start(), Events(sources[..i + 1]), Events(sources), opts);
    }
  }

  // ---------------------------------------------------------------------
  // The loop
  // ---------------------------------------------------------------------

  /**
   * The main loop: the named lists (standard input when none is named),
   * read one after the other.  A parse error ends it with that error.
   */
  method FindDuplicates(named: seq<Source>, stdin: Source, printUnique: bool, printDuplicate: bool)
    returns (r: Result<Tally, Halt>)
    ensures r == Fold(Events(SourceList(named, stdin)),
                      Options(printUnique, printDuplicate, |SourceList(named, stdin)| > 1))
  {
    var sourceFiles := if named != [] then named else [stdin];
    var opts := Options(printUnique, printDuplicate, |sourceFiles| > 1);
    var tally := Start();
    for i := 0 to |sourceFiles|
      invariant Fold(Events(sourceFiles[..i]), opts) == Success(tally)
    {
      SourceNext(sourceFiles, i, tally, opts);
      match sourceFiles[i]
      case Unreadable(_) =>
        tally := tally.(nErrors := tally.nErrors + 1);
      case Listing(sourceName, lines) =>
        var outcome := ReadList(tally, sourceName, lines, opts);
        if outcome.Failure? {
          return outcome;
        }
        tally := outcome.value;
    }
    assert sourceFiles[..|sourceFiles|] == sourceFiles;
    r := Success(tally);
  }

  /** The lines of one list, in order, from the variables `t`. */
  method ReadList(t: Tally, sourceName: string, lines: seq<string>, opts: Options)
    returns (r: Result<Tally, Halt>)
    ensures r == Run(t, LineEvents(sourceName, lines), opts)
  {
    var tally := t;
    for iLine := 0 to |lines|
      invariant Run(t, LineEvents(sourceName, lines[..iLine]), opts) == Success(tally)
    {
      ListLineNext(t, sourceName, lines, iLine, tally, opts);
      var outcome := Consider(tally, sourceName, iLine, lines[iLine], opts);
      if outcome.Failure? {
        assert outcome == Run(t, LineEvents(sourceName, lines), opts);
        return outcome;
      }
      assert Run(t, LineEvents(sourceName, lines[..iLine + 1]), opts) == outcome;
      tally := outcome.value;
    }
    assert lines[..|lines|] == lines;
    r := Success(tally);
  }

  /**
   * The loop body for line `iLine` of list `sourceName`: the line stripped,
   * blank and comment lines skipped, any other line parsed as a path and
   * recorded under its run and subrun.
   */
  method Consider(t: Tally, sourceName: string, iLine: nat, arg: string, opts: Options)
    returns (r: Result<Tally, Halt>)
    ensures r == Step(t, LineEvent(sourceName, iLine, arg), opts)
  {
    var path := Strip(arg);
    if path == [] || path[0] == '#' {
      return Success(t);
    }
    var parsed := OutputFilePathParser.New(path);
    if parsed.Failure? {
      assert PathKey(path) == Failure(parsed.error);
      StepHalts(t, LineEvent(sourceName, iLine, arg), opts);
      return Failure(Halt(parsed.error, t.(nFiles := t.nFiles + 1)));
    }
    var fields := parsed.value.Fields();
    var key := fields.RunAndSubRun();
    assert PathKey(path) == Success(key);
    var recorded := Record(t, sourceName, iLine, arg, path, key, fields.Run(), fields.SubRun(), opts);
    r := Success(recorded);
  }

  /**
   * The dictionary lookup for a file line: a key not met before (or no key)
   * echoes the line, and a key is stored with its first listing; a key met
   * before gets one more listing, and the line is reported as a duplicate.
   */
  method Record(
    t: Tally, sourceName: string, iLine: nat, arg: string, path: string,
    key: Option<Key>, run: Option<int>, subRun: Option<int>, opts: Options)
    returns (r: Tally)
    requires path != [] && path[0] != '#'
    requires key.Some? ==> key.value == (run, subRun)
    ensures Success(r) == Step(t, Line(sourceName, iLine, arg, path, Success(key)), opts)
  {
    var nFiles := t.nFiles + 1;
    var met, nDuplicates, stdout, stderr := t.met, t.nDuplicates, t.stdout, t.stderr;
    if key.None? || key.value !in met {
      if opts.printUnique {
        stdout := stdout + [arg];
      }
      if key.Some? {
        met := met[key.value := Entry(path, [(sourceName, iLine)])];
      }
    } else {
      var previouslyMet := met[key.value];
      if |previouslyMet.provenances| == 1 {
        nDuplicates := nDuplicates + 1;
      }
      previouslyMet := previouslyMet.(provenances := previouslyMet.provenances + [(sourceName, iLine)]);
      met := met[key.value := previouslyMet];
      if opts.printDuplicate {
        stderr := stderr + [Report(path, run, subRun, previouslyMet.provenances[0], previouslyMet.path)];
      }
    }
    r := Tally(t.nErrors, nFiles, nDuplicates, met, stdout, stderr);
  }

  /** The exit status: 1 when a list could not be opened. */
  function ExitCode(t: Tally): (code: int)
    ensures code == 0 <==> t.nErrors == 0
    ensures code == 0 || code == 1
  {
    if t.nErrors > 0 then 1 else 0
  }

  // ---------------------------------------------------------------------
  // The summary
  // ---------------------------------------------------------------------

  /** `max()` over an empty sequence raises `ValueError`. */
  datatype SummaryError = EmptyMax

  /** The largest number of listings of any key. */
  ghost function MostListings(met: map<Key, Entry>): (r: nat)
    requires met != map[]
    ensures exists k :: k in met && r == |met[k].provenances|
    ensures forall k :: k in met ==> |met[k].provenances| <= r
    decreases met.Keys
  {
    var k :| k in met;
    var rest := met - {k};
    assert forall j :: j in met && j != k ==> j in rest && rest[j] == met[j];
    if rest == map[] then
      |met[k].provenances|
    else
      var m := MostListings(rest);
      if m < |met[k].provenances| then |met[k].provenances| else m
  }

  function SummaryHead(nFiles: nat, nSources: nat): string {
    NatToString(nFiles) + " file names read"
      + (if nSources > 1 then " from " + NatToString(nSources) + " file lists" else "")
  }

  function AllUniqueMessage(nFiles: nat, nSources: nat): string {
    SummaryHead(nFiles, nSources) + ", all unique." + "."
  }

  ghost function DuplicatesMessage(t: Tally, nSources: nat): string
    requires t.met != map[]
  {
    var most := MostListings(t.met);
    SummaryHead(t.nFiles, nSources) + ", " + NatToString(|t.met|) + " unique files found, "
      + NatToString(t.nDuplicates) + " have"
      + (if most > 1 then " up to " + NatToString(most - 1) + " duplicates" else " one duplicate") + "."
  }

  /**
   * The summary as written: "all unique" when the dictionary has as many
   * keys as files were read, otherwise the largest number of listings,
   * which fails on an empty dictionary.
   */
  ghost function SummaryAsWritten(t: Tally, nSources: nat): Result<string, SummaryError> {
    if |t.met| == t.nFiles then Success(AllUniqueMessage(t.nFiles, nSources))
    else if t.met == map[] then Failure(EmptyMax)
    else Success(DuplicatesMessage(t, nSources))
  }

  /** The summary as intended: "all unique" exactly when no subrun is listed twice. */
  ghost function SummaryIntended(t: Tally, nSources: nat): Result<string, SummaryError> {
    if t.nDuplicates == 0 then Success(AllUniqueMessage(t.nFiles, nSources))
    else if t.met == map[] then Failure(EmptyMax)
    else Success(DuplicatesMessage(t, nSources))
  }

  /**
   * Files without a run never enter the dictionary, so a list of them
   * alone makes the summary fail instead of reporting them unique.
   */
  lemma RunlessListBreaksSummary(events: seq<Event>, opts: Options, t: Tally, nSources: nat)
    requires Fold(events, opts) == Success(t)
    requires CountFiles(events) > 0
    requires forall i :: 0 <= i < |events| ==> KeyAt(events[i]).None?
    ensures SummaryAsWritten(t, nSources) == Failure(EmptyMax)
  {
    FoldCounts(events, opts, t);
    FoldMet(events, opts, t);
    forall k ensures Provenances(events, k) == [] {
      NoKeyNoProvenances(events, k);
    }
    assert t.met == map[];
  }

  lemma {:induction false} NoKeyNoProvenances(events: seq<Event>, k: Key)
    requires forall i :: 0 <= i < |events| ==> KeyAt(events[i]).None?
    ensures Provenances(events, k) == []
    decreases |events|
  {
    if events != [] {
      var init := events[..|events| - 1];
      assert forall i :: 0 <= i < |init| ==> init[i] == events[i];
      NoKeyNoProvenances(init, k);
      assert KeyAt(events[|events| - 1]).None?;
    }
  }

  /**
   * After any successful loop the intended summary never fails, and it
   * reports everything unique exactly when no run and subrun is listed
   * twice; otherwise it names the largest number of repeated listings.
   */
  lemma IntendedSummaryReports(events: seq<Event>, opts: Options, t: Tally, nSources: nat)
    requires Fold(events, opts) == Success(t)
    ensures SummaryIntended(t, nSources).Success?
    ensures SummaryIntended(t, nSources) == Success(AllUniqueMessage(t.nFiles, nSources))
        <==> forall k :: |Provenances(events, k)| <= 1
  {
    FoldMet(events, opts, t);
    FoldDuplicates(events, opts, t);
    if t.nDuplicates == 0 {
      assert Repeated(t.met) == {};
      forall k ensures |Provenances(events, k)| <= 1 {
        assert k !in Repeated(t.met);
        if k in t.met {
          assert t.met[k].provenances == Provenances(events, k);
        }
      }
    } else {
      var k :| k in Repeated(t.met);
      assert |Provenances(events, k)| > 1;
      assert t.met != map[];
      var most := MostListings(t.met);
      assert most >= 2;
      assert DuplicatesMessage(t, nSources) != AllUniqueMessage(t.nFiles, nSources) by {
        DistinctEndings(t, nSources);
      }
    }
  }

  /** The two summary forms differ: only the "all unique" form ends in two full stops after "unique". */
  lemma DistinctEndings(t: Tally, nSources: nat)
    requires t.met != map[] && MostListings(t.met) >= 2
    ensures DuplicatesMessage(t, nSources) != AllUniqueMessage(t.nFiles, nSources)
  {
    var tail := " duplicates.";
    var d := DuplicatesMessage(t, nSources);
    var a := AllUniqueMessage(t.nFiles, nSources);
    assert d[|d| - 2] == 's';
    assert a[|a| - 2] == '.';
  }
}

=== FILE: find_in_path.dfy ===
/**
 * The search helpers of the FindInPath script, which lists the files whose
 * names match some patterns in the directories of PATH-like variables.
 *
 * The file system and the environment are inputs: a directory is a key of
 * a map from directory paths to their listings, and the environment is a
 * map from variable names to values.  Regular-expression matching is a
 * parameter (`Matcher`), and so is the `%` formatting of a record.
 */
module FindInPath {
  import opened Wrappers
  import opened Strings

  /** A found file: the dictionary `{'Dir': ..., 'FileName': ..., 'Path': ...}`. */
  datatype FileRecord = FileRecord(dir: string, fileName: string, path: string)

  /**
   * A compiled pattern: a regular expression as written, or a shell-style
   * pattern, standing for the regular expression `fnmatch.translate` makes
   * of it.
   */
  datatype Pattern = Regex(source: string) | Glob(shell: string)

  /** `pattern.match(name)`: the regular-expression engine, a parameter of the model. */
  type Matcher = (Pattern, string) -> bool

  // ---------------------------------------------------------------------
  // String helpers
  // ---------------------------------------------------------------------

  /** `EndsWith(s, suffixes)`: some listed suffix ends `s`. */
  function EndsWith(s: string, suffixes: seq<string>): (r: bool)
    ensures r <==> exists i :: 0 <= i < |suffixes| && HasSuffix(s, suffixes[i])
  {
    if suffixes == [] then false
    else
      assert forall i :: 0 < i < |suffixes| ==> suffixes[1..][i - 1] == suffixes[i];
      HasSuffix(s, suffixes[0]) || EndsWith(s, suffixes[1..])
  }

  /**
   * `WrapString(s, left, right)`: `left` put in front unless `s` already
   * starts with it, then `right` put at the end unless the result already
   * ends with it.
   */
  function WrapString(s: string, left: string, right: string): (r: string)
    ensures HasPrefix(r, left) && HasSuffix(r, right)
    ensures r == s || r == left + s || r == s + right || r == left + s + right
  {
    var t := if left != [] && !HasPrefix(s, left) then left + s else s;
    assert HasPrefix(t, left) by {
      if left != [] && !HasPrefix(s, left) {
        assert t[..|left|] == left;
      }
    }
    var r := if right != [] && !HasSuffix(t, right) then t + right else t;
    assert HasPrefix(r, left) by {
      assert r[..|left|] == t[..|left|];
    }
    assert HasSuffix(r, right) by {
      if right != [] && !HasSuffix(t, right) {
        assert r[|r| - |right|..] == right;
      } else if right == [] {
        assert r[|r|..] == [];
      }
    }
    r
  }

  /** A string already wrapped is left as it is. */
  lemma WrapStringKeepsWrapped(s: string, left: string, right: string)
    requires HasPrefix(s, left) && HasSuffix(s, right)
    ensures WrapString(s, left, right) == s
  {
  }

  /** Wrapping twice is wrapping once. */
  lemma WrapStringIdempotent(s: string, left: string, right: string)
    ensures WrapString(WrapString(s, left, right), left, right) == WrapString(s, left, right)
  {
    WrapStringKeepsWrapped(WrapString(s, left, right), left, right);
  }

  /** The empty pattern wrapped in stars is a single star: the wrapped front is also the end. */
  lemma WrapEmptyInStars()
    ensures WrapString("", "*", "*") == "*"
  {
    assert HasSuffix("*", "*");
  }

  /** `os.path.join(a, b)` on POSIX paths. */
  function PathJoin(a: string, b: string): (r: string)
    ensures HasSuffix(r, b)
    ensures b != [] && b[0] == '/' ==> r == b
    ensures (b == [] || b[0] != '/') && (a == [] || a[|a| - 1] == '/') ==> r == a + b
    ensures (b == [] || b[0] != '/') && a != [] && a[|a| - 1] != '/' ==> r == a + "/" + b
  {
    if b != [] && b[0] == '/' then
      assert b[|b| - |b|..] == b;
      b
    else if a == [] || a[|a| - 1] == '/' then
      assert (a + b)[|a + b| - |b|..] == b;
      a + b
    else
      assert (a + "/" + b)[|a + "/" + b| - |b|..] == b;
      a + "/" + b
  }

  // ---------------------------------------------------------------------
  // Matching
  // ---------------------------------------------------------------------

  /** Some pattern matches `name`. */
  function AnyMatches(name: string, patterns: seq<Pattern>, matches: Matcher): (r: bool)
    ensures r <==> exists i :: 0 <= i < |patterns| && matches(patterns[i], name)
  {
    if patterns == [] then false
    else
      assert forall i :: 0 < i < |patterns| ==> patterns[1..][i - 1] == patterns[i];
      matches(patterns[0], name) || AnyMatches(name, patterns[1..], matches)
  }

  /** `MatchesPatterns(record, patterns)`: no pattern accepts anything; otherwise one must match the name. */
  function MatchesPatterns(record: FileRecord, patterns: seq<Pattern>, matches: Matcher): (r: bool)
    ensures patterns == [] ==> r
    ensures patterns != [] ==> (r <==> exists i :: 0 <= i < |patterns| && matches(patterns[i], record.fileName))
  {
    if patterns == [] then true else AnyMatches(record.fileName, patterns, matches)
  }

  /** The record of a listed item. */
  function RecordOf(dir: string, item: string): FileRecord {
    FileRecord(dir, item, PathJoin(dir, item))
  }

  /** The filter of `FindInDir`: the suffix test when suffixes are given, then the patterns. */
  predicate Keep(dir: string, item: string, patterns: seq<Pattern>, suffixes: seq<string>, matches: Matcher) {
    (suffixes == [] || EndsWith(item, suffixes)) && MatchesPatterns(RecordOf(dir, item), patterns, matches)
  }

  /** The records of the kept items of a listing, in listing order. */
  function Filter(dir: string, items: seq<string>, patterns: seq<Pattern>, suffixes: seq<string>, matches: Matcher)
    : seq<FileRecord>
  {
    if items == [] then []
    else
      var last := items[|items| - 1];
      Filter(dir, items[..|items| - 1], patterns, suffixes, matches)
        + (if Keep(dir, last, patterns, suffixes, matches) then [RecordOf(dir, last)] else [])
  }

  /** What one directory yields: nothing when it is not a directory. */
  function InDir(dir: string, fs: map<string, seq<string>>, patterns: seq<Pattern>, suffixes: seq<string>, matches: Matcher)
    : seq<FileRecord>
  {
    if dir in fs then Filter(dir, fs[dir], patterns, suffixes, matches) else []
  }

  /** A record is found exactly for a kept item of the listing. */
  lemma FilterMembers(
    dir: string, items: seq<string>, patterns: seq<Pattern>, suffixes: seq<string>, matches: Matcher, rec: FileRecord)
    ensures rec in Filter(dir, items, patterns, suffixes, matches)
        <==> exists i :: 0 <= i < |items| && Keep(dir, items[i], patterns, suffixes, matches) && rec == RecordOf(dir, items[i])
  {
    if rec in Filter(dir, items, patterns, suffixes, matches) {
      var i := FilterSource(dir, items, patterns, suffixes, matches, rec);
    } else {
      forall i | 0 <= i < |items| && Keep(dir, items[i], patterns, suffixes, matches)
        ensures rec != RecordOf(dir, items[i])
      {
        FilterKeeps(dir, items, patterns, suffixes, matches, i);
      }
    }
  }

  /** Every record found comes from a kept item of the listing. */
  lemma {:induction false} FilterSource(
    dir: string, items: seq<string>, patterns: seq<Pattern>, suffixes: seq<string>, matches: Matcher, rec: FileRecord)
    returns (i: nat)
    requires rec in Filter(dir, items, patterns, suffixes, matches)
    ensures i < |items| && Keep(dir, items[i], patterns, suffixes, matches) && rec == RecordOf(dir, items[i])
    decreases |items|
  {
    var init, last := items[..|items| - 1], items[|items| - 1];
    var kept := Filter(dir, init, patterns, suffixes, matches);
    if rec in kept {
      i := FilterSource(dir, init, patterns, suffixes, matches, rec);
      assert init[i] == items[i];
    } else {
      i := |items| - 1;
    }
  }

  /** Every kept item of the listing is found. */
  lemma {:induction false} FilterKeeps(
    dir: string, items: seq<string>, patterns: seq<Pattern>, suffixes: seq<string>, matches: Matcher, i: nat)
    requires i < |items| && Keep(dir, items[i], patterns, suffixes, matches)
    ensures RecordOf(dir, items[i]) in Filter(dir, items, patterns, suffixes, matches)
    decreases |items|
  {
    var init, last := items[..|items| - 1], items[|items| - 1];
    var kept := Filter(dir, init, patterns, suffixes, matches);
    var tail := if Keep(dir, last, patterns, suffixes, matches) then [RecordOf(dir, last)] else [];
    assert Filter(dir, items, patterns, suffixes, matches) == kept + tail;
    if i < |init| {
      assert init[i] == items[i];
      FilterKeeps(dir, init, patterns, suffixes, matches, i);
      assert RecordOf(dir, items[i]) in kept;
    } else {
      assert tail == [RecordOf(dir, items[i])];
    }
  }

  /** Filtering keeps the listing order: a listing read in two parts is filtered in two parts. */
  lemma {:induction false} FilterAppend(
    dir: string, a: seq<string>, b: seq<string>, patterns: seq<Pattern>, suffixes: seq<string>, matches: Matcher)
    ensures Filter(dir, a + b, patterns, suffixes, matches)
         == Filter(dir, a, patterns, suffixes, matches) + Filter(dir, b, patterns, suffixes, matches)
    decreases |b|
  {
    if b == [] {
      assert a + b == a;
    } else {
      var init, last := b[..|b| - 1], b[|b| - 1];
      assert (a + b)[..|a + b| - 1] == a + init && (a + b)[|a + b| - 1] == last;
      var tail := if Keep(dir, last, patterns, suffixes, matches) then [RecordOf(dir, last)] else [];
      assert Filter(dir, a + b, patterns, suffixes, matches) == Filter(dir, a + init, patterns, suffixes, matches) + tail;
      assert Filter(dir, b, patterns, suffixes, matches) == Filter(dir, init, patterns, suffixes, matches) + tail;
      FilterAppend(dir, a, init, patterns, suffixes, matches);
    }
  }

  /**
   * `FindInDir(dir, patterns, options)`: the records of the items of the
   * directory listing that pass the suffix and pattern filters, in listing
   * order; none when the directory does not exist.
   */
  method FindInDir(
    searchDir: string, fs: map<string, seq<string>>, patterns: seq<Pattern>, suffixes: seq<string>, matches: Matcher)
    returns (fileRecords: seq<FileRecord>)
    ensures fileRecords == InDir(searchDir, fs, patterns, suffixes, matches)
  {
    if searchDir !in fs {
      return [];
    }
    var listing := fs[searchDir];
    fileRecords := [];
    for k := 0 to |listing|
      invariant fileRecords == Filter(searchDir, listing[..k], patterns, suffixes, matches)
    {
      var dirItem := listing[k];
      assert listing[..k + 1][..k] == listing[..k];
      if suffixes != [] && !EndsWith(dirItem, suffixes) {
        continue;
      }
      var record := FileRecord(searchDir, dirItem, PathJoin(searchDir, dirItem));
      if !MatchesPatterns(record, patterns, matches) {
        continue;
      }
      fileRecords := fileRecords + [record];
    }
    assert listing[..|listing|] == listing;
  }

  // ---------------------------------------------------------------------
  // Find
  // ---------------------------------------------------------------------

  /** A regular expression, anchored at both ends in full-match mode. */
  function RegexFor(pattern: string, fullMatch: bool): Pattern {
    Regex(if fullMatch then WrapString(pattern, "^", "$") else pattern)
  }

  /** A shell pattern, surrounded by stars unless in full-match mode. */
  function GlobFor(pattern: string, fullMatch: bool): Pattern {
    Glob(if fullMatch then pattern else WrapString(pattern, "*", "*"))
  }

  /** The regular expressions `Find` compiles, in order. */
  function RegexPatterns(filters: seq<string>, fullMatch: bool): (r: seq<Pattern>)
    ensures |r| == |filters|
  {
    if filters == [] then []
    else RegexPatterns(filters[..|filters| - 1], fullMatch) + [RegexFor(filters[|filters| - 1], fullMatch)]
  }

  /** The shell patterns `Find` compiles, in order. */
  function GlobPatterns(filters: seq<string>, fullMatch: bool): (r: seq<Pattern>)
    ensures |r| == |filters|
  {
    if filters == [] then []
    else GlobPatterns(filters[..|filters| - 1], fullMatch) + [GlobFor(filters[|filters| - 1], fullMatch)]
  }

  /** One more shell pattern compiles to one more pattern at the end. */
  lemma GlobPatternsStep(filters: seq<string>, fullMatch: bool, i: nat)
    requires i < |filters|
    ensures GlobPatterns(filters[..i + 1], fullMatch) == GlobPatterns(filters[..i], fullMatch) + [GlobFor(filters[i], fullMatch)]
  {
    assert filters[..i + 1][..i] == filters[..i];
  }

  /** Each regular expression compiles to the pattern at its own place. */
  lemma {:induction false} RegexAt(filters: seq<string>, fullMatch: bool, i: nat)
    requires i < |filters|
    ensures RegexPatterns(filters, fullMatch)[i] == RegexFor(filters[i], fullMatch)
  {
    var init := filters[..|filters| - 1];
    assert RegexPatterns(filters, fullMatch) == RegexPatterns(init, fullMatch) + [RegexFor(filters[|filters| - 1], fullMatch)];
    if i < |init| {
      RegexAt(init, fullMatch, i);
      assert init[i] == filters[i];
      assert RegexPatterns(filters, fullMatch)[i] == RegexPatterns(init, fullMatch)[i];
    } else {
      assert i == |filters| - 1;
    }
  }

  /** Each shell pattern compiles to the pattern at its own place. */
  lemma {:induction false} GlobAt(filters: seq<string>, fullMatch: bool, i: nat)
    requires i < |filters|
    ensures GlobPatterns(filters, fullMatch)[i] == GlobFor(filters[i], fullMatch)
  {
    var init := filters[..|filters| - 1];
    assert GlobPatterns(filters, fullMatch) == GlobPatterns(init, fullMatch) + [GlobFor(filters[|filters| - 1], fullMatch)];
    if i < |init| {
      GlobAt(init, fullMatch, i);
      assert init[i] == filters[i];
      assert GlobPatterns(filters, fullMatch)[i] == GlobPatterns(init, fullMatch)[i];
    } else {
      assert i == |filters| - 1;
    }
  }

  /** The patterns `Find` compiles: the regular expressions, then the shell patterns. */
  function Patterns(regexFilters: seq<string>, simpleFilters: seq<string>, fullMatch: bool): seq<Pattern> {
    RegexPatterns(regexFilters, fullMatch) + GlobPatterns(simpleFilters, fullMatch)
  }

  /**
   * In full-match mode every regular expression is anchored with `^` and
   * `$` and the shell patterns are taken as given; otherwise the regular
   * expressions are taken as given and every shell pattern is surrounded by
   * `*`.  Nothing is dropped or reordered.
   */
  lemma PatternsShape(regexFilters: seq<string>, simpleFilters: seq<string>, fullMatch: bool)
    ensures |Patterns(regexFilters, simpleFilters, fullMatch)| == |regexFilters| + |simpleFilters|
    ensures forall i :: 0 <= i < |regexFilters| ==>
      var p := Patterns(regexFilters, simpleFilters, fullMatch)[i];
      p.Regex?
      && (fullMatch ==> HasPrefix(p.source, "^") && HasSuffix(p.source, "$"))
      && (!fullMatch ==> p.source == regexFilters[i])
    ensures forall k :: |regexFilters| <= k < |regexFilters| + |simpleFilters| ==>
      var p := Patterns(regexFilters, simpleFilters, fullMatch)[k];
      p.Glob?
      && (!fullMatch ==> HasPrefix(p.shell, "*") && HasSuffix(p.shell, "*"))
      && (fullMatch ==> p.shell == simpleFilters[k - |regexFilters|])
  {
    forall i | 0 <= i < |regexFilters| {
      RegexShape(regexFilters, simpleFilters, fullMatch, i);
    }
    forall k | |regexFilters| <= k < |regexFilters| + |simpleFilters| {
      GlobShape(regexFilters, simpleFilters, fullMatch, k);
    }
  }

  lemma RegexShape(regexFilters: seq<string>, simpleFilters: seq<string>, fullMatch: bool, i: nat)
    requires i < |regexFilters|
    ensures var p := Patterns(regexFilters, simpleFilters, fullMatch)[i];
      p.Regex?
      && (fullMatch ==> HasPrefix(p.source, "^") && HasSuffix(p.source, "$"))
      && (!fullMatch ==> p.source == regexFilters[i])
  {
    var regexes := RegexPatterns(regexFilters, fullMatch);
    assert Patterns(regexFilters, simpleFilters, fullMatch)[i] == regexes[i];
    RegexAt(regexFilters, fullMatch, i);
  }

  lemma GlobShape(regexFilters: seq<string>, simpleFilters: seq<string>, fullMatch: bool, k: nat)
    requires |regexFilters| <= k < |regexFilters| + |simpleFilters|
    ensures var p := Patterns(regexFilters, simpleFilters, fullMatch)[k];
      p.Glob?
      && (!fullMatch ==> HasPrefix(p.shell, "*") && HasSuffix(p.shell, "*"))
      && (fullMatch ==> p.shell == simpleFilters[k - |regexFilters|])
  {
    var globs := GlobPatterns(simpleFilters, fullMatch);
    assert Patterns(regexFilters, simpleFilters, fullMatch)[k] == globs[k - |regexFilters|];
    GlobAt(simpleFilters, fullMatch, k - |regexFilters|);
  }

  /** The first loop of `Find`: the regular expressions compiled in order. */
  method CompileRegexes(regexFilters: seq<string>, fullMatch: bool) returns (regexPatterns: seq<Pattern>)
    ensures regexPatterns == RegexPatterns(regexFilters, fullMatch)
  {
    regexPatterns := [];
    for i := 0 to |regexFilters|
      invariant regexPatterns == RegexPatterns(regexFilters[..i], fullMatch)
    {
      var pattern := regexFilters[i];
      if fullMatch {
        pattern := WrapString(pattern, "^", "$");
      }
      assert regexFilters[..i + 1][..i] == regexFilters[..i];
      regexPatterns := regexPatterns + [Regex(pattern)];
    }
    assert regexFilters[..|regexFilters|] == regexFilters;
  }

  /** The second loop of `Find`: the shell patterns compiled in order, appended to the list. */
  method CompileGlobs(regexPatterns: seq<Pattern>, simpleFilters: seq<string>, fullMatch: bool) returns (r: seq<Pattern>)
    ensures r == regexPatterns + GlobPatterns(simpleFilters, fullMatch)
  {
    r := regexPatterns;
    for i := 0 to |simpleFilters|
      invariant r == regexPatterns + GlobPatterns(simpleFilters[..i], fullMatch)
    {
      var simplePattern := simpleFilters[i];
      if !fullMatch {
        simplePattern := WrapString(simplePattern, "*", "*");
      }
      GlobPatternsStep(simpleFilters, fullMatch, i);
      r := r + [Glob(simplePattern)];
    }
    assert simpleFilters[..|simpleFilters|] == simpleFilters;
  }

  /** The records of all search directories, directory after directory. */
  function FindAll(dirs: seq<string>, fs: map<string, seq<string>>, patterns: seq<Pattern>, suffixes: seq<string>, matches: Matcher)
    : seq<FileRecord>
  {
    if dirs == [] then []
    else FindAll(dirs[..|dirs| - 1], fs, patterns, suffixes, matches) + InDir(dirs[|dirs| - 1], fs, patterns, suffixes, matches)
  }

  /**
   * What is found: exactly the kept items of the listings of the search
   * directories that exist, each with its directory and its joined path.
   */
  lemma {:induction false} FindAllMembers(
    dirs: seq<string>, fs: map<string, seq<string>>, patterns: seq<Pattern>, suffixes: seq<string>, matches: Matcher,
    rec: FileRecord)
    ensures rec in FindAll(dirs, fs, patterns, suffixes, matches)
        <==> rec.dir in dirs && rec.dir in fs && rec.fileName in fs[rec.dir]
             && rec.path == PathJoin(rec.dir, rec.fileName)
             && Keep(rec.dir, rec.fileName, patterns, suffixes, matches)
    decreases |dirs|
  {
    if dirs != [] {
      var init := dirs[..|dirs| - 1];
      var last := dirs[|dirs| - 1];
      FindAllMembers(init, fs, patterns, suffixes, matches, rec);
      assert dirs == init + [last];
      if last in fs {
        FilterMembers(last, fs[last], patterns, suffixes, matches, rec);
      }
    }
  }

  /** `Find(searchDirs, options)`: the patterns compiled, then every directory searched in order. */
  method Find(
    searchDirs: seq<string>, fs: map<string, seq<string>>, regexFilters: seq<string>, simpleFilters: seq<string>,
    fullMatch: bool, suffixes: seq<string>, matches: Matcher)
    returns (fileRecords: seq<FileRecord>)
    ensures fileRecords == FindAll(searchDirs, fs, Patterns(regexFilters, simpleFilters, fullMatch), suffixes, matches)
  {
    var regexPatterns := CompileRegexes(regexFilters, fullMatch);
    regexPatterns := CompileGlobs(regexPatterns, simpleFilters, fullMatch);
    fileRecords := [];
    for i := 0 to |searchDirs|
      invariant fileRecords == FindAll(searchDirs[..i], fs, regexPatterns, suffixes, matches)
    {
      var found := FindInDir(searchDirs[i], fs, regexPatterns, suffixes, matches);
      assert searchDirs[..i + 1][..i] == searchDirs[..i];
      fileRecords := fileRecords + found;
    }
    assert searchDirs[..|searchDirs|] == searchDirs;
  }

  /** `FormatRecords(records, options)`: one string per record, in order, by `Format % record`. */
  method FormatRecords(records: seq<FileRecord>, formatRecord: FileRecord -> string) returns (formatted: seq<string>)
    ensures |formatted| == |records|
    ensures forall i :: 0 <= i < |records| ==> formatted[i] == formatRecord(records[i])
  {
    formatted := [];
    for i := 0 to |records|
      invariant |formatted| == i
      invariant forall j :: 0 <= j < i ==> formatted[j] == formatRecord(records[j])
    {
      formatted := formatted + [formatRecord(records[i])];
    }
  }

  // ---------------------------------------------------------------------
  // Search directories
  // ---------------------------------------------------------------------

  /** Each value first seen, in the order first seen. */
  function Dedup(xs: seq<string>): (r: seq<string>)
    ensures forall x :: x in r <==> x in xs
  {
    if xs == [] then []
    else
      var d := Dedup(xs[..|xs| - 1]);
      assert forall x :: x in xs <==> x in xs[..|xs| - 1] || x == xs[|xs| - 1];
      if xs[|xs| - 1] in d then d else d + [xs[|xs| - 1]]
  }

  /** Appending a value adds it to the deduplicated list unless it is already there. */
  lemma DedupAppend(xs: seq<string>, x: string)
    ensures Dedup(xs + [x]) == if x in Dedup(xs) then Dedup(xs) else Dedup(xs) + [x]
  {
    assert (xs + [x])[..|xs|] == xs;
  }

  predicate Distinct(xs: seq<string>) {
    forall i, j :: 0 <= i < j < |xs| ==> xs[i] != xs[j]
  }

  /** Where `x` first occurs in `xs`. */
  function FirstIndex(xs: seq<string>, x: string): (k: nat)
    requires x in xs
    ensures k < |xs| && xs[k] == x && x !in xs[..k]
  {
    if xs[0] == x then 0
    else
      var k := 1 + FirstIndex(xs[1..], x);
      assert xs[..k] == [xs[0]] + xs[1..][..k - 1];
      k
  }

  lemma FirstIndexOfPrefix(xs: seq<string>, y: string, x: string)
    requires x in xs
    ensures FirstIndex(xs + [y], x) == FirstIndex(xs, x)
  {
    var k := FirstIndex(xs, x);
    var ys := xs + [y];
    assert ys[k] == x && ys[..k] == xs[..k];
    FirstIndexUnique(ys, x, k);
  }

  lemma FirstIndexUnique(xs: seq<string>, x: string, k: nat)
    requires k < |xs| && xs[k] == x && x !in xs[..k]
    ensures FirstIndex(xs, x) == k
  {
    var f := FirstIndex(xs, x);
    assert forall i :: 0 <= i < k ==> xs[..k][i] == xs[i];
    assert forall i :: 0 <= i < f ==> xs[..f][i] == xs[i];
  }

  /**
   * The merged list has no repeated directory, holds every listed one and
   * keeps them in the order of their first listing.
   */
  lemma {:induction false} DedupSpec(xs: seq<string>)
    ensures Distinct(Dedup(xs))
    ensures forall i, j :: 0 <= i < j < |Dedup(xs)| ==> FirstIndex(xs, Dedup(xs)[i]) < FirstIndex(xs, Dedup(xs)[j])
    decreases |xs|
  {
    if xs != [] {
      var init := xs[..|xs| - 1];
      var last := xs[|xs| - 1];
      assert xs == init + [last];
      DedupSpec(init);
      var d := Dedup(init);
      forall x | x in init ensures FirstIndex(xs, x) == FirstIndex(init, x) {
        FirstIndexOfPrefix(init, last, x);
      }
      if last !in d {
        assert last !in init;
        FirstIndexUnique(xs, last, |init|);
      }
    }
  }

  /** `s.reverse()` */
  function Reversed(s: seq<string>): (r: seq<string>)
    ensures |r| == |s|
    ensures forall i :: 0 <= i < |s| ==> r[i] == s[|s| - 1 - i]
  {
    if s == [] then [] else [s[|s| - 1]] + Reversed(s[..|s| - 1])
  }

  /** An option given as a string is on when the string is not empty. */
  predicate Truthy(o: Option<string>) {
    o.Some? && o.value != []
  }

  /** The directories of the set variables, in order, each value split at the separator. */
  function Listed(varNames: seq<string>, env: map<string, string>, separator: char): seq<string> {
    if varNames == [] then []
    else
      var name := varNames[|varNames| - 1];
      Listed(varNames[..|varNames| - 1], env, separator) + (if name in env then SplitOn(env[name], separator) else [])
  }

  /** The variables that are not set, each reported once per mention. */
  function Unset(varNames: seq<string>, env: map<string, string>): seq<string> {
    if varNames == [] then []
    else
      var name := varNames[|varNames| - 1];
      Unset(varNames[..|varNames| - 1], env) + (if name in env then [] else [name])
  }

  /** The search directories of the variables, first listing kept, reversed on request. */
  function SearchDirs(varNames: seq<string>, env: map<string, string>, separator: char, reverseOrder: Option<string>)
    : seq<string>
  {
    var merged := Dedup(Listed(varNames, env, separator));
    if Truthy(reverseOrder) then Reversed(merged) else merged
  }

  /**
   * The search directories are exactly the listed ones, none twice, in the
   * order of their first listing, or in the opposite order when reversed.
   */
  lemma SearchDirsSpec(varNames: seq<string>, env: map<string, string>, separator: char, reverseOrder: Option<string>)
    ensures var r := SearchDirs(varNames, env, separator, reverseOrder);
      Distinct(r) && forall d :: d in r <==> d in Listed(varNames, env, separator)
    ensures var r := SearchDirs(varNames, env, separator, reverseOrder);
      var listed := Listed(varNames, env, separator);
      forall i, j :: 0 <= i < j < |r| ==>
        r[i] in listed && r[j] in listed &&
        (if Truthy(reverseOrder) then FirstIndex(listed, r[i]) > FirstIndex(listed, r[j])
         else FirstIndex(listed, r[i]) < FirstIndex(listed, r[j]))
  {
    var listed := Listed(varNames, env, separator);
    var merged := Dedup(listed);
    DedupSpec(listed);
    if Truthy(reverseOrder) {
      ReversedKeepsOrder(merged, listed);
    }
  }

  /**
   * Reversing a list of distinct entries of `listed`, ordered by first
   * listing, keeps them distinct and orders them the opposite way.
   */
  lemma ReversedKeepsOrder(m: seq<string>, listed: seq<string>)
    requires Distinct(m)
    requires forall i, j :: 0 <= i < j < |m| ==>
      m[i] in listed && m[j] in listed && FirstIndex(listed, m[i]) < FirstIndex(listed, m[j])
    ensures var r := Reversed(m);
      Distinct(r) && (forall d :: d in r <==> d in m) &&
      forall i, j :: 0 <= i < j < |r| ==>
        r[i] in listed && r[j] in listed && FirstIndex(listed, r[i]) > FirstIndex(listed, r[j])
  {
    var r := Reversed(m);
    forall i, j | 0 <= i < j < |r|
      ensures r[i] != r[j] && r[i] in listed && r[j] in listed && FirstIndex(listed, r[i]) > FirstIndex(listed, r[j])
    {
      assert r[i] == m[|m| - 1 - i] && r[j] == m[|m| - 1 - j];
    }
    forall d | d in m ensures d in r {
      var k :| 0 <= k < |m| && m[k] == d;
      assert r[|m| - 1 - k] == d;
    }
  }

  /** The inner loop of the merge: each directory not yet listed is added at the end. */
  method AddSearchDirs(searchDirs: seq<string>, ghost before: seq<string>, dirPaths: seq<string>) returns (r: seq<string>)
    requires searchDirs == Dedup(before)
    ensures r == Dedup(before + dirPaths)
  {
    r := searchDirs;
    assert before + dirPaths[..0] == before;
    for j := 0 to |dirPaths|
      invariant r == Dedup(before + dirPaths[..j])
    {
      var dirPath := dirPaths[j];
      assert before + dirPaths[..j + 1] == (before + dirPaths[..j]) + [dirPath];
      DedupAppend(before + dirPaths[..j], dirPath);
      if dirPath !in r {
        r := r + [dirPath];
      }
    }
    assert dirPaths[..|dirPaths|] == dirPaths;
  }

  /**
   * The search directories: the values of the variables split at the
   * separator, each directory kept at its first listing, reversed when the
   * reverse option is on.  Also returns the variables reported as unset.
   */
  method MergeSearchDirs(varNames: seq<string>, env: map<string, string>, separator: char, reverseOrder: Option<string>)
    returns (searchDirs: seq<string>, unset: seq<string>)
    ensures searchDirs == SearchDirs(varNames, env, separator, reverseOrder)
    ensures unset == Unset(varNames, env)
  {
    searchDirs := [];
    unset := [];
    for i := 0 to |varNames|
      invariant searchDirs == Dedup(Listed(varNames[..i], env, separator))
      invariant unset == Unset(varNames[..i], env)
    {
      var varName := varNames[i];
      assert varNames[..i + 1][..i] == varNames[..i];
      if varName !in env {
        assert Listed(varNames[..i + 1], env, separator) == Listed(varNames[..i], env, separator);
        unset := unset + [varName];
        continue;
      }
      var dirPaths := SplitOn(env[varName], separator);
      assert Listed(varNames[..i + 1], env, separator) == Listed(varNames[..i], env, separator) + dirPaths;
      searchDirs := AddSearchDirs(searchDirs, Listed(varNames[..i], env, separator), dirPaths);
    }
    assert varNames[..|varNames|] == varNames;
    if Truthy(reverseOrder) {
      searchDirs := Reversed(searchDirs);
    }
  }

  // ---------------------------------------------------------------------
  // The variable list
  // ---------------------------------------------------------------------

  /** Iterating over `None` raises `TypeError`. */
  datatype VariableError = NoneNotIterable

  /**
   * The variable list as the program reads it: the options that name
   * variables all append to one list, which is `None` when none of them is
   * given, and the loop over it then fails.
   */
  function VariableList(given: Option<seq<string>>): (r: Result<seq<string>, VariableError>)
    ensures r.Success? <==> given.Some?
    ensures given.Some? ==> r.value == given.value
  {
    match given
    case None => Failure(NoneNotIterable)
    case Some(names) => Success(names)
  }

  /** Without any variable option the search fails instead of using `PATH`. */
  lemma NoVariableOptionFails()
    ensures VariableList(None) == Failure(NoneNotIterable)
    ensures IntendedVariableList(None) == ["PATH"]
  {
  }

  /** The variable list as the help text describes it: `PATH` when no variable option is given. */
  function IntendedVariableList(given: Option<seq<string>>): (r: seq<string>)
    ensures given.None? ==> r == ["PATH"]
    ensures given.Some? ==> r == given.value
  {
    given.GetOr(["PATH"])
  }

  /** The intended list agrees with the program whenever a variable option is given, and never fails. */
  lemma IntendedVariableListAgrees(given: Option<seq<string>>)
    ensures VariableList(given).Success? ==> VariableList(given).value == IntendedVariableList(given)
    ensures |IntendedVariableList(given)| >= 1 || (given.Some? && given.value == [])
  {
  }
}

=== FILE: module_stats.dfy ===
/**
 * `TimeModuleStatsClass` of SortModuleTimes.py: the timing series of one
 * module (or of the whole event), an accumulator of the times fed to it and,
 * when entry tracking is on, the list of accepted records, at most one per
 * `(run, subRun, event)`.
 *
 * The Python class inherits from `Stats`; here it holds its accumulator in
 * the constant field `acc`.
 */
module ModuleStats {
  import opened Wrappers
  import opened Strings
  import opened Statistics

  /** The event a record belongs to: `(run, subRun, event)`. */
  datatype EventKey = EventKey(run: int, subRun: int, event: int)

  /** One timing record: the event it was taken in and its time in seconds. */
  datatype TimeData = TimeData(run: int, subRun: int, event: int, time: real) {
    function Key(): EventKey {
      EventKey(run, subRun, event)
    }
  }

  /**
   * What a series is keyed by: a plain name (the `"=== events ==="` series) or
   * a module, given as the pair `(instance label, module type)` of the log line.
   */
  datatype StatsKey = Named(name: string) | Module(instance: string, moduleType: string)

  /** The first cell of every row: the name, or `type[instance]` for a module. */
  function DisplayName(k: StatsKey): string {
    match k
    case Named(name) => name
    case Module(instance, moduleType) => moduleType + "[" + instance + "]"
  }

  /** The event keys of the records. */
  function KeysOf(s: seq<TimeData>): set<EventKey> {
    set i | 0 <= i < |s| :: s[i].Key()
  }

  predicate DistinctKeys(s: seq<TimeData>) {
    forall i, j :: 0 <= i < j < |s| ==> s[i].Key() != s[j].Key()
  }

  /** What the accumulator receives for the records: their times, with unit weight. */
  function TimesOf(s: seq<TimeData>): seq<Sample> {
    seq(|s|, i requires 0 <= i < |s| => Sample(s[i].time, 1.0))
  }

  /**
   * The records that a tracking series keeps when `fed` is added to it in
   * order: a record is kept unless its event is already among those kept.
   */
  function FirstOccurrences(fed: seq<TimeData>): seq<TimeData> {
    if fed == [] then []
    else
      var kept, last := FirstOccurrences(fed[..|fed| - 1]), fed[|fed| - 1];
      if last.Key() in KeysOf(kept) then kept else kept + [last]
  }

  /** `fed[j]` is the first record of its event in `fed`. */
  predicate IsFirstOfEvent(fed: seq<TimeData>, j: nat)
    requires j < |fed|
  {
    forall i :: 0 <= i < j ==> fed[i].Key() != fed[j].Key()
  }

  /** The records of `fed[..k]` that are the first of their event, in order. */
  function FirstsUpTo(fed: seq<TimeData>, k: nat): seq<TimeData>
    requires k <= |fed|
  {
    if k == 0 then []
    else FirstsUpTo(fed, k - 1) + (if IsFirstOfEvent(fed, k - 1) then [fed[k - 1]] else [])
  }

  lemma KeysOfAppend(s: seq<TimeData>, d: TimeData)
    ensures KeysOf(s + [d]) == KeysOf(s) + {d.Key()}
  {
    var t := s + [d];
    assert t[|s|] == d;
    forall k | k in KeysOf(t) ensures k in KeysOf(s) + {d.Key()} {
      var i :| 0 <= i < |t| && t[i].Key() == k;
      if i < |s| {
        assert t[i] == s[i];
      }
    }
    forall k | k in KeysOf(s) ensures k in KeysOf(t) {
      var i :| 0 <= i < |s| && s[i].Key() == k;
      assert t[i] == s[i];
    }
  }

  /**
   * A tracking series keeps one record per event: the kept records have
   * distinct events, and every event that was fed is among them.
   */
  lemma {:induction false} FirstOccurrencesKeys(fed: seq<TimeData>)
    ensures DistinctKeys(FirstOccurrences(fed))
    ensures KeysOf(FirstOccurrences(fed)) == KeysOf(fed)
  {
    if fed != [] {
      var init, last := fed[..|fed| - 1], fed[|fed| - 1];
      FirstOccurrencesKeys(init);
      assert fed == init + [last];
      KeysOfAppend(init, last);
      var kept := FirstOccurrences(init);
      if last.Key() !in KeysOf(kept) {
        KeysOfAppend(kept, last);
        var r := kept + [last];
        forall i, j | 0 <= i < j < |r| ensures r[i].Key() != r[j].Key() {
          if j == |kept| {
            assert r[i] == kept[i];
          } else {
            assert r[i] == kept[i] && r[j] == kept[j];
          }
        }
      }
    }
  }

  lemma FirstOfEventIffNew(fed: seq<TimeData>, k: nat)
    requires k < |fed|
    ensures IsFirstOfEvent(fed, k) <==> fed[k].Key() !in KeysOf(fed[..k])
  {
    var p := fed[..k];
    if !IsFirstOfEvent(fed, k) {
      var i :| 0 <= i < k && fed[i].Key() == fed[k].Key();
      assert p[i] == fed[i];
    }
    if fed[k].Key() in KeysOf(p) {
      var i :| 0 <= i < |p| && p[i].Key() == fed[k].Key();
      assert p[i] == fed[i];
    }
  }

  /**
   * The records kept are exactly those that are the first of their event in
   * `fed`, in the order they were fed.
   */
  lemma {:induction false} FirstOccurrencesAreFirsts(fed: seq<TimeData>, k: nat)
    requires k <= |fed|
    ensures FirstOccurrences(fed[..k]) == FirstsUpTo(fed, k)
  {
    if k > 0 {
      FirstOccurrencesAreFirsts(fed, k - 1);
      var p := fed[..k];
      assert p[..k - 1] == fed[..k - 1] && p[k - 1] == fed[k - 1];
      FirstOccurrencesKeys(fed[..k - 1]);
      FirstOfEventIffNew(fed, k - 1);
    }
  }

  lemma TimesOfAppend(s: seq<TimeData>, d: TimeData)
    ensures TimesOf(s + [d]) == TimesOf(s) + [Sample(d.time, 1.0)]
  {
  }

  /** Truncation of `n` to a Python slice bound of a list of length `len`. */
  function SliceLength(len: nat, n: int): (k: nat)
    ensures k <= len
  {
    if n >= 0 then (if n < len then n else len)
    else if len + n >= 0 then len + n
    else 0
  }

  /** `TimeModuleStatsClass`: a keyed series of times. */
  class TimeModuleStats {
    const key: StatsKey
    /** The accumulator the class inherits from `Stats`. */
    const acc: Stats
    /** Whether `entries` and `entryKeys` are kept (`bTrackEntries`). */
    const tracked: bool
    var entries: seq<TimeData>
    var entryKeys: set<EventKey>

    ghost predicate Valid()
      reads this, acc
    {
      && acc.Valid()
      && UnitWeights(acc.Samples)
      && (tracked ==>
            && acc.Samples == TimesOf(entries)
            && entryKeys == KeysOf(entries)
            && DistinctKeys(entries))
      && (!tracked ==> entries == [] && entryKeys == {})
    }

    /** `TimeModuleStatsClass(moduleKey, bTrackEntries)` */
    constructor (moduleKey: StatsKey, trackEntries: bool)
      ensures Valid() && fresh(acc)
      ensures key == moduleKey && tracked == trackEntries
      ensures acc.Samples == [] && entries == []
    {
      key := moduleKey;
      tracked := trackEntries;
      acc := new Stats();
      entries := [];
      entryKeys := {};
    }

    /** With tracking on, the count of the accumulator is the number of entries. */
    lemma TrackedCount()
      requires Valid() && tracked
      ensures acc.n == |entries|
    {
    }

    /**
     * `add(data)`: with tracking on, a record whose event is already known is
     * refused and nothing changes; any other record is fed to the accumulator
     * (and, when tracking, appended to the entries).
     */
    method Add(data: TimeData) returns (added: bool)
      requires Valid()
      modifies this, acc
      ensures Valid()
      ensures added <==> !tracked || data.Key() !in old(entryKeys)
      ensures !added ==> unchanged(this, acc)
      ensures added ==> acc.Samples == old(acc.Samples) + [Sample(data.time, 1.0)]
      ensures added ==> entries == (if tracked then old(entries) + [data] else [])
      ensures added ==> entryKeys == (if tracked then old(entryKeys) + {data.Key()} else {})
    {
      if tracked {
        if data.Key() in entryKeys {
          return false;
        }
        KeysOfAppend(entries, data);
        TimesOfAppend(entries, data);
        entries := entries + [data];
        entryKeys := entryKeys + {data.Key()};
      }
      acc.Add(data.time, 1.0);
      added := true;
    }

    /**
     * `FormatStatsAsList()`: the name and "n/a" when nothing (or only zero
     * time) was recorded, otherwise the name, average, relative RMS, total,
     * count, minimum and maximum. `g` renders `%g`, `pct` renders `%4.1f` and
     * `root` is `math.sqrt`.
     */
    function FormatStatsAsList(g: real -> string, pct: real -> string, root: real -> real): (r: seq<string>)
      reads this, acc
      requires Valid()
      ensures |r| >= 2 && r[0] == DisplayName(key)
      ensures |r| == 2 <==> acc.n == 0 || WeightedSum(acc.Samples) == 0.0
      ensures |r| == 2 ==> r[1] == "n/a"
      ensures |r| != 2 ==>
        (&& |r| == 7
         && r[1] == g(Mean(acc.Samples)) + "\""
         && Mean(acc.Samples) != 0.0
         && r[2] == "(RMS " + pct(SignedSqrt(root, Variance(acc.Samples)) / Mean(acc.Samples) * 100.0) + "%)"
         && r[3] == "total " + g(WeightedSum(acc.Samples)) + "\""
         && r[4] == "(" + NatToString(|acc.Samples|) + " events:"
         && r[5] == g(MinOf(acc.Samples).value)
         && r[6] == "- " + g(MaxOf(acc.Samples).value) + ")")
    {
      var name := DisplayName(key);
      if acc.n == 0 || acc.sum == 0.0 then [name, "n/a"]
      else
        UnitWeightTotal(acc.Samples);
        MinAtMostMax(acc.Samples);
        var average := acc.Average();
        var rms := acc.Rms(root);
        [ name,
          g(average) + "\"",
          "(RMS " + pct(rms / average * 100.0) + "%)",
          "total " + g(acc.sum) + "\"",
          "(" + NatToString(acc.n) + " events:",
          g(acc.min.value),
          "- " + g(acc.max.value) + ")" ]
    }

    /**
     * `FormatTimesAsList(format_)`: the name, then one cell per event up to
     * `max_events` (default: all of them): the rendered time of each tracked
     * entry, or "n/a" in each cell when there are no entries.
     */
    function FormatTimesAsList(maxEvents: Option<int>, format: real -> string): (r: seq<string>)
      reads this, acc
      requires Valid()
      ensures |r| >= 1 && r[0] == DisplayName(key)
      ensures maxEvents.None? ==> |r| == 1 + acc.n
      ensures maxEvents.Some? && maxEvents.value >= 0 ==>
        |r| == 1 + (if maxEvents.value < acc.n then maxEvents.value else acc.n)
      ensures entries == [] ==> forall i :: 1 <= i < |r| ==> r[i] == "n/a"
      ensures entries != [] ==>
        (&& |r| - 1 <= |entries|
         && forall i :: 1 <= i < |r| ==> r[i] == format(entries[i - 1].time))
    {
      var name := DisplayName(key);
      var n := match maxEvents
        case None => acc.n
        case Some(m) => if m < acc.n then m else acc.n;
      if entries == [] then
        [name] + seq(if n >= 0 then n else 0, _ => "n/a")
      else
        var shown := entries[..SliceLength(|entries|, n)];
        [name] + seq(|shown|, i requires 0 <= i < |shown| => format(shown[i].time))
    }
  }
}

=== FILE: output_path.dfy ===
/**
 * `OutputFilePathParser` of ICARUSduplicateSubrunFiles.py: a production
 * output path such as
 *
 *   root://host:1094/pnfs/.../simulation_20200419T072758_2-0021_gen_20200419T204556_filter.root
 *
 * split into protocol, host, port, directories, file name and suffix, and
 * the file's base name split into its configuration name and the job
 * stages appended to it, each `_YYYYMMDDThhmmss_process`, the first one
 * possibly `_YYYYMMDDThhmmss_run-subRun_process`.
 *
 * The two stage patterns are fixed regular expressions; they are written
 * out here as recognisers of a suffix, and proved to find exactly the
 * suffix the expression describes.
 */
module OutputPath {
  import opened Wrappers
  import opened Strings

  /** The exceptions parsing a path raises (both are `ValueError`). */
  datatype PathError =
    | BadPort(text: string)  // `int()` of the text after the host's last `:`
    | BadDate(tag: string)   // `datetime.datetime` of a stage's date and time fields

  /** `[A-Za-z0-9]` */
  predicate IsAlnum(c: char) {
    ('A' <= c <= 'Z') || ('a' <= c <= 'z') || ('0' <= c <= '9')
  }

  predicate AllAlnum(s: string) {
    forall i :: 0 <= i < |s| ==> IsAlnum(s[i])
  }

  /** `\d{n}` */
  predicate IsDigits(s: string, n: nat) {
    |s| == n && AllDigits(s)
  }

  /** `\d+` */
  predicate IsNumber(s: string) {
    s != [] && AllDigits(s)
  }

  /** The position of the last `c` in `s`. */
  function LastIndex(s: string, c: char): (r: Option<nat>)
    ensures r.Some? ==> r.value < |s| && s[r.value] == c && c !in s[r.value + 1..]
    ensures r.None? ==> c !in s
  {
    if s == [] then None
    else if s[|s| - 1] == c then Some(|s| - 1)
    else
      var r := LastIndex(s[..|s| - 1], c);
      assert r.Some? ==> s[r.value + 1..] == s[..|s| - 1][r.value + 1..] + [s[|s| - 1]];
      assert r.None? ==> s == s[..|s| - 1] + [s[|s| - 1]];
      r
  }

  /** The last `c` is the one with no `c` after it. */
  lemma LastIndexIs(s: string, c: char, k: nat)
    requires k < |s| && s[k] == c && c !in s[k + 1..]
    ensures LastIndex(s, c) == Some(k)
  {
  }

  /** The `c` between `x` and a `y` free of `c` is the last one. */
  lemma LastIndexAt(x: string, c: char, y: string)
    requires c !in y
    ensures LastIndex(x + [c] + y, c) == Some(|x|)
  {
    var s := x + [c] + y;
    assert s[|x| + 1..] == y;
    LastIndexIs(s, c, |x|);
  }

  /** What one of the two stage patterns captures, and where its match starts. */
  datatype StageMatch = StageMatch(start: nat, date: string, time: string,
                                   run: Option<string>, subRun: Option<string>, process: string)

  /** The groups are the ones the patterns allow. */
  predicate ValidGroups(m: StageMatch) {
    && IsDigits(m.date, 8) && IsDigits(m.time, 6) && m.process != [] && AllAlnum(m.process)
    && (m.run.Some? <==> m.subRun.Some?)
    && (m.run.Some? ==> IsNumber(m.run.value) && IsNumber(m.subRun.value))
  }

  /** `_YYYYMMDDThhmmss`, the head of every stage tag. */
  function Stamp(date: string, time: string): string {
    "_" + date + "T" + time
  }

  /** The text a match covers. */
  function StageTag(m: StageMatch): string {
    Stamp(m.date, m.time) + "_" +
    (if m.run.Some? && m.subRun.Some? then m.run.value + "-" + m.subRun.value + "_" else "") +
    m.process
  }

  /** `_(\d{8})T(\d{6})` just before position `k`: the 16 characters `_YYYYMMDDThhmmss`. */
  predicate StampBefore(s: string, k: nat) {
    && 16 <= k <= |s| && s[k - 16] == '_' && IsDigits(s[k - 15..k - 7], 8) && s[k - 7] == 'T'
    && IsDigits(s[k - 6..k], 6)
  }

  lemma StampAt(s: string, rest: string, date: string, time: string)
    requires IsDigits(date, 8) && IsDigits(time, 6)
    requires |rest| + 16 <= |s| && s[..|rest| + 16] == rest + Stamp(date, time)
    ensures var k := |rest| + 16;
      StampBefore(s, k) && s[k - 15..k - 7] == date && s[k - 6..k] == time
  {
    var k := |rest| + 16;
    var t := s[..k];
    assert s[k - 16] == t[k - 16] == '_' && s[k - 7] == t[k - 7] == 'T';
    assert s[k - 15..k - 7] == t[k - 15..k - 7] == date;
    assert s[k - 6..k] == t[k - 6..k] == time;
  }

  lemma StampSplit(s: string, k: nat)
    requires StampBefore(s, k)
    ensures s[..k] == s[..k - 16] + Stamp(s[k - 15..k - 7], s[k - 6..k])
  {
  }

  /**
   * `StagePattern.search(s)`, the pattern `_(\d{8})T(\d{6})_([A-Za-z0-9]+)$`:
   * the process is everything after the last `_`.
   */
  function MatchStage(s: string): Option<StageMatch> {
    match LastIndex(s, '_')
    case None => None
    case Some(l) =>
      var process := s[l + 1..];
      if process != [] && AllAlnum(process) && StampBefore(s, l) then
        Some(StageMatch(l - 16, s[l - 15..l - 7], s[l - 6..l], None, None, process))
      else None
  }

  /**
   * `FirstStagePattern.search(s)`, the pattern
   * `_(\d{8})T(\d{6})_(\d+)-(\d+)_([A-Za-z0-9]+)$`: the process after the
   * last `_`, the run and subrun between the `_` before it and that one.
   */
  function MatchFirstStage(s: string): Option<StageMatch> {
    match LastIndex(s, '_')
    case None => None
    case Some(l) =>
      match LastIndex(s[..l], '_')
      case None => None
      case Some(l2) => FirstStageAt(s, l2, l)
  }

  /** The match of `FirstStagePattern` whose last two `_` are at `l2` and `l`, if the rest fits. */
  function FirstStageAt(s: string, l2: nat, l: nat): Option<StageMatch>
    requires l2 < l < |s|
  {
    var process := s[l + 1..];
    var seg := s[l2 + 1..l];
    var dash := CharEnd(seg, '-');
    if process != [] && AllAlnum(process) && dash < |seg| && IsNumber(seg[..dash])
       && IsNumber(seg[dash + 1..]) && StampBefore(s, l2) then
      Some(StageMatch(l2 - 16, s[l2 - 15..l2 - 7], s[l2 - 6..l2], Some(seg[..dash]), Some(seg[dash + 1..]), process))
    else None
  }

  /** A match of `StagePattern` covers the end of `s` from its start, with groups as the pattern allows. */
  lemma MatchStageSound(s: string, m: StageMatch)
    requires MatchStage(s) == Some(m)
    ensures ValidGroups(m) && m.run.None? && m.start <= |s|
    ensures s == s[..m.start] + StageTag(m) && s[m.start..] == StageTag(m)
  {
    var l := MatchStageAt(s);
    StageAt(s, l);
    StageTagOfNoRun(m);
  }

  /** A match of `StagePattern` is read off the last `_` of `s`. */
  lemma MatchStageAt(s: string) returns (l: nat)
    requires MatchStage(s).Some?
    ensures l < |s| && s[l] == '_' && StampBefore(s, l) && s[l + 1..] != [] && AllAlnum(s[l + 1..])
    ensures MatchStage(s) == Some(StageMatch(l - 16, s[l - 15..l - 7], s[l - 6..l], None, None, s[l + 1..]))
  {
    l := LastIndex(s, '_').value;
  }

  /** Without run and subrun the tag is the stamp, `_` and the process. */
  lemma StageTagOfNoRun(m: StageMatch)
    requires m.run.None?
    ensures StageTag(m) == Stamp(m.date, m.time) + "_" + m.process
  {
    assert Stamp(m.date, m.time) + "_" + "" == Stamp(m.date, m.time) + "_";
  }

  /** A stamp just before the `_` at `l` starts the tag that runs to the end of `s`. */
  lemma StageAt(s: string, l: nat)
    requires l < |s| && s[l] == '_' && StampBefore(s, l)
    ensures var tag := Stamp(s[l - 15..l - 7], s[l - 6..l]) + "_" + s[l + 1..];
      s == s[..l - 16] + tag && s[l - 16..] == tag
  {
    CutAt(s, l);
    StampSplit(s, l);
    var tag := Stamp(s[l - 15..l - 7], s[l - 6..l]) + "_" + s[l + 1..];
    assert s == s[..l - 16] + tag;
    Suffix(s[..l - 16], tag);
  }

  /** Whatever ends in a stage tag is matched at the start of that tag, with its groups. */
  lemma MatchStageComplete(rest: string, m: StageMatch)
    requires ValidGroups(m) && m.run.None?
    ensures MatchStage(rest + StageTag(m)) == Some(m.(start := |rest|))
  {
    var q := rest + Stamp(m.date, m.time);
    var s := rest + StageTag(m);
    assert s == q + "_" + m.process;
    AlnumHasNo(m.process, '_');
    LastIndexAt(q, '_', m.process);
    Around(q, '_', m.process);
    InnerSlice(s, 0, |q|);
    StampAt(s, rest, m.date, m.time);
    var l := |q|;
    assert l == |rest| + 16;
    assert LastIndex(s, '_') == Some(l) && s[l + 1..] == m.process;
    assert StampBefore(s, l) && s[l - 15..l - 7] == m.date && s[l - 6..l] == m.time;
    assert m.subRun.None?;
  }

  /** The same for `FirstStagePattern`. */
  lemma MatchFirstStageSound(s: string, m: StageMatch)
    requires MatchFirstStage(s) == Some(m)
    ensures ValidGroups(m) && m.run.Some? && m.start <= |s|
    ensures s == s[..m.start] + StageTag(m) && s[m.start..] == StageTag(m)
  {
    var l := LastIndex(s, '_').value;
    var l2 := LastIndex(s[..l], '_').value;
    assert m == FirstStageAt(s, l2, l).value;
    var seg := s[l2 + 1..l];
    var dash := CharEnd(seg, '-');
    CutAt(seg, dash);
    CutAt(s, l);
    CutBefore(s, l2, l);
    StampSplit(s, l2);
    FirstTagPieces(s[..m.start], m);
    Suffix(s[..m.start], StageTag(m));
  }

  lemma Suffix(a: string, b: string)
    ensures (a + b)[|a|..] == b
  {
  }

  lemma Assoc(a: string, b: string, c: string)
    ensures a + (b + c) == (a + b) + c
  {
  }

  /** `s` around its `k`th character. */
  lemma CutAt(s: string, k: nat)
    requires k < |s|
    ensures s == s[..k] + [s[k]] + s[k + 1..]
  {
  }

  /** `s[..k2]` around its `k1`th character. */
  lemma CutBefore(s: string, k1: nat, k2: nat)
    requires k1 < k2 <= |s|
    ensures s[..k2] == s[..k1] + [s[k1]] + s[k1 + 1..k2]
  {
  }

  /** A first-stage tag is its stamp, `_`, `run-subRun`, `_` and the process. */
  lemma FirstTagPieces(front: string, m: StageMatch)
    requires m.run.Some? && m.subRun.Some?
    ensures front + StageTag(m) == front + Stamp(m.date, m.time) + "_" + (m.run.value + "-" + m.subRun.value) + "_" + m.process
  {
  }

  lemma AlnumHasNo(s: string, c: char)
    requires AllAlnum(s) && !IsAlnum(c)
    ensures c !in s
  {
    forall i | 0 <= i < |s| ensures s[i] != c {
      assert IsAlnum(s[i]);
    }
  }

  lemma DigitsHaveNo(s: string, c: char)
    requires AllDigits(s) && !IsDigit(c)
    ensures c !in s
  {
    forall i | 0 <= i < |s| ensures s[i] != c {
      assert IsDigit(s[i]);
    }
  }

  /** `run-subRun` has no `_`, and its first `-` is the one between the numbers. */
  lemma RunSegment(run: string, sub: string)
    requires AllDigits(run) && AllDigits(sub)
    ensures var seg := run + "-" + sub;
      '_' !in seg && CharEnd(seg, '-') == |run| && seg[..|run|] == run && seg[|run| + 1..] == sub
  {
    var seg := run + "-" + sub;
    DigitsHaveNo(run, '_');
    DigitsHaveNo(sub, '_');
    DigitsHaveNo(run, '-');
    forall i | 0 <= i < |seg| ensures seg[i] != '_' {
      if i < |run| {
        assert seg[i] == run[i];
      } else if i > |run| {
        assert seg[i] == sub[i - |run| - 1];
      }
    }
    CharEndOfNoSep(run, "-" + sub, '-');
    assert seg == run + ("-" + sub);
  }

  lemma MatchFirstStageComplete(rest: string, m: StageMatch)
    requires ValidGroups(m) && m.run.Some?
    ensures MatchFirstStage(rest + StageTag(m)) == Some(m.(start := |rest|))
  {
    var run, sub := m.run.value, m.subRun.value;
    var q := rest + Stamp(m.date, m.time);
    var p := q + "_" + (run + "-" + sub);
    var s := rest + StageTag(m);
    FirstStageCuts(rest, m);
    assert MatchFirstStage(s) == FirstStageAt(s, |q|, |p|);
    FirstStageGroups(rest, m);
  }

  /** In a text ending in a first-stage tag, the last two `_` are the ones around `run-subRun`. */
  lemma FirstStageCuts(rest: string, m: StageMatch)
    requires ValidGroups(m) && m.run.Some?
    ensures var q := rest + Stamp(m.date, m.time);
      var p := q + "_" + (m.run.value + "-" + m.subRun.value);
      var s := rest + StageTag(m);
      && |q| < |p| < |s|
      && LastIndex(s, '_') == Some(|p|) && LastIndex(s[..|p|], '_') == Some(|q|)
  {
    var run, sub := m.run.value, m.subRun.value;
    var seg := run + "-" + sub;
    var q := rest + Stamp(m.date, m.time);
    var p := q + "_" + seg;
    var s := rest + StageTag(m);
    FirstTagPieces(rest, m);
    AlnumHasNo(m.process, '_');
    LastIndexAt(p, '_', m.process);
    Around(p, '_', m.process);
    RunSegment(run, sub);
    LastIndexAt(q, '_', seg);
  }

  /** What `FirstStageAt` reads at those two `_` is the groups of the tag. */
  lemma FirstStageGroups(rest: string, m: StageMatch)
    requires ValidGroups(m) && m.run.Some?
    ensures var q := rest + Stamp(m.date, m.time);
      var p := q + "_" + (m.run.value + "-" + m.subRun.value);
      var s := rest + StageTag(m);
      |q| < |p| < |s| && FirstStageAt(s, |q|, |p|) == Some(m.(start := |rest|))
  {
    var run, sub := m.run.value, m.subRun.value;
    var seg := run + "-" + sub;
    var q := rest + Stamp(m.date, m.time);
    var p := q + "_" + seg;
    var s := rest + StageTag(m);
    FirstTagPieces(rest, m);
    Around(p, '_', m.process);
    RunSegment(run, sub);
    Around(q, '_', seg);
    InnerSlice(s, |q| + 1, |p|);
    assert s[..|q|] == q by {
      InnerSlice(s, 0, |q|);
      InnerSlice(p, 0, |q|);
    }
    StampAt(s, rest, m.date, m.time);
  }

  /** The pieces on both sides of a `c` put between them. */
  lemma Around(x: string, c: char, y: string)
    ensures (x + [c] + y)[..|x|] == x && (x + [c] + y)[|x| + 1..] == y
  {
  }

  lemma InnerSlice(s: string, i: nat, j: nat)
    requires i <= j <= |s|
    ensures s[i..j] == s[..j][i..]
  {
  }

  /** A date and time, as `datetime.datetime` holds them (microseconds left out). */
  datatype DateTime = DateTime(year: int, month: int, day: int, hour: int, minute: int, second: int)

  predicate IsLeap(year: int) {
    year % 4 == 0 && (year % 100 != 0 || year % 400 == 0)
  }

  function DaysInMonth(year: int, month: int): int
    requires 1 <= month <= 12
  {
    if month == 2 then (if IsLeap(year) then 29 else 28)
    else if month in {4, 6, 9, 11} then 30
    else 31
  }

  /** The values `datetime.datetime` accepts; any other raises `ValueError`. */
  predicate ValidDateTime(d: DateTime) {
    && 1 <= d.year <= 9999 && 1 <= d.month <= 12 && 1 <= d.day <= DaysInMonth(d.year, d.month)
    && 0 <= d.hour < 24 && 0 <= d.minute < 60 && 0 <= d.second < 60
  }

  /** The year, month and day `parseDate` reads off a packed `YYYYMMDD` integer. */
  function DateFields(date: int): (l: seq<int>)
    ensures |l| == 3 && 0 <= l[0] < 10000 && 0 <= l[1] < 100 && 0 <= l[2] < 100
  {
    [(date / 10000) % 10000, (date / 100) % 100, date % 100]
  }

  /**
   * `JobStageClass.parseDate(date)`: the fields peeled off the right with
   * `% 100` and `//= 100` (for a positive divisor, Python's floor division
   * and Dafny's Euclidean one agree).
   */
  method ParseDate(date: int) returns (l: seq<int>)
    ensures l == DateFields(date)
  {
    var d := date;
    l := [];
    l := [d % 100] + l;
    d := d / 100;
    l := [d % 100] + l;
    d := d / 100;
    l := [d % 10000] + l;
  }

  /** `parseDate` gives back the year, month and day a `YYYYMMDD` integer packs. */
  lemma DateFieldsRoundTrip(year: int, month: int, day: int)
    requires 0 <= year < 10000 && 0 <= month < 100 && 0 <= day < 100
    ensures DateFields(year * 10000 + month * 100 + day) == [year, month, day]
  {
    var date := year * 10000 + month * 100 + day;
    assert date / 100 == year * 100 + month;
    assert date / 10000 == year;
  }

  /** An eight-digit date is exactly its fields packed again. */
  lemma DateFieldsPack(date: int)
    requires 0 <= date < 100000000
    ensures var l := DateFields(date); l[0] * 10000 + l[1] * 100 + l[2] == date
  {
  }

  /** The hour, minute and second `parseTime` reads off a packed `hhmmss` integer. */
  function TimeFields(time: int): (t: (int, int, int))
    ensures 0 <= t.0 < 100 && 0 <= t.1 < 100 && 0 <= t.2 < 100
  {
    ((time / 10000) % 100, (time / 100) % 100, time % 100)
  }

  /** `JobStageClass.parseTime(time)` without the microseconds: `second`, `minute` and `hour` in turn. */
  method ParseTime(time: int) returns (hour: int, minute: int, second: int)
    ensures (hour, minute, second) == TimeFields(time)
  {
    var t := time;
    second := t % 100;
    t := t / 100;
    minute := t % 100;
    t := t / 100;
    hour := t % 100;
  }

  /** `parseTime` gives back the hour, minute and second an `hhmmss` integer packs. */
  lemma TimeFieldsRoundTrip(hour: int, minute: int, second: int)
    requires 0 <= hour < 100 && 0 <= minute < 100 && 0 <= second < 100
    ensures TimeFields(hour * 10000 + minute * 100 + second) == (hour, minute, second)
  {
    var time := hour * 10000 + minute * 100 + second;
    assert time / 100 == hour * 100 + minute;
    assert time / 10000 == hour;
  }

  /** `JobStageClass`: one stage of the job that wrote the file. */
  datatype Stage = Stage(tag: string, date: DateTime, process: string, run: Option<int>, subRun: Option<int>) {
    /** `hasRun()` */
    predicate HasRun() {
      run.Some? || subRun.Some?
    }

    /** `runAndSubRun()`: both, when either is known. */
    function RunAndSubRun(): (r: Option<(Option<int>, Option<int>)>)
      ensures r.Some? <==> HasRun()
      ensures r.Some? ==> r.value == (run, subRun)
    {
      if HasRun() then Some((run, subRun)) else None
    }
  }

  /** `JobStageClass(tag, date, time, process, run, subRun)` for a match at the end of `s`. */
  function MakeStage(s: string, m: StageMatch): (r: Result<Stage, PathError>)
    requires m.start <= |s| && AllDigits(m.date) && AllDigits(m.time)
    requires m.run.Some? ==> AllDigits(m.run.value)
    requires m.subRun.Some? ==> AllDigits(m.subRun.value)
    ensures r.Success? ==> r.value.tag == s[m.start..] && r.value.process == m.process && ValidDateTime(r.value.date)
    ensures r.Success? ==> (r.value.run.Some? <==> m.run.Some?) && (r.value.subRun.Some? <==> m.subRun.Some?)
    ensures r.Failure? ==> r.error == BadDate(s[m.start..])
  {
    var l := DateFields(DigitsValue(m.date));
    var (hour, minute, second) := TimeFields(DigitsValue(m.time));
    var date := DateTime(l[0], l[1], l[2], hour, minute, second);
    if !ValidDateTime(date) then Failure(BadDate(s[m.start..]))
    else
      Success(Stage(s[m.start..], date, m.process,
                    if m.run.Some? then Some(DigitsValue(m.run.value) as int) else None,
                    if m.subRun.Some? then Some(DigitsValue(m.subRun.value) as int) else None))
  }

  /**
   * The loop of `_parseBaseName` over `s`: stages matched off the end one at
   * a time, each put in front of those found before; what is left, or the
   * exception of the first stage (from the right) with an impossible date.
   */
  function PeelStages(s: string): Result<(string, seq<Stage>), PathError>
    decreases |s|
  {
    match MatchStage(s)
    case None => Success((s, []))
    case Some(m) =>
      MatchStageSound(s, m);
      match MakeStage(s, m)
      case Failure(e) => Failure(e)
      case Success(stage) =>
        match PeelStages(s[..m.start])
        case Failure(e) => Failure(e)
        case Success((rest, stages)) => Success((rest, stages + [stage]))
  }

  /** `_parseBaseName(baseName)`: the configuration name and the stages in file name order. */
  function SplitBaseName(baseName: string): Result<(string, seq<Stage>), PathError> {
    match PeelStages(baseName)
    case Failure(e) => Failure(e)
    case Success((rest, stages)) =>
      match MatchFirstStage(rest)
      case None => Success((rest, stages))
      case Some(m) =>
        MatchFirstStageSound(rest, m);
        match MakeStage(rest, m)
        case Failure(e) => Failure(e)
        case Success(stage) => Success((rest[..m.start], [stage] + stages))
  }

  /** The stage tags one after the other. */
  function Tags(stages: seq<Stage>): string {
    if stages == [] then "" else Tags(stages[..|stages| - 1]) + stages[|stages| - 1].tag
  }

  lemma {:induction false} TagsAppend(a: seq<Stage>, b: seq<Stage>)
    ensures Tags(a + b) == Tags(a) + Tags(b)
    decreases |b|
  {
    if b == [] {
      assert a + b == a;
    } else {
      var b' := b[..|b| - 1];
      assert (a + b)[..|a + b| - 1] == a + b';
      TagsAppend(a, b');
      var t := b[|b| - 1].tag;
      assert Tags(a + b) == Tags(a) + Tags(b') + t;
      Assoc(Tags(a), Tags(b'), t);
    }
  }

  /** Every stage peeled off is one without run or subrun, and the pieces give the name back. */
  lemma {:induction false} PeelStagesSpec(s: string, rest: string, stages: seq<Stage>)
    requires PeelStages(s) == Success((rest, stages))
    ensures rest + Tags(stages) == s
    ensures MatchStage(rest).None?
    ensures NoneHasRun(stages)
    decreases |s|
  {
    match MatchStage(s)
    case None =>
    case Some(m) =>
      MatchStageSound(s, m);
      var stage := MakeStage(s, m).value;
      var (rest', stages') := PeelStages(s[..m.start]).value;
      assert stages == stages' + [stage] && rest == rest';
      PeelStagesSpec(s[..m.start], rest', stages');
      assert stages[..|stages'|] == stages';
      Assoc(rest, Tags(stages'), stage.tag);
      assert !stage.HasRun();
      NoneHasRunAppend(stages', stage);
  }

  /** No stage has a run or subrun. */
  predicate NoneHasRun(stages: seq<Stage>) {
    forall i :: 0 <= i < |stages| ==> !stages[i].HasRun()
  }

  lemma NoneHasRunAppend(stages: seq<Stage>, stage: Stage)
    requires NoneHasRun(stages) && !stage.HasRun()
    ensures NoneHasRun(stages + [stage])
  {
  }

  /**
   * `_parseBaseName`: the configuration name followed by the stage tags in
   * order is the base name again; no stage but the first has a run or
   * subrun, and the first has both or neither; when the first has neither,
   * no stage pattern matches at the end of the configuration name.
   */
  lemma SplitBaseNameSpec(baseName: string, conf: string, stages: seq<Stage>)
    requires SplitBaseName(baseName) == Success((conf, stages))
    ensures conf + Tags(stages) == baseName
    ensures stages != [] ==> NoneHasRun(stages[1..])
    ensures stages != [] && stages[0].HasRun() ==> stages[0].run.Some? && stages[0].subRun.Some?
    ensures stages == [] || !stages[0].HasRun() ==> MatchStage(conf).None?
  {
    var (rest, peeled) := PeelStages(baseName).value;
    PeelStagesSpec(baseName, rest, peeled);
    match MatchFirstStage(rest)
    case None =>
      assert stages == peeled;
      if stages != [] {
        assert !stages[0].HasRun();
      }
    case Some(m) =>
      MatchFirstStageSound(rest, m);
      var stage := MakeStage(rest, m).value;
      assert conf == rest[..m.start] && stages == [stage] + peeled;
      assert stages[1..] == peeled;
      assert conf + stage.tag == rest;
      PrependTags(conf, stage, peeled);
  }

  /** The tags of a stage put in front of others: its own tag, then theirs. */
  lemma PrependTags(a: string, stage: Stage, stages: seq<Stage>)
    ensures a + Tags([stage] + stages) == (a + stage.tag) + Tags(stages)
  {
    TagsAppend([stage], stages);
    assert Tags([stage]) == stage.tag by {
      assert [stage][..0] == [];
    }
    Assoc(a, stage.tag, Tags(stages));
  }

  /** `os.path.split(p)`: the head with its trailing `/`s stripped (unless it is all `/`), and the tail. */
  function SplitPath(p: string): (r: (string, string))
    ensures LastIndex(p, '/').None? ==> r == ("", p)
    ensures LastIndex(p, '/').Some? ==> r.1 == p[LastIndex(p, '/').value + 1..]
    ensures LastIndex(p, '/').Some? ==>
      var k := LastIndex(p, '/').value;
      |r.0| <= k + 1 && r.0 == p[..|r.0|] && AllSlashes(p[|r.0|..k + 1]) &&
      (if AllSlashes(p[..k + 1]) then r.0 == p[..k + 1] else r.0 != [] && r.0[|r.0| - 1] != '/')
  {
    match LastIndex(p, '/')
    case None => ("", p)
    case Some(k) =>
      var head := p[..k + 1];
      (if AllSlashes(head) then head else StripSlashes(head), p[k + 1..])
  }

  predicate AllSlashes(s: string) {
    forall i :: 0 <= i < |s| ==> s[i] == '/'
  }

  /** `s.rstrip('/')` */
  function StripSlashes(s: string): (r: string)
    ensures |r| <= |s| && r == s[..|r|] && (r == [] || r[|r| - 1] != '/')
    ensures AllSlashes(s[|r|..])
  {
    if s == [] || s[|s| - 1] != '/' then s
    else
      var r := StripSlashes(s[..|s| - 1]);
      assert s[|r|..] == s[..|s| - 1][|r|..] + [s[|s| - 1]];
      r
  }

  /**
   * `os.path.splitext(name)` for a name without `/`: the extension from the
   * last `.`, unless only dots precede it.
   */
  function SplitExt(name: string): (r: (string, string))
    ensures r.0 + r.1 == name
    ensures r.1 != [] ==> r.1[0] == '.' && forall i :: 0 < i < |r.1| ==> r.1[i] != '.'
    ensures r.1 != [] <==> HasExtension(name)
  {
    match LastIndex(name, '.')
    case None => (name, "")
    case Some(d) =>
      if AllDots(name[..d]) then
        assert forall j :: d < j < |name| ==> name[j] == name[d + 1..][j - d - 1];
        (name, "")
      else
        var i :| 0 <= i < d && name[i] != '.';
        assert name[d..][1..] == name[d + 1..];
        (name[..d], name[d..])
  }

  /** Some `.` of `name` follows a character other than `.`: what gives it an extension. */
  predicate HasExtension(name: string) {
    exists i, j :: 0 <= i < j < |name| && name[i] != '.' && name[j] == '.'
  }

  predicate AllDots(s: string) {
    forall i :: 0 <= i < |s| ==> s[i] == '.'
  }

  /** A `://` starts at position `j` of `s`. */
  predicate SepAt(s: string, j: int) {
    0 <= j && j + 3 <= |s| && s[j] == ':' && s[j + 1] == '/' && s[j + 2] == '/'
  }

  /** The position of the first `://`, if any. */
  function FindProtocolSep(s: string): (r: Option<nat>)
    ensures r.Some? ==> r.value + 3 <= |s| && s[r.value..r.value + 3] == "://"
    ensures r.Some? ==> SepAt(s, r.value) && forall j :: 0 <= j < r.value ==> !SepAt(s, j)
    ensures r.None? ==> forall j :: !SepAt(s, j)
    decreases |s|
  {
    if |s| < 3 then None
    else if s[..3] == "://" then Some(0)
    else
      assert s[..3][0] == s[0] && s[..3][1] == s[1] && s[..3][2] == s[2];
      assert forall j :: SepAt(s, j) && j >= 1 ==> SepAt(s[1..], j - 1);
      match FindProtocolSep(s[1..])
      case None => None
      case Some(i) => Some(i + 1)
  }

  /** `path.split("://", 1)`, when the path has one. */
  function SplitProtocol(path: string): (Option<string>, string) {
    match FindProtocolSep(path)
    case None => (None, path)
    case Some(i) => (Some(path[..i]), path[i + 3..])
  }

  /** What `parse` leaves in the parser's fields. */
  datatype PathFields = PathFields(
    protocol: Option<string>,
    hostname: Option<string>,
    protocolPort: Option<int>,   // `None`: the attribute was never set
    dirs: seq<string>,
    fileBaseName: string,
    fileSuffix: string,
    stages: seq<Stage>,
    configurationName: string)
  {
    /** `fileName()` */
    function FileName(): string {
      fileBaseName + fileSuffix
    }

    /** `dirPath()` */
    function DirPath(): string {
      Join(dirs, "/")
    }

    /** `filePath()` */
    function FilePath(): string {
      Join([DirPath(), FileName()], "/")
    }

    /** `hasRun()`: the first stage has a run or a subrun. */
    predicate HasRun() {
      stages != [] && stages[0].HasRun()
    }

    /** `runAndSubRun()` */
    function RunAndSubRun(): (r: Option<(Option<int>, Option<int>)>)
      ensures r.Some? <==> HasRun()
      ensures r.Some? ==> r.value == (stages[0].run, stages[0].subRun)
    {
      if HasRun() then stages[0].RunAndSubRun() else None
    }

    /** `run()` */
    function Run(): (r: Option<int>)
      ensures r.Some? ==> HasRun() && r == stages[0].run
      ensures !HasRun() ==> r.None?
    {
      if HasRun() then stages[0].run else None
    }

    /** `subRun()` */
    function SubRun(): (r: Option<int>)
      ensures r.Some? ==> HasRun() && r == stages[0].subRun
      ensures !HasRun() ==> r.None?
    {
      if HasRun() then stages[0].subRun else None
    }

    /**
     * `__str__()`: protocol, host and port (when set and not zero) and the
     * file path; a host without a port raises `AttributeError`, the
     * attribute never having been set.
     */
    function ToString(): (r: Option<string>)
      ensures r.None? <==> hostname.Some? && hostname.value != "" && protocolPort.None?
    {
      var s := if protocol.Some? && protocol.value != "" then protocol.value + "://" else "";
      if hostname.Some? && hostname.value != "" then
        match protocolPort
        case None => None
        case Some(port) =>
          Some(s + hostname.value + (if port != 0 then ":" + IntToString(port) else "") + FilePath())
      else Some(s + FilePath())
    }
  }

  /**
   * `parse(path)`: the protocol before the first `://`; the directory and
   * the file name, split into base name and suffix; the stages of the base
   * name; then the directories, see `WithHost`.
   */
  function ParsePath(path: string): Result<PathFields, PathError> {
    var (protocol, rest) := SplitProtocol(path);
    var (dirPath, fileName) := SplitPath(rest);
    var (baseName, suffix) := SplitExt(fileName);
    match SplitBaseName(baseName)
    case Failure(e) => Failure(e)
    case Success((conf, stages)) =>
      WithHost(PathFields(protocol, None, None, SplitOn(dirPath, '/'), baseName, suffix, stages, conf))
  }

  /**
   * The end of `parse`: with a (non-empty) protocol the first directory is
   * the host name, and is blanked; a host name holding `:` is split at its
   * last `:`, and what follows is read as the port.
   */
  function WithHost(f: PathFields): Result<PathFields, PathError>
    requires f.dirs != []
  {
    if f.protocol.Some? && f.protocol.value != "" then
      var hostname := f.dirs[0];
      var f' := f.(hostname := Some(hostname), dirs := f.dirs[0 := ""]);
      if hostname != "" && ':' in hostname then
        var (host, portText) := RSplitColon(hostname);
        match ParseInt(Strip(portText))
        case None => Failure(BadPort(portText))
        case Some(port) => Success(f'.(hostname := Some(host), protocolPort := Some(port)))
      else Success(f')
    else Success(f)
  }

  /** `s.rsplit(':', 1)` of a text holding a `:`. */
  function RSplitColon(s: string): (r: (string, string))
    requires ':' in s
    ensures r.0 + ":" + r.1 == s && ':' !in r.1
  {
    var k := LastIndex(s, ':').value;
    assert s == s[..k] + ":" + s[k + 1..];
    (s[..k], s[k + 1..])
  }

  /** The directory part of a path, after its protocol. */
  function DirOf(path: string): string {
    SplitPath(SplitProtocol(path).1).0
  }

  /** The file name of a path. */
  function FileOf(path: string): string {
    SplitPath(SplitProtocol(path).1).1
  }

  /** The path has a non-empty protocol (`if self.protocol:`). */
  predicate HasProtocol(path: string) {
    SplitProtocol(path).0.Some? && SplitProtocol(path).0.value != ""
  }

  /**
   * What `parse` reads off a path: the protocol and the file name as they
   * are; the configuration name and stage tags making up the base name;
   * run and subrun both known or both unknown; without a protocol the
   * directory path as it is; with one, the directory path without its
   * first piece, which gives the host name (and the port after its last
   * `:`).
   */
  lemma ParsePathSpec(path: string, f: PathFields)
    requires ParsePath(path) == Success(f)
    ensures f.protocol == SplitProtocol(path).0 && f.FileName() == FileOf(path)
    ensures f.configurationName + Tags(f.stages) == f.fileBaseName
    ensures f.HasRun() ==> f.Run().Some? && f.SubRun().Some? && f.RunAndSubRun() == Some((f.Run(), f.SubRun()))
    ensures !HasProtocol(path) ==> f.hostname.None? && f.protocolPort.None? && f.DirPath() == DirOf(path)
    ensures HasProtocol(path) ==>
      var first := SplitOn(DirOf(path), '/')[0];
      && first + f.DirPath() == DirOf(path)
      && (':' in first ==> f.hostname == Some(RSplitColon(first).0) && f.protocolPort == ParseInt(Strip(RSplitColon(first).1)))
      && (':' !in first ==> f.hostname == Some(first) && f.protocolPort.None?)
  {
    var (protocol, rest) := SplitProtocol(path);
    var (dirPath, fileName) := SplitPath(rest);
    var (baseName, suffix) := SplitExt(fileName);
    var (conf, stages) := SplitBaseName(baseName).value;
    SplitBaseNameSpec(baseName, conf, stages);
    var g := PathFields(protocol, None, None, SplitOn(dirPath, '/'), baseName, suffix, stages, conf);
    assert WithHost(g) == Success(f);
    WithHostSpec(g, f);
    JoinSplitOn(dirPath, '/');
  }

  /** The end of `parse` keeps the file fields and takes the host from the first directory. */
  lemma WithHostSpec(g: PathFields, f: PathFields)
    requires g.dirs != [] && g.hostname.None? && g.protocolPort.None? && WithHost(g) == Success(f)
    ensures f.protocol == g.protocol && f.fileBaseName == g.fileBaseName && f.fileSuffix == g.fileSuffix
    ensures f.stages == g.stages && f.configurationName == g.configurationName
    ensures !(g.protocol.Some? && g.protocol.value != "") ==> f == g
    ensures g.protocol.Some? && g.protocol.value != "" ==>
      var first := g.dirs[0];
      && first + f.DirPath() == g.DirPath()
      && (':' in first ==> f.hostname == Some(RSplitColon(first).0) && f.protocolPort == ParseInt(Strip(RSplitColon(first).1)))
      && (':' !in first ==> f.hostname == Some(first) && f.protocolPort.None?)
  {
    if g.protocol.Some? && g.protocol.value != "" {
      assert f.dirs == g.dirs[0 := ""];
      JoinFirstReplaced(g.dirs, "/");
    }
  }

  /** `Join` of two pieces. */
  lemma JoinTwo(a: string, b: string, sep: string)
    ensures Join([a, b], sep) == a + sep + b
  {
    assert [a, b][1..] == [b];
  }

  /** A bare file name, without protocol or directory, prints back with a leading `/`. */
  lemma BareNamePrintsWithSlash(name: string, f: PathFields)
    requires '/' !in name && ParsePath(name) == Success(f)
    ensures f.ToString() == Some("/" + name)
  {
    NoProtocolSep(name);
    assert SplitProtocol(name) == (None, name);
    assert SplitPath(name) == ("", name);
    ParsePathSpec(name, f);
    assert f.DirPath() == "" && f.FileName() == name;
    JoinTwo("", name, "/");
    assert f.ToString() == Some("" + ("" + "/" + name));
    assert "" + ("" + "/" + name) == "/" + name;
  }

  /** A text without `/` has no `://`. */
  lemma {:induction false} NoProtocolSep(s: string)
    requires '/' !in s
    ensures FindProtocolSep(s).None?
    decreases |s|
  {
    if |s| >= 3 {
      assert s[..3][1] == s[1] != '/';
      assert '/' !in s[1..] by {
        forall i | 0 <= i < |s| - 1 ensures s[1..][i] != '/' {
          assert s[1..][i] == s[i + 1];
        }
      }
      NoProtocolSep(s[1..]);
    }
  }

  /** `s` with one `/` appended loses it again to `os.path.split`'s stripping. */
  lemma StripOneSlash(x: string)
    requires x != [] && x[|x| - 1] != '/'
    ensures StripSlashes(x + "/") == x && !AllSlashes(x + "/")
  {
    assert (x + "/")[..|x|] == x;
    assert (x + "/")[|x| - 1] != '/';
  }

  /** `os.path.split` of a path whose last `/` follows a name, not another `/`. */
  lemma SplitPathAt(x: string, y: string)
    requires x != [] && x[|x| - 1] != '/' && '/' !in y
    ensures SplitPath(x + "/" + y) == (x, y)
  {
    LastIndexAt(x, '/', y);
    Around(x, '/', y);
    assert (x + "/" + y)[..|x| + 1] == x + "/";
    StripOneSlash(x);
  }

  /**
   * A path without protocol whose last `/` follows a directory name (not
   * another `/`) prints back as it was read.
   */
  lemma LocalPathRoundTrip(path: string, f: PathFields)
    requires FindProtocolSep(path).None? && ParsePath(path) == Success(f)
    requires LastIndex(path, '/').Some? && LastIndex(path, '/').value > 0
    requires path[LastIndex(path, '/').value - 1] != '/'
    ensures f.ToString() == Some(path)
  {
    var k := LastIndex(path, '/').value;
    CutAt(path, k);
    assert path == path[..k] + "/" + path[k + 1..];
    SplitPathAt(path[..k], path[k + 1..]);
    assert SplitProtocol(path) == (None, path);
    ParsePathSpec(path, f);
    assert f.DirPath() == path[..k] && f.FileName() == path[k + 1..];
    JoinTwo(path[..k], path[k + 1..], "/");
    assert f.ToString() == Some("" + (path[..k] + "/" + path[k + 1..]));
    assert "" + (path[..k] + "/" + path[k + 1..]) == path;
  }

  /** A protocol made of letters and digits ends at the first `://`. */
  lemma {:induction false} ProtocolSepAfterWord(proto: string, rest: string)
    requires AllAlnum(proto)
    ensures FindProtocolSep(proto + "://" + rest) == Some(|proto|)
    decreases |proto|
  {
    var s := proto + "://" + rest;
    if proto == [] {
      assert s[..3] == "://";
    } else {
      assert s[..3] != "://" by {
        assert IsAlnum(s[0]);
      }
      assert s[1..] == proto[1..] + "://" + rest;
      ProtocolSepAfterWord(proto[1..], rest);
    }
  }

  lemma StripOfDigits(s: string)
    requires s != [] && AllDigits(s)
    ensures Strip(s) == s
  {
    assert !IsSpace(s[0]) && !IsSpace(s[|s| - 1]);
  }

  /** `Join` with its first piece blanked. */
  lemma JoinFirstReplaced(parts: seq<string>, sep: string)
    requires parts != []
    ensures Join(parts, sep) == parts[0] + Join(parts[0 := ""], sep)
  {
    if |parts| > 1 {
      assert parts[0 := ""][1..] == parts[1..];
    }
  }

  /** The first piece of `x + rest` split at `c`, for `rest` empty or starting with `c`. */
  lemma FirstPiece(x: string, rest: string, c: char)
    requires c !in x && (rest == [] || rest[0] == c)
    ensures SplitOn(x + rest, c)[0] == x
  {
    CharEndOfNoSep(x, rest, c);
    assert (x + rest)[..|x|] == x;
  }

  /** `host:port`, with the port written in decimal. */
  lemma HostPort(host: string, port: nat)
    requires ':' !in host && '/' !in host
    ensures var hp := host + ":" + NatToString(port);
      && '/' !in hp && ':' in hp && hp[|hp| - 1] != '/'
      && RSplitColon(hp) == (host, NatToString(port))
      && ParseInt(Strip(NatToString(port))) == Some(port as int)
  {
    var portText := NatToString(port);
    HostPortText(host, portText);
    PortText(port);
  }

  lemma HostPortText(host: string, portText: string)
    requires ':' !in host && '/' !in host && portText != [] && AllDigits(portText)
    ensures var hp := host + ":" + portText;
      && '/' !in hp && ':' in hp && hp[|hp| - 1] != '/'
      && RSplitColon(hp) == (host, portText)
  {
    var hp := host + ":" + portText;
    DigitsHaveNo(portText, '/');
    DigitsHaveNo(portText, ':');
    NoSlashAround(host, ':', portText);
    assert hp[|host|] == ':';
    assert hp[|hp| - 1] == portText[|portText| - 1];
    LastIndexAt(host, ':', portText);
    Around(host, ':', portText);
  }

  lemma NoSlashAround(x: string, c: char, y: string)
    requires '/' !in x && '/' !in y && c != '/'
    ensures '/' !in x + [c] + y
  {
  }

  lemma PortText(port: nat)
    ensures ParseInt(Strip(NatToString(port))) == Some(port as int)
  {
    var s := NatToString(port);
    StripOfDigits(s);
    assert IntToString(port) == s;
    IntRoundTrip(port);
  }

  /**
   * A path `protocol://host:port/...` prints back as it was read, for a
   * protocol of letters and digits, a host without `/` or `:`, a positive
   * port written in decimal and a file directly in or below the host's
   * directory.
   */
  lemma RemotePathRoundTrip(proto: string, host: string, port: nat, rest: string, f: PathFields)
    requires proto != [] && AllAlnum(proto) && host != [] && '/' !in host && ':' !in host && port > 0
    requires ParsePath(proto + "://" + host + ":" + NatToString(port) + "/" + rest) == Success(f)
    requires LastIndex(rest, '/').Some? ==>
      LastIndex(rest, '/').value > 0 && rest[LastIndex(rest, '/').value - 1] != '/'
    ensures f.ToString() == Some(proto + "://" + host + ":" + NatToString(port) + "/" + rest)
  {
    var portText := NatToString(port);
    var hp := host + ":" + portText;
    var path := proto + "://" + host + ":" + portText + "/" + rest;
    HostPort(host, port);
    var d, tail := RemotePieces(proto, hp, rest);
    RemoteShape(proto, host, portText, rest);
    ParsePathSpec(path, f);
    assert f.hostname == Some(host) && f.protocolPort == Some(port as int);
    CancelPrefix(hp, f.DirPath(), d);
    assert f.protocol == Some(proto);
    assert IntToString(port) == portText;
    RemoteString(f, proto, host, port, d, tail);
    RemoteAssemble(proto, host, portText, d, tail, rest);
  }

  /** Where `parse` cuts `protocol://host:port/rest`. */
  lemma RemotePieces(proto: string, hp: string, rest: string) returns (d: string, tail: string)
    requires proto != [] && AllAlnum(proto) && hp != [] && '/' !in hp && hp[|hp| - 1] != '/'
    requires LastIndex(rest, '/').Some? ==>
      LastIndex(rest, '/').value > 0 && rest[LastIndex(rest, '/').value - 1] != '/'
    ensures var path := proto + "://" + (hp + "/" + rest);
      && HasProtocol(path) && SplitProtocol(path).0 == Some(proto)
      && DirOf(path) == hp + d && FileOf(path) == tail && SplitOn(DirOf(path), '/')[0] == hp
      && d + "/" + tail == "/" + rest && (d == [] || d[0] == '/')
  {
    var after := hp + "/" + rest;
    var path := proto + "://" + after;
    ProtocolSepAfterWord(proto, after);
    ProtocolCut(proto, after);
    assert SplitProtocol(path) == (Some(proto), after);
    d, tail := HostDirPieces(hp, rest);
  }

  /** Where `os.path.split` cuts `host:port/rest`, and the host as the first directory. */
  lemma HostDirPieces(hp: string, rest: string) returns (d: string, tail: string)
    requires hp != [] && '/' !in hp && hp[|hp| - 1] != '/'
    requires LastIndex(rest, '/').Some? ==>
      LastIndex(rest, '/').value > 0 && rest[LastIndex(rest, '/').value - 1] != '/'
    ensures SplitPath(hp + "/" + rest) == (hp + d, tail) && SplitOn(hp + d, '/')[0] == hp
    ensures d + "/" + tail == "/" + rest && (d == [] || d[0] == '/')
  {
    match LastIndex(rest, '/')
    case None =>
      d, tail := "", rest;
      SplitPathAt(hp, rest);
      EmptyDir(hp, rest);
    case Some(j) =>
      d, tail := "/" + rest[..j], rest[j + 1..];
      CutAt(rest, j);
      SubDir(hp, rest[..j], tail);
      SplitPathAt(hp + d, tail);
    FirstPiece(hp, d, '/');
  }

  lemma EmptyDir(hp: string, rest: string)
    ensures hp + "" == hp && "" + "/" + rest == "/" + rest
  {
  }

  lemma SubDir(hp: string, x: string, y: string)
    ensures hp + "/" + (x + "/" + y) == (hp + ("/" + x)) + "/" + y
    ensures "/" + x + "/" + y == "/" + (x + "/" + y)
  {
  }

  lemma CancelPrefix(a: string, b: string, c: string)
    requires a + b == a + c
    ensures b == c
  {
    assert b == (a + b)[|a|..];
  }

  /** How `__str__` prints a path with protocol, host and a non-zero port. */
  lemma RemoteString(f: PathFields, proto: string, host: string, port: int, d: string, tail: string)
    requires f.protocol == Some(proto) && proto != "" && f.hostname == Some(host) && host != ""
    requires f.protocolPort == Some(port) && port != 0 && f.DirPath() == d && f.FileName() == tail
    ensures f.ToString() == Some(proto + "://" + host + (":" + IntToString(port)) + (d + "/" + tail))
  {
    JoinTwo(d, tail, "/");
  }

  lemma ProtocolCut(proto: string, after: string)
    ensures (proto + "://" + after)[..|proto|] == proto && (proto + "://" + after)[|proto| + 3..] == after
  {
  }

  lemma RemoteShape(proto: string, host: string, portText: string, rest: string)
    ensures proto + "://" + host + ":" + portText + "/" + rest == proto + "://" + (host + ":" + portText + "/" + rest)
  {
  }

  lemma RemoteAssemble(proto: string, host: string, portText: string, d: string, tail: string, rest: string)
    requires d + "/" + tail == "/" + rest
    ensures proto + "://" + host + (":" + portText) + (d + "/" + tail) == proto + "://" + host + ":" + portText + "/" + rest
  {
  }

  /** `OutputFilePathParser`: the fields `parse` assigns. */
  class OutputFilePathParser {
    var protocol: Option<string>
    var hostname: Option<string>
    var protocolPort: Option<int>
    var dirs: seq<string>
    var fileBaseName: string
    var fileSuffix: string
    var stages: seq<Stage>
    var configurationName: string

    /** The fields as a value. */
    function Fields(): PathFields
      reads this
    {
      PathFields(protocol, hostname, protocolPort, dirs, fileBaseName, fileSuffix, stages, configurationName)
    }

    constructor ()
      ensures Fields() == PathFields(None, None, None, [], "", "", [], "")
    {
      protocol := None;
      hostname := None;
      protocolPort := None;
      dirs := [];
      fileBaseName := "";
      fileSuffix := "";
      stages := [];
      configurationName := "";
    }

    /** `OutputFilePathParser(path)` */
    static method New(path: string) returns (r: Result<OutputFilePathParser, PathError>)
      ensures r.Failure? <==> ParsePath(path).Failure?
      ensures r.Failure? ==> r.error == ParsePath(path).error
      ensures r.Success? ==> fresh(r.value) && r.value.Fields() == ParsePath(path).value
    {
      var p := new OutputFilePathParser();
      var err := p.Parse(path);
      if err.Some? {
        return Failure(err.value);
      }
      r := Success(p);
    }

    /**
     * `_parseBaseName(baseName)`: the stages matched off the end of the name
     * one at a time, then possibly the first stage with run and subrun; the
     * rest is the configuration name.
     */
    method ParseBaseName(baseName: string) returns (err: Option<PathError>)
      modifies this
      ensures err.Some? <==> SplitBaseName(baseName).Failure?
      ensures err.Some? ==> err.value == SplitBaseName(baseName).error
      ensures err.None? ==> (configurationName, stages) == SplitBaseName(baseName).value
      ensures protocol == old(protocol) && hostname == old(hostname) && protocolPort == old(protocolPort)
      ensures dirs == old(dirs) && fileBaseName == old(fileBaseName) && fileSuffix == old(fileSuffix)
    {
      var parseMe := baseName;
      stages := [];
      ThenNothing(PeelStages(baseName));
      while true
        invariant PeelStages(baseName) == Then(PeelStages(parseMe), stages)
        invariant protocol == old(protocol) && hostname == old(hostname) && protocolPort == old(protocolPort)
        invariant dirs == old(dirs) && fileBaseName == old(fileBaseName) && fileSuffix == old(fileSuffix)
        decreases |parseMe|
      {
        var match_ := MatchStage(parseMe);
        if match_.None? {
          assert PeelStages(parseMe) == Success((parseMe, []));
          assert [] + stages == stages;
          break;
        }
        var m := match_.value;
        MatchStageSound(parseMe, m);
        var stage := MakeStage(parseMe, m);
        if stage.Failure? {
          return Some(stage.error);
        }
        ThenAppend(PeelStages(parseMe[..m.start]), [stage.value], stages);
        parseMe := parseMe[..m.start];
        stages := [stage.value] + stages;
      }
      var first := MatchFirstStage(parseMe);
      if first.Some? {
        var m := first.value;
        MatchFirstStageSound(parseMe, m);
        var stage := MakeStage(parseMe, m);
        if stage.Failure? {
          return Some(stage.error);
        }
        parseMe := parseMe[..m.start];
        stages := [stage.value] + stages;
      }
      configurationName := parseMe;
      err := None;
    }

    /**
     * `parse(path)`: the fields assigned one after the other. The port is
     * assigned only for a host name holding `:`; otherwise it keeps
     * whatever an earlier parse left (nothing, on a new parser).
     */
    method Parse(path: string) returns (err: Option<PathError>)
      modifies this
      ensures err.Some? <==> ParsePath(path).Failure?
      ensures err.Some? ==> err.value == ParsePath(path).error
      ensures err.None? ==> Fields() == Reparsed(ParsePath(path).value, old(protocolPort))
    {
      var rest := path;
      var sep := FindProtocolSep(path);
      if sep.Some? {
        protocol := Some(path[..sep.value]);
        rest := path[sep.value + 3..];
      } else {
        protocol := None;
      }
      assert (protocol, rest) == SplitProtocol(path);
      var (dirPath, fileName) := SplitPath(rest);
      var (baseName, suffix) := SplitExt(fileName);
      fileBaseName, fileSuffix := baseName, suffix;
      err := ParseBaseName(fileBaseName);
      if err.Some? {
        return;
      }
      assert ParsePath(path) == WithHost(PathFields(protocol, None, None, SplitOn(dirPath, '/'), baseName, suffix, stages, configurationName));
      err := AssignDirs(dirPath);
    }

    /**
     * The end of `parse(path)`: the directories, and with a protocol the
     * host name taken from the first of them, and the port from the host.
     */
    method AssignDirs(dirPath: string) returns (err: Option<PathError>)
      modifies this
      ensures var g := old(PathFields(protocol, None, None, SplitOn(dirPath, '/'), fileBaseName, fileSuffix, stages, configurationName));
        && (err.Some? <==> WithHost(g).Failure?)
        && (err.Some? ==> err.value == WithHost(g).error)
        && (err.None? ==> Fields() == Reparsed(WithHost(g).value, old(protocolPort)))
    {
      ghost var g := PathFields(protocol, None, None, SplitOn(dirPath, '/'), fileBaseName, fileSuffix, stages, configurationName);
      dirs := SplitOn(dirPath, '/');
      if protocol.Some? && protocol.value != "" {
        hostname := Some(dirs[0]);
        dirs := dirs[0 := ""];
      } else {
        hostname := None;
        assert WithHost(g) == Success(g);
        return None;
      }
      ghost var f' := g.(hostname := hostname, dirs := dirs);
      assert Fields() == f'.(protocolPort := old(protocolPort));
      if hostname.value != "" && ':' in hostname.value {
        var (host, portText) := RSplitColon(hostname.value);
        hostname := Some(host);
        var port := ParseInt(Strip(portText));
        if port.None? {
          assert WithHost(g) == Failure(BadPort(portText));
          return Some(BadPort(portText));
        }
        protocolPort := port;
        assert WithHost(g) == Success(f'.(hostname := Some(host), protocolPort := port));
      } else {
        assert WithHost(g) == Success(f');
      }
      err := None;
    }
  }

  /** The fields after parsing into a parser whose port was `oldPort`. */
  function Reparsed(f: PathFields, oldPort: Option<int>): PathFields {
    if f.protocolPort.Some? then f else f.(protocolPort := oldPort)
  }

  /** What `_parseBaseName`'s loop has found, given what the part still to parse gives. */
  function Then(r: Result<(string, seq<Stage>), PathError>, found: seq<Stage>): Result<(string, seq<Stage>), PathError> {
    match r
    case Failure(e) => Failure(e)
    case Success((rest, stages)) => Success((rest, stages + found))
  }

  lemma ThenNothing(r: Result<(string, seq<Stage>), PathError>)
    ensures Then(r, []) == r
  {
    if r.Success? {
      assert r.value.1 + [] == r.value.1;
    }
  }

  lemma ThenAppend(r: Result<(string, seq<Stage>), PathError>, a: seq<Stage>, b: seq<Stage>)
    ensures Then(Then(r, a), b) == Then(r, a + b)
  {
    if r.Success? {
      assert r.value.1 + a + b == r.value.1 + (a + b);
    }
  }
}

=== FILE: registry.dfy ===
/**
 * `JobStatsClass` of SortModuleTimes.py: the series of every module of a job,
 * reachable both by position (a list, in the order the modules were met) and
 * by module key (a dictionary).
 */
module Registry {
  import opened Wrappers
  import opened Statistics
  import opened ModuleStats

  /** The exceptions `__getitem__`, `__setitem__` and the event counters raise. */
  datatype RegistryError =
    | IndexError                                   // position outside the list
    | KeyMismatch(held: StatsKey, given: StatsKey) // `RuntimeError`: another module holds the slot
    | EmptySlot                                    // `AttributeError`: the slot holds `None`
    | NotListed                                    // `ValueError`: the dictionary's object is not in the list
    | EmptySlotCount                               // `TypeError`: `Stats.n` applied to `None`

  /** Python's reading of a possibly negative list index against a list of length `len`. */
  function NormalIndex(i: int, len: nat): int {
    if i < 0 then i + len else i
  }

  /** `l.index(x)`: the first position holding `x`. */
  function IndexOf(l: seq<TimeModuleStats?>, x: TimeModuleStats): (i: nat)
    requires x in l
    ensures i < |l| && l[i] == x && x !in l[..i]
  {
    if l[0] == x then 0
    else
      var i := 1 + IndexOf(l[1..], x);
      assert l[..i] == [l[0]] + l[1..][..i - 1];
      i
  }

  /** The accumulators of the series in the list. */
  function AccsOf(l: seq<TimeModuleStats?>): set<Stats> {
    set i | 0 <= i < |l| && l[i] != null :: l[i].acc
  }

  /** The number of entries of each series: `map(Stats.n, moduleList)`. */
  function CountsOf(l: seq<TimeModuleStats?>): (r: seq<nat>)
    requires null !in l
    reads AccsOf(l)
    ensures |r| == |l| && forall i :: 0 <= i < |l| ==> r[i] == l[i].acc.n
  {
    if l == [] then []
    else
      var init := l[..|l| - 1];
      assert forall i :: 0 <= i < |init| ==> init[i] == l[i];
      CountsOf(init) + [l[|l| - 1].acc.n]
  }

  /** `max(...)` of a non-empty list of counts. */
  function MaxOfCounts(c: seq<nat>): (m: nat)
    requires c != []
    ensures m in c && forall i :: 0 <= i < |c| ==> c[i] <= m
  {
    if |c| == 1 then c[0]
    else
      var m := MaxOfCounts(c[..|c| - 1]);
      assert forall i :: 0 <= i < |c| - 1 ==> c[..|c| - 1][i] == c[i];
      if c[|c| - 1] > m then c[|c| - 1] else m
  }

  /** `min(...)` of a non-empty list of counts. */
  function MinOfCounts(c: seq<nat>): (m: nat)
    requires c != []
    ensures m in c && forall i :: 0 <= i < |c| ==> m <= c[i]
  {
    if |c| == 1 then c[0]
    else
      var m := MinOfCounts(c[..|c| - 1]);
      assert forall i :: 0 <= i < |c| - 1 ==> c[..|c| - 1][i] == c[i];
      if c[|c| - 1] < m then c[|c| - 1] else m
  }

  /**
   * A list of series and a dictionary of them agree: each dictionary entry
   * is filed under its own key and listed, each listed series is the
   * dictionary's entry for its module, and no two slots hold the same module.
   */
  ghost predicate Agree(list: seq<TimeModuleStats?>, dict: map<StatsKey, TimeModuleStats>) {
    && (forall k :: k in dict ==> dict[k].key == k && dict[k] in list)
    && (forall i :: 0 <= i < |list| && list[i] != null ==> list[i].key in dict && dict[list[i].key] == list[i])
    && (forall i, j :: 0 <= i < j < |list| && list[i] != null && list[j] != null ==> list[i].key != list[j].key)
  }

  /** `list` extended to position `pos`, padded with `None`, and `v` put there. */
  ghost predicate ExtendedTo(list: seq<TimeModuleStats?>, l: seq<TimeModuleStats?>, pos: nat, v: TimeModuleStats) {
    && |list| <= pos && |l| == pos + 1 && l[..|list|] == list && l[pos] == v
    && forall i :: |list| <= i < pos ==> l[i] == null
  }

  /** Putting a new series in the slot of the series of the same module keeps the two in agreement. */
  lemma AgreeReplace(list: seq<TimeModuleStats?>, dict: map<StatsKey, TimeModuleStats>, idx: nat, v: TimeModuleStats)
    requires Agree(list, dict) && idx < |list| && list[idx] != null && list[idx].key == v.key
    ensures Agree(list[idx := v], dict[v.key := v])
  {
    var l := list[idx := v];
    var d := dict[v.key := v];
    forall k | k in d ensures d[k].key == k && d[k] in l {
      if k == v.key {
        assert l[idx] == v;
      } else {
        var j :| 0 <= j < |list| && list[j] == dict[k];
        assert j != idx && l[j] == dict[k];
      }
    }
    forall i | 0 <= i < |l| && l[i] != null ensures l[i].key in d && d[l[i].key] == l[i] {
      if i != idx {
        assert list[i].key != v.key by {
          if i < idx {
            assert list[i].key != list[idx].key;
          } else {
            assert list[idx].key != list[i].key;
          }
        }
      }
    }
  }

  /** A new module registered at a position past the end keeps the two in agreement. */
  lemma AgreeExtend(list: seq<TimeModuleStats?>, dict: map<StatsKey, TimeModuleStats>, l: seq<TimeModuleStats?>,
                    pos: nat, v: TimeModuleStats)
    requires Agree(list, dict) && v.key !in dict && ExtendedTo(list, l, pos, v)
    ensures Agree(l, dict[v.key := v])
  {
    var d := dict[v.key := v];
    forall k | k in d ensures d[k].key == k && d[k] in l {
      if k != v.key {
        var j :| 0 <= j < |list| && list[j] == dict[k];
        assert l[j] == list[j];
      }
    }
    forall i | 0 <= i < |l| && l[i] != null ensures l[i].key in d && d[l[i].key] == l[i] {
      if i < |list| {
        assert l[i] == list[i];
      }
    }
    forall i, j | 0 <= i < j < |l| && l[i] != null && l[j] != null ensures l[i].key != l[j].key {
      if j < |list| {
        assert l[i] == list[i] && l[j] == list[j];
      } else {
        assert j == pos && l[i] == list[i];
      }
    }
  }

  /**
   * A module already registered, set again at a position past the end,
   * breaks the agreement: its earlier slot still lists the series the
   * dictionary no longer holds, or the same series twice.
   */
  lemma AgreeLostPastEnd(list: seq<TimeModuleStats?>, dict: map<StatsKey, TimeModuleStats>, l: seq<TimeModuleStats?>,
                         pos: nat, v: TimeModuleStats)
    requires Agree(list, dict) && v.key in dict && ExtendedTo(list, l, pos, v)
    ensures !Agree(l, dict[v.key := v])
  {
    var j :| 0 <= j < |list| && list[j] == dict[v.key];
    assert l[j] == list[j];
    assert l[j] != null && l[pos] != null && l[j].key == l[pos].key && j < pos;
  }

  class JobStats {
    /** `jobName`: kept, never used. */
    const name: Option<string>
    /** The series in the order they were registered; a slot may hold `None`. */
    var moduleList: seq<TimeModuleStats?>
    var moduleStats: map<StatsKey, TimeModuleStats>

    /** The list and the dictionary agree. */
    ghost predicate Consistent()
      reads this
    {
      Agree(moduleList, moduleStats)
    }

    /** `JobStatsClass(jobName)` */
    constructor (jobName: Option<string>)
      ensures name == jobName && moduleList == [] && moduleStats == map[]
      ensures Consistent()
    {
      name := jobName;
      moduleList := [];
      moduleStats := map[];
    }

    /** `self[i]` for an integer `i`: list indexing, negative positions counted from the end. */
    function GetAt(i: int): (r: Result<TimeModuleStats?, RegistryError>)
      reads this
      ensures r.Success? <==> -|moduleList| <= i < |moduleList|
      ensures r.Success? ==> r.value == moduleList[NormalIndex(i, |moduleList|)]
      ensures r.Failure? ==> r.error == IndexError
    {
      var j := NormalIndex(i, |moduleList|);
      if 0 <= j < |moduleList| then Success(moduleList[j]) else Failure(IndexError)
    }

    /** `self[key]` for a module key; `None` is the `KeyError`. */
    function GetByKey(k: StatsKey): (r: Option<TimeModuleStats>)
      reads this
      ensures r.Some? <==> k in moduleStats
      ensures Consistent() && r.Some? ==> r.value.key == k && r.value in moduleList
    {
      if k in moduleStats then Some(moduleStats[k]) else None
    }

    /**
     * `self[pos] = v` for an integer position. A position past the end pads
     * the list with `None` up to it; an occupied slot may only be overwritten
     * by the series of the same module. Every failure leaves the registry as
     * it was.
     */
    method SetAt(pos: int, v: TimeModuleStats) returns (err: Option<RegistryError>)
      modifies this
      ensures err.Some? ==> unchanged(this)
      ensures err == Some(IndexError) <==> pos < -old(|moduleList|)
      ensures err == Some(EmptySlot) <==>
        -old(|moduleList|) <= pos < old(|moduleList|) && old(moduleList)[NormalIndex(pos, old(|moduleList|))] == null
      ensures err.Some? && err.value.KeyMismatch? <==>
        (&& -old(|moduleList|) <= pos < old(|moduleList|)
         && old(moduleList)[NormalIndex(pos, old(|moduleList|))] != null
         && old(moduleList)[NormalIndex(pos, old(|moduleList|))].key != v.key)
      ensures err.None? ==> pos < old(|moduleList|) ==> |moduleList| == old(|moduleList|)
      ensures err.None? ==> pos >= old(|moduleList|) ==>
        (&& |moduleList| == pos + 1
         && moduleList[..old(|moduleList|)] == old(moduleList)
         && forall i :: old(|moduleList|) <= i < pos ==> moduleList[i] == null)
      ensures err.None? ==> GetAt(pos) == Success(v) && GetByKey(v.key) == Some(v)
      ensures err.None? ==>
        forall i :: 0 <= i < |moduleList| && i != NormalIndex(pos, |moduleList|) ==>
          moduleList[i] == (if i < old(|moduleList|) then old(moduleList)[i] else null)
      ensures err.None? ==> moduleStats == old(moduleStats)[v.key := v]
      ensures old(Consistent()) && (pos < old(|moduleList|) || v.key !in old(moduleStats)) ==> Consistent()
      ensures old(Consistent()) && pos >= old(|moduleList|) && v.key in old(moduleStats) ==> !Consistent()
    {
      var len := |moduleList|;
      var idx: int;
      if pos < len {
        idx := NormalIndex(pos, len);
        if idx < 0 {
          return Some(IndexError);
        }
        var held := moduleList[idx];
        if held == null {
          return Some(EmptySlot);
        }
        if held.key != v.key {
          return Some(KeyMismatch(held.key, v.key));
        }
      } else {
        moduleList := moduleList + seq(pos - len + 1, _ => null);
        idx := pos;
      }
      ghost var before := moduleList;
      assert before[..len] == old(moduleList);
      moduleStats := moduleStats[v.key := v];
      moduleList := moduleList[idx := v];
      assert moduleList[idx] == v;
      err := None;
      if old(Consistent()) {
        if pos < len {
          AgreeReplace(old(moduleList), old(moduleStats), idx, v);
        } else {
          assert ExtendedTo(old(moduleList), moduleList, pos, v);
          if v.key in old(moduleStats) {
            AgreeLostPastEnd(old(moduleList), old(moduleStats), moduleList, pos, v);
          } else {
            AgreeExtend(old(moduleList), old(moduleStats), moduleList, pos, v);
          }
        }
      }
    }

    /**
     * `self[k] = v` for a module key: a known key keeps its place in the list
     * (the slot of its current series is overwritten), a new key is appended.
     */
    method SetByKey(k: StatsKey, v: TimeModuleStats) returns (err: Option<RegistryError>)
      modifies this
      ensures err.Some? ==> unchanged(this) && err == Some(NotListed)
      ensures err.Some? <==> k in old(moduleStats) && old(moduleStats)[k] !in old(moduleList)
      ensures k !in old(moduleStats) ==> moduleList == old(moduleList) + [v]
      ensures k in old(moduleStats) && err.None? ==>
        (&& |moduleList| == old(|moduleList|)
         && moduleList == old(moduleList)[IndexOf(old(moduleList), old(moduleStats)[k]) := v])
      ensures err.None? ==> moduleStats == old(moduleStats)[k := v] && v in moduleList
      ensures old(Consistent()) && v.key == k ==> err.None? && Consistent()
    {
      var index: nat;
      if k in moduleStats {
        var stats := moduleStats[k];
        if stats !in moduleList {
          return Some(NotListed);
        }
        index := IndexOf(moduleList, stats);
      } else {
        index := |moduleList|;
        moduleList := moduleList + [null];
      }
      ghost var before := moduleList;
      assert before[..old(|moduleList|)] == old(moduleList);
      moduleStats := moduleStats[k := v];
      moduleList := moduleList[index := v];
      assert moduleList[index] == v;
      err := None;
      if old(Consistent()) && v.key == k {
        if index < old(|moduleList|) {
          AgreeReplace(old(moduleList), old(moduleStats), index, v);
        } else {
          assert ExtendedTo(old(moduleList), moduleList, index, v);
          AgreeExtend(old(moduleList), old(moduleStats), moduleList, index, v);
        }
      }
    }

    /** `MaxEvents()`: the largest entry count, 0 for an empty registry. */
    function MaxEvents(): (r: Result<nat, RegistryError>)
      reads this, AccsOf(moduleList)
      ensures moduleList == [] ==> r == Success(0)
      ensures r.Failure? <==> null in moduleList
      ensures r.Success? && moduleList != [] ==>
        (&& (exists i :: 0 <= i < |moduleList| && moduleList[i].acc.n == r.value)
         && forall i :: 0 <= i < |moduleList| ==> moduleList[i].acc.n <= r.value)
    {
      if moduleList == [] then Success(0)
      else if null in moduleList then Failure(EmptySlotCount)
      else
        var counts := CountsOf(moduleList);
        Success(MaxOfCounts(counts))
    }

    /** `MinEvents()`: the smallest entry count, 0 for an empty registry. */
    function MinEvents(): (r: Result<nat, RegistryError>)
      reads this, AccsOf(moduleList)
      ensures moduleList == [] ==> r == Success(0)
      ensures r.Failure? <==> null in moduleList
      ensures r.Success? && moduleList != [] ==>
        (&& (exists i :: 0 <= i < |moduleList| && moduleList[i].acc.n == r.value)
         && forall i :: 0 <= i < |moduleList| ==> r.value <= moduleList[i].acc.n)
    {
      if moduleList == [] then Success(0)
      else if null in moduleList then Failure(EmptySlotCount)
      else
        var counts := CountsOf(moduleList);
        Success(MinOfCounts(counts))
    }
  }

  /** Once something is registered, the smallest count is at most the largest one. */
  lemma MinEventsAtMostMax(r: JobStats)
    requires null !in r.moduleList
    ensures r.MaxEvents().Success? && r.MinEvents().Success?
    ensures r.MinEvents().value <= r.MaxEvents().value
  {
    if r.moduleList != [] {
      assert r.MinEvents().value <= r.moduleList[0].acc.n <= r.MaxEvents().value;
    }
  }
}

=== FILE: statistics.dfy ===
/**
 * The running-moment accumulator `Stats` of SortModuleTimes.py and the
 * per-module timing series `TimeModuleStatsClass` built on it.
 *
 * Values and weights are exact reals: the accumulator's floating-point
 * rounding is not modelled.  Square roots and number renderings are library
 * calls of the source and are taken as function parameters.
 */
module Statistics {
  import opened Wrappers
  import opened Strings

  /** One call `add(value, weight)`. */
  datatype Sample = Sample(value: real, weight: real)

  /** Σ weight */
  function TotalWeight(s: seq<Sample>): real {
    if s == [] then 0.0 else TotalWeight(s[..|s| - 1]) + s[|s| - 1].weight
  }

  /** Σ weight·value */
  function WeightedSum(s: seq<Sample>): real {
    if s == [] then 0.0 else WeightedSum(s[..|s| - 1]) + s[|s| - 1].weight * s[|s| - 1].value
  }

  /** Σ weight·value² */
  function WeightedSumSq(s: seq<Sample>): real {
    if s == [] then 0.0
    else WeightedSumSq(s[..|s| - 1]) + s[|s| - 1].weight * (s[|s| - 1].value * s[|s| - 1].value)
  }

  /** The minimum as `add` tracks it: the first value replaces `None`, a smaller one replaces it. */
  function MinOf(s: seq<Sample>): Option<real> {
    if s == [] then None
    else
      var m, v := MinOf(s[..|s| - 1]), s[|s| - 1].value;
      if m.None? || v < m.value then Some(v) else m
  }

  /** The maximum as `add` tracks it. */
  function MaxOf(s: seq<Sample>): Option<real> {
    if s == [] then None
    else
      var m, v := MaxOf(s[..|s| - 1]), s[|s| - 1].value;
      if m.None? || v > m.value then Some(v) else m
  }

  /** `sum / w`, or 0 when the total weight is 0. */
  function Mean(s: seq<Sample>): real {
    if TotalWeight(s) != 0.0 then WeightedSum(s) / TotalWeight(s) else 0.0
  }

  /** `sumsq / w`, or 0 when the total weight is 0. */
  function MeanOfSquares(s: seq<Sample>): real {
    if TotalWeight(s) != 0.0 then WeightedSumSq(s) / TotalWeight(s) else 0.0
  }

  /** The population variance as the source computes it: mean of squares minus squared mean. */
  function Variance(s: seq<Sample>): real {
    MeanOfSquares(s) - Mean(s) * Mean(s)
  }

  /** Σ weight·(value − a)², the textbook form of the spread around `a`. */
  function SquaredDeviation(s: seq<Sample>, a: real): real {
    if s == [] then 0.0
    else
      var x := s[|s| - 1];
      SquaredDeviation(s[..|s| - 1], a) + x.weight * ((x.value - a) * (x.value - a))
  }

  predicate NonNegativeWeights(s: seq<Sample>) {
    forall i :: 0 <= i < |s| ==> s[i].weight >= 0.0
  }

  predicate UnitWeights(s: seq<Sample>) {
    forall i :: 0 <= i < |s| ==> s[i].weight == 1.0
  }

  /** `signed_sqrt`: the root of |x|, carrying the sign of x. */
  function SignedSqrt(root: real -> real, x: real): real {
    if x >= 0.0 then root(x) else -root(-x)
  }

  /** What the source takes from `math.sqrt`: a non-negative result for a non-negative argument. */
  ghost predicate RootIsNonNegative(root: real -> real) {
    forall y: real :: 0.0 <= y ==> 0.0 <= root(y)
  }

  /** The sign of `signed_sqrt(x)` is the sign of x. */
  lemma SignedSqrtSign(root: real -> real, x: real)
    requires RootIsNonNegative(root)
    ensures x >= 0.0 ==> SignedSqrt(root, x) >= 0.0
    ensures x < 0.0 ==> SignedSqrt(root, x) <= 0.0
  {
    if x < 0.0 {
      assert 0.0 <= root(-x);
    } else {
      assert 0.0 <= root(x);
    }
  }

  /** After at least one add, the minimum is one of the added values and no added value is below it. */
  lemma {:induction false} MinOfIsLeast(s: seq<Sample>)
    ensures MinOf(s).None? <==> s == []
    ensures s != [] ==> exists i :: 0 <= i < |s| && s[i].value == MinOf(s).value
    ensures s != [] ==> forall i :: 0 <= i < |s| ==> MinOf(s).value <= s[i].value
  {
    if s != [] {
      var init := s[..|s| - 1];
      MinOfIsLeast(init);
      if init != [] {
        var k :| 0 <= k < |init| && init[k].value == MinOf(init).value;
        assert s[k] == init[k];
      }
      forall i | 0 <= i < |s| ensures MinOf(s).value <= s[i].value {
        if i < |s| - 1 {
          assert s[i] == init[i];
        }
      }
    }
  }

  /** After at least one add, the maximum is one of the added values and no added value is above it. */
  lemma {:induction false} MaxOfIsGreatest(s: seq<Sample>)
    ensures MaxOf(s).None? <==> s == []
    ensures s != [] ==> exists i :: 0 <= i < |s| && s[i].value == MaxOf(s).value
    ensures s != [] ==> forall i :: 0 <= i < |s| ==> s[i].value <= MaxOf(s).value
  {
    if s != [] {
      var init := s[..|s| - 1];
      MaxOfIsGreatest(init);
      if init != [] {
        var k :| 0 <= k < |init| && init[k].value == MaxOf(init).value;
        assert s[k] == init[k];
      }
      forall i | 0 <= i < |s| ensures s[i].value <= MaxOf(s).value {
        if i < |s| - 1 {
          assert s[i] == init[i];
        }
      }
    }
  }

  /** `min <= max` once anything has been added. */
  lemma MinAtMostMax(s: seq<Sample>)
    requires s != []
    ensures MinOf(s).Some? && MaxOf(s).Some? && MinOf(s).value <= MaxOf(s).value
  {
    MinOfIsLeast(s);
    MaxOfIsGreatest(s);
    assert MinOf(s).value <= s[0].value <= MaxOf(s).value;
  }

  /** The three running sums of a concatenation are the sums of the parts. */
  lemma {:induction false} SumsOfConcat(a: seq<Sample>, b: seq<Sample>)
    ensures TotalWeight(a + b) == TotalWeight(a) + TotalWeight(b)
    ensures WeightedSum(a + b) == WeightedSum(a) + WeightedSum(b)
    ensures WeightedSumSq(a + b) == WeightedSumSq(a) + WeightedSumSq(b)
    decreases |b|
  {
    if b == [] {
      assert a + b == a;
    } else {
      var init := b[..|b| - 1];
      assert (a + b)[..|a + b| - 1] == a + init;
      SumsOfConcat(a, init);
    }
  }

  /** `v` is the value of one of the samples. */
  ghost predicate HasValue(s: seq<Sample>, v: real) {
    exists j :: 0 <= j < |s| && s[j].value == v
  }

  /** Every value added to `a` is also added to `b`. */
  ghost predicate ValuesWithin(a: seq<Sample>, b: seq<Sample>) {
    forall i :: 0 <= i < |a| ==> HasValue(b, a[i].value)
  }

  lemma MinOfSameValues(a: seq<Sample>, b: seq<Sample>)
    requires a != [] && ValuesWithin(a, b) && ValuesWithin(b, a)
    ensures MinOf(a) == MinOf(b)
  {
    MinOfIsLeast(a);
    MinOfIsLeast(b);
    assert HasValue(b, a[0].value);
    var ia :| 0 <= ia < |a| && a[ia].value == MinOf(a).value;
    var ib :| 0 <= ib < |b| && b[ib].value == MinOf(b).value;
    assert HasValue(b, a[ia].value);
    assert HasValue(a, b[ib].value);
    var jb :| 0 <= jb < |b| && b[jb].value == a[ia].value;
    var ja :| 0 <= ja < |a| && a[ja].value == b[ib].value;
    assert MinOf(a).value <= a[ja].value && MinOf(b).value <= b[jb].value;
  }

  lemma MaxOfSameValues(a: seq<Sample>, b: seq<Sample>)
    requires a != [] && ValuesWithin(a, b) && ValuesWithin(b, a)
    ensures MaxOf(a) == MaxOf(b)
  {
    MaxOfIsGreatest(a);
    MaxOfIsGreatest(b);
    assert HasValue(b, a[0].value);
    var xa :| 0 <= xa < |a| && a[xa].value == MaxOf(a).value;
    var xb :| 0 <= xb < |b| && b[xb].value == MaxOf(b).value;
    assert HasValue(b, a[xa].value);
    assert HasValue(a, b[xb].value);
    var yb :| 0 <= yb < |b| && b[yb].value == a[xa].value;
    var ya :| 0 <= ya < |a| && a[ya].value == b[xb].value;
    assert a[ya].value <= MaxOf(a).value && b[yb].value <= MaxOf(b).value;
  }

  lemma SwappedValuesWithin(a: seq<Sample>, b: seq<Sample>)
    ensures ValuesWithin(a + b, b + a)
  {
    var ab, ba := a + b, b + a;
    forall i | 0 <= i < |ab| ensures HasValue(ba, ab[i].value) {
      var j := if i < |a| then |b| + i else i - |a|;
      assert ba[j] == ab[i];
    }
  }

  /**
   * The accumulated moments do not depend on the order of the adds: feeding
   * `a` then `b` or `b` then `a` leaves the same count, sums, minimum and maximum.
   */
  lemma AddOrderIrrelevant(a: seq<Sample>, b: seq<Sample>)
    ensures |a + b| == |b + a|
    ensures TotalWeight(a + b) == TotalWeight(b + a)
    ensures WeightedSum(a + b) == WeightedSum(b + a)
    ensures WeightedSumSq(a + b) == WeightedSumSq(b + a)
    ensures MinOf(a + b) == MinOf(b + a)
    ensures MaxOf(a + b) == MaxOf(b + a)
  {
    SumsOfConcat(a, b);
    SumsOfConcat(b, a);
    SwappedValuesWithin(a, b);
    SwappedValuesWithin(b, a);
    if a + b != [] {
      MinOfSameValues(a + b, b + a);
      MaxOfSameValues(a + b, b + a);
    }
  }

  /** Σwv² − 2a·Σwv + a²·Σw */
  function Expanded(s: seq<Sample>, a: real): real {
    WeightedSumSq(s) - 2.0 * a * WeightedSum(s) + a * a * TotalWeight(s)
  }

  /** Σ w(v − a)² = Σwv² − 2a·Σwv + a²·Σw */
  lemma {:induction false} DeviationExpansion(s: seq<Sample>, a: real)
    ensures SquaredDeviation(s, a) == Expanded(s, a)
  {
    if s != [] {
      var init, x := s[..|s| - 1], s[|s| - 1];
      assert init + [x] == s;
      DeviationExpansion(init, a);
      DeviationExpansionStep(init, x, a);
    }
  }

  lemma DeviationExpansionStep(init: seq<Sample>, x: Sample, a: real)
    requires SquaredDeviation(init, a) == Expanded(init, a)
    ensures SquaredDeviation(init + [x], a) == Expanded(init + [x], a)
  {
    var s := init + [x];
    assert s[..|s| - 1] == init;
    var d, s2, s1, t := SquaredDeviation(init, a), WeightedSumSq(init), WeightedSum(init), TotalWeight(init);
    assert SquaredDeviation(s, a) == d + x.weight * ((x.value - a) * (x.value - a));
    assert WeightedSumSq(s) == s2 + x.weight * (x.value * x.value);
    assert WeightedSum(s) == s1 + x.weight * x.value;
    assert TotalWeight(s) == t + x.weight;
    ExpansionStep(d, s2, s1, t, x.weight, x.value, a);
  }

  lemma ExpansionStep(d: real, s2: real, s1: real, t: real, wt: real, v: real, a: real)
    requires d == s2 - 2.0 * a * s1 + a * a * t
    ensures d + wt * ((v - a) * (v - a))
         == (s2 + wt * (v * v)) - 2.0 * a * (s1 + wt * v) + a * a * (t + wt)
  {
    assert wt * ((v - a) * (v - a)) == wt * (v * v) - 2.0 * a * (wt * v) + a * a * wt;
    assert 2.0 * a * (s1 + wt * v) == 2.0 * a * s1 + 2.0 * a * (wt * v);
    assert a * a * (t + wt) == a * a * t + a * a * wt;
  }

  lemma {:induction false} DeviationNonNegative(s: seq<Sample>, a: real)
    requires NonNegativeWeights(s)
    ensures SquaredDeviation(s, a) >= 0.0
  {
    if s != [] {
      var init, x := s[..|s| - 1], s[|s| - 1];
      assert NonNegativeWeights(init) by {
        forall i | 0 <= i < |init| ensures init[i].weight >= 0.0 {
          assert init[i] == s[i];
        }
      }
      DeviationNonNegative(init, a);
      assert x.weight >= 0.0;
      assert (x.value - a) * (x.value - a) >= 0.0;
    }
  }

  /**
   * `rms2` is the weighted mean of the squared deviations from the average:
   * the mean-of-squares formula of the source and the textbook definition agree.
   */
  lemma VarianceIsMeanSquaredDeviation(s: seq<Sample>)
    requires TotalWeight(s) != 0.0
    ensures Variance(s) == SquaredDeviation(s, Mean(s)) / TotalWeight(s)
  {
    var w, s1, s2, m := TotalWeight(s), WeightedSum(s), WeightedSumSq(s), Mean(s);
    assert m == s1 / w && MeanOfSquares(s) == s2 / w;
    DeviationExpansion(s, m);
    assert SquaredDeviation(s, m) == s2 - 2.0 * m * s1 + m * m * w;
    DivideExpansion(w, s1, s2, m);
  }

  lemma DivideExpansion(w: real, s1: real, s2: real, m: real)
    requires w != 0.0 && m == s1 / w
    ensures (s2 - 2.0 * m * s1 + m * m * w) / w == s2 / w - m * m
  {
    assert s1 == m * w;
    assert (s2 - 2.0 * m * s1 + m * m * w) / w == s2 / w - (2.0 * m * s1) / w + (m * m * w) / w;
    assert (2.0 * m * s1) / w == 2.0 * m * m;
    assert (m * m * w) / w == m * m;
  }

  /** With non-negative weights `rms2` is never negative: only rounding can make it so. */
  lemma VarianceNonNegative(s: seq<Sample>)
    requires NonNegativeWeights(s)
    ensures Variance(s) >= 0.0
  {
    if TotalWeight(s) != 0.0 {
      VarianceIsMeanSquaredDeviation(s);
      DeviationNonNegative(s, Mean(s));
      TotalWeightNonNegative(s);
    }
  }

  lemma {:induction false} TotalWeightNonNegative(s: seq<Sample>)
    requires NonNegativeWeights(s)
    ensures TotalWeight(s) >= 0.0
  {
    if s != [] {
      var init := s[..|s| - 1];
      assert NonNegativeWeights(init) by {
        forall i | 0 <= i < |init| ensures init[i].weight >= 0.0 {
          assert init[i] == s[i];
        }
      }
      TotalWeightNonNegative(init);
    }
  }

  /** With unit weights the weight sum is the number of adds. */
  lemma {:induction false} UnitWeightTotal(s: seq<Sample>)
    requires UnitWeights(s)
    ensures TotalWeight(s) == |s| as real
  {
    if s != [] {
      var init := s[..|s| - 1];
      assert UnitWeights(init) by {
        forall i | 0 <= i < |init| ensures init[i].weight == 1.0 {
          assert init[i] == s[i];
        }
      }
      UnitWeightTotal(init);
    }
  }

  /** Adding 1, 2 and 3 with unit weights gives average 2 and `rms2` 2/3. */
  lemma OneTwoThree()
    ensures Mean([Sample(1.0, 1.0), Sample(2.0, 1.0), Sample(3.0, 1.0)]) == 2.0
    ensures Variance([Sample(1.0, 1.0), Sample(2.0, 1.0), Sample(3.0, 1.0)]) == 2.0 / 3.0
  {
    var s := [Sample(1.0, 1.0), Sample(2.0, 1.0), Sample(3.0, 1.0)];
    var s1, s2 := [Sample(1.0, 1.0)], [Sample(1.0, 1.0), Sample(2.0, 1.0)];
    assert s[..2] == s2 && s2[..1] == s1 && s1[..0] == [];
    assert TotalWeight(s1) == 1.0 && WeightedSum(s1) == 1.0 && WeightedSumSq(s1) == 1.0;
    assert TotalWeight(s2) == 2.0 && WeightedSum(s2) == 3.0 && WeightedSumSq(s2) == 5.0;
    assert TotalWeight(s) == 3.0 && WeightedSum(s) == 6.0 && WeightedSumSq(s) == 14.0;
  }

  /** The running-moment accumulator `Stats`. */
  class Stats {
    var n: nat
    var w: real
    var sum: real
    var sumsq: real
    var min: Option<real>
    var max: Option<real>
    /** The `(value, weight)` pairs added since the last `clear`, in order. */
    ghost var Samples: seq<Sample>

    ghost predicate Valid()
      reads this
    {
      && n == |Samples|
      && w == TotalWeight(Samples)
      && sum == WeightedSum(Samples)
      && sumsq == WeightedSumSq(Samples)
      && min == MinOf(Samples)
      && max == MaxOf(Samples)
    }

    constructor ()
      ensures Valid() && Samples == []
    {
      n, w, sum, sumsq := 0, 0.0, 0.0, 0.0;
      min, max := None, None;
      Samples := [];
    }

    /** `clear()`: back to no samples. */
    method Clear()
      modifies this
      ensures Valid() && Samples == []
    {
      n, w, sum, sumsq := 0, 0.0, 0.0, 0.0;
      min, max := None, None;
      Samples := [];
    }

    /** `add(value, weight)`: one more sample in every moment. */
    method Add(value: real, weight: real)
      requires Valid()
      modifies this
      ensures Valid() && Samples == old(Samples) + [Sample(value, weight)]
      ensures n == old(n) + 1 && w == old(w) + weight
      ensures sum == old(sum) + weight * value
      ensures sumsq == old(sumsq) + weight * (value * value)
      ensures min == if old(min).None? || value < old(min).value then Some(value) else old(min)
      ensures max == if old(max).None? || value > old(max).value then Some(value) else old(max)
    {
      Samples := Samples + [Sample(value, weight)];
      assert Samples[..|Samples| - 1] == old(Samples);
      n := n + 1;
      w := w + weight;
      sum := sum + weight * value;
      sumsq := sumsq + weight * (value * value);
      if min.None? || value < min.value {
        min := Some(value);
      }
      if max.None? || value > max.value {
        max := Some(value);
      }
    }

    /** `average()` */
    function Average(): (r: real)
      reads this
      requires Valid()
      ensures r == Mean(Samples)
      ensures w != 0.0 ==> r * w == sum
    {
      if w != 0.0 then sum / w else 0.0
    }

    /** `sqaverage()` */
    function SqAverage(): (r: real)
      reads this
      requires Valid()
      ensures r == MeanOfSquares(Samples)
      ensures w != 0.0 ==> r * w == sumsq
    {
      if w != 0.0 then sumsq / w else 0.0
    }

    /** `rms2()` */
    function Rms2(): (r: real)
      reads this
      requires Valid()
      ensures r == Variance(Samples)
      ensures NonNegativeWeights(Samples) ==> r >= 0.0
    {
      VarianceNonNegativeWhen(Samples);
      SqAverage() - Average() * Average()
    }

    /** `rms()`: the signed square root of `rms2`. */
    function Rms(root: real -> real): (r: real)
      reads this
      requires Valid()
      ensures RootIsNonNegative(root) && NonNegativeWeights(Samples) ==> r >= 0.0
    {
      var v := Rms2();
      RmsSign(root, v);
      SignedSqrt(root, v)
    }

    /** `stdev()`: the sample standard deviation, 0 below two samples. */
    function Stdev(root: real -> real): (r: real)
      reads this
      requires Valid()
      ensures n < 2 ==> r == 0.0
      ensures RootIsNonNegative(root) && NonNegativeWeights(Samples) ==> r >= 0.0
    {
      if n < 2 then 0.0
      else
        var factor := root(n as real / (n - 1) as real);
        assert RootIsNonNegative(root) ==> factor >= 0.0;
        Rms(root) * factor
    }

    /** `stdevp()`: the population standard deviation, which is `rms()`. */
    function Stdevp(root: real -> real): (r: real)
      reads this
      requires Valid()
      ensures RootIsNonNegative(root) && NonNegativeWeights(Samples) ==> r >= 0.0
    {
      Rms(root)
    }
  }

  lemma VarianceNonNegativeWhen(s: seq<Sample>)
    ensures NonNegativeWeights(s) ==> Variance(s) >= 0.0
  {
    if NonNegativeWeights(s) {
      VarianceNonNegative(s);
    }
  }

  lemma RmsSign(root: real -> real, v: real)
    ensures RootIsNonNegative(root) && v >= 0.0 ==> SignedSqrt(root, v) >= 0.0
  {
    if RootIsNonNegative(root) {
      SignedSqrtSign(root, v);
    }
  }
}

=== FILE: strings.dfy ===
/**
 * The handful of Python string operations that the modelled scripts rely on:
 * `str.split()` and `str.strip()` on ASCII whitespace, `str.split(c)` and
 * `c.join(...)` on a single separator character, `int()` on a decimal token
 * and `str()` of an integer.
 */
module Strings {
  import opened Wrappers

  /** The ASCII whitespace characters that `str.split()` and `str.strip()` skip. */
  predicate IsSpace(c: char) {
    c == ' ' || c == '\t' || c == '\n' || c == '\r' || c as int == 11 || c as int == 12
  }

  predicate IsDigit(c: char) {
    '0' <= c <= '9'
  }

  predicate NoSpace(s: string) {
    forall i :: 0 <= i < |s| ==> !IsSpace(s[i])
  }

  predicate AllSpace(s: string) {
    forall i :: 0 <= i < |s| ==> IsSpace(s[i])
  }

  predicate AllDigits(s: string) {
    forall i :: 0 <= i < |s| ==> IsDigit(s[i])
  }

  /** Non-empty, blank-free tokens: what `str.split()` produces. */
  predicate AreWords(words: seq<string>) {
    forall i :: 0 <= i < |words| ==> words[i] != [] && NoSpace(words[i])
  }

  /** `s.endswith(suffix)` */
  predicate HasSuffix(s: string, suffix: string) {
    |suffix| <= |s| && s[|s| - |suffix|..] == suffix
  }

  /** `s.startswith(prefix)` */
  predicate HasPrefix(s: string, prefix: string) {
    |prefix| <= |s| && s[..|prefix|] == prefix
  }

  /** `s.lstrip()` */
  function TrimLeft(s: string): (r: string)
    ensures |r| <= |s| && r == s[|s| - |r|..]
    ensures r == [] || !IsSpace(r[0])
    ensures AllSpace(s[..|s| - |r|])
  {
    if s == [] || !IsSpace(s[0]) then s
    else
      var r := TrimLeft(s[1..]);
      var blank := s[1..][..|s| - 1 - |r|];
      assert s[..|s| - |r|] == [s[0]] + blank;
      assert forall i :: 0 < i < 1 + |blank| ==> ([s[0]] + blank)[i] == blank[i - 1];
      r
  }

  /** `s.rstrip()` */
  function TrimRight(s: string): (r: string)
    ensures |r| <= |s| && r == s[..|r|]
    ensures r == [] || !IsSpace(r[|r| - 1])
    ensures AllSpace(s[|r|..])
  {
    if s == [] || !IsSpace(s[|s| - 1]) then s
    else
      var r := TrimRight(s[..|s| - 1]);
      assert s[|r|..] == s[..|s| - 1][|r|..] + [s[|s| - 1]];
      r
  }

  /** `r` sits at position `k` of `s` with only blanks before and after it. */
  predicate BlankPadded(s: string, r: string, k: int) {
    0 <= k && k + |r| <= |s| && r == s[k..k + |r|] && AllSpace(s[..k]) && AllSpace(s[k + |r|..])
  }

  /** `s.strip()`: the text between the first and the last non-blank character. */
  function Strip(s: string): (r: string)
    ensures |r| <= |s|
    ensures r == [] || (!IsSpace(r[0]) && !IsSpace(r[|r| - 1]))
    ensures s == [] || (!IsSpace(s[0]) && !IsSpace(s[|s| - 1])) ==> r == s
    ensures exists k :: BlankPadded(s, r, k)
  {
    TrimsArePadding(s);
    TrimRight(TrimLeft(s))
  }

  /** What the two trims leave sits after the blanks `TrimLeft` removed. */
  lemma TrimsArePadding(s: string)
    ensures BlankPadded(s, TrimRight(TrimLeft(s)), |s| - |TrimLeft(s)|)
  {
    SuffixPrefixPadded(s, TrimLeft(s), TrimRight(TrimLeft(s)));
  }

  /** A prefix `r` of a suffix `t` of `s`, with blanks around it, is padded by blanks in `s`. */
  lemma SuffixPrefixPadded(s: string, t: string, r: string)
    requires |t| <= |s| && t == s[|s| - |t|..] && AllSpace(s[..|s| - |t|])
    requires |r| <= |t| && r == t[..|r|] && AllSpace(t[|r|..])
    ensures BlankPadded(s, r, |s| - |t|)
  {
    var k := |s| - |t|;
    assert s[k..k + |r|] == r;
    assert s[k + |r|..] == t[|r|..];
  }

  /** Number of leading characters of `s` that are not whitespace. */
  function WordEnd(s: string): (k: nat)
    ensures k <= |s| && NoSpace(s[..k]) && (k < |s| ==> IsSpace(s[k]))
  {
    if s == [] || IsSpace(s[0]) then 0
    else
      var k := 1 + WordEnd(s[1..]);
      assert s[..k] == [s[0]] + s[1..][..k - 1];
      k
  }

  /** `s.split()`: the maximal runs of non-blank characters, in order. */
  function Split(s: string): (words: seq<string>)
    ensures AreWords(words)
    decreases |s|
  {
    var t := TrimLeft(s);
    if t == [] then []
    else
      var k := WordEnd(t);
      assert k > 0;
      var rest := Split(t[k..]);
      ConsWords(t[..k], rest);
      [t[..k]] + rest
  }

  lemma ConsWords(w: string, rest: seq<string>)
    requires w != [] && NoSpace(w) && AreWords(rest)
    ensures AreWords([w] + rest)
  {
    forall i | 0 < i <= |rest|
      ensures ([w] + rest)[i] == rest[i - 1]
    {
    }
  }

  /** `sep.join(parts)` */
  function Join(parts: seq<string>, sep: string): string {
    if |parts| == 0 then []
    else if |parts| == 1 then parts[0]
    else parts[0] + sep + Join(parts[1..], sep)
  }

  lemma WordEndOfWord(w: string, rest: string)
    requires NoSpace(w)
    requires rest == [] || IsSpace(rest[0])
    ensures WordEnd(w + rest) == |w|
  {
    if w != [] {
      assert (w + rest)[1..] == w[1..] + rest;
      WordEndOfWord(w[1..], rest);
    }
  }

  lemma {:induction false} TrimLeftSkipsBlank(c: char, s: string)
    requires IsSpace(c)
    ensures TrimLeft([c] + s) == TrimLeft(s)
  {
    assert ([c] + s)[1..] == s;
  }

  /** Splitting a single-blank-separated list of words gives the words back. */
  lemma {:induction false} SplitJoin(words: seq<string>)
    requires AreWords(words)
    ensures Split(Join(words, " ")) == words
  {
    if words == [] {
      return;
    }
    var w, tail := words[0], words[1..];
    assert words == [w] + tail;
    if tail == [] {
      SplitJoinOne(w);
    } else {
      assert AreWords(tail) by {
        forall i | 0 <= i < |tail| ensures tail[i] != [] && NoSpace(tail[i]) {
          assert tail[i] == words[i + 1];
        }
      }
      SplitJoin(tail);
      SplitJoinStep(w, tail);
    }
  }

  lemma SplitJoinOne(w: string)
    requires w != [] && NoSpace(w)
    ensures Split(Join([w], " ")) == [w]
  {
    SplitOfWord(w, []);
    assert w + [] == w;
  }

  lemma SplitJoinStep(w: string, tail: seq<string>)
    requires w != [] && NoSpace(w) && tail != []
    requires Split(Join(tail, " ")) == tail
    ensures Split(Join([w] + tail, " ")) == [w] + tail
  {
    var rest := Join(tail, " ");
    assert ([w] + tail)[1..] == tail;
    assert Join([w] + tail, " ") == w + ([' '] + rest);
    SplitOfWord(w, [' '] + rest);
    SplitOfBlank(' ', rest);
  }

  lemma SplitOfBlank(c: char, s: string)
    requires IsSpace(c)
    ensures Split([c] + s) == Split(s)
  {
    TrimLeftSkipsBlank(c, s);
  }

  /** A word followed by nothing or by a blank is the first word of the split. */
  lemma SplitOfWord(w: string, rest: string)
    requires w != [] && NoSpace(w)
    requires rest == [] || IsSpace(rest[0])
    ensures Split(w + rest) == [w] + Split(rest)
  {
    var s := w + rest;
    assert TrimLeft(s) == s;
    WordEndOfWord(w, rest);
    assert s[..|w|] == w && s[|w|..] == rest;
  }

  /** Index of the first `c` in `s`, or `|s|` when there is none. */
  function CharEnd(s: string, c: char): (k: nat)
    ensures k <= |s| && c !in s[..k] && (k < |s| ==> s[k] == c)
  {
    if s == [] || s[0] == c then 0
    else
      var k := 1 + CharEnd(s[1..], c);
      assert s[..k] == [s[0]] + s[1..][..k - 1];
      k
  }

  /** `s.split(c)`: the pieces between occurrences of `c`, empty ones included. */
  function SplitOn(s: string, c: char): (parts: seq<string>)
    ensures |parts| >= 1
    ensures forall i :: 0 <= i < |parts| ==> c !in parts[i]
    decreases |s|
  {
    var k := CharEnd(s, c);
    if k == |s| then [s] else [s[..k]] + SplitOn(s[k + 1..], c)
  }

  /** Joining the pieces of `s.split(c)` with `c` gives `s` back. */
  lemma {:induction false} JoinSplitOn(s: string, c: char)
    ensures Join(SplitOn(s, c), [c]) == s
    decreases |s|
  {
    var k := CharEnd(s, c);
    if k < |s| {
      var rest := SplitOn(s[k + 1..], c);
      JoinSplitOn(s[k + 1..], c);
      assert s == s[..k] + [c] + s[k + 1..];
    }
  }

  /** Splitting pieces joined with `c` gives the pieces back, when none contains `c`. */
  lemma {:induction false} SplitOnJoin(parts: seq<string>, c: char)
    requires |parts| >= 1
    requires forall i :: 0 <= i < |parts| ==> c !in parts[i]
    ensures SplitOn(Join(parts, [c]), c) == parts
  {
    var p := parts[0];
    if |parts| == 1 {
      CharEndOfNoSep(p, [], c);
      assert p + [] == p;
    } else {
      var rest := Join(parts[1..], [c]);
      var s := p + [c] + rest;
      assert s == p + ([c] + rest);
      CharEndOfNoSep(p, [c] + rest, c);
      assert s[..|p|] == p && s[|p| + 1..] == rest;
      assert Join(parts, [c]) == s;
      assert SplitOn(s, c) == [p] + SplitOn(rest, c);
      assert forall i :: 0 <= i < |parts| - 1 ==> parts[1..][i] == parts[i + 1];
      SplitOnJoin(parts[1..], c);
      assert [p] + parts[1..] == parts;
    }
  }

  lemma CharEndOfNoSep(p: string, rest: string, c: char)
    requires c !in p
    requires rest == [] || rest[0] == c
    ensures CharEnd(p + rest, c) == |p|
  {
    if p != [] {
      assert (p + rest)[1..] == p[1..] + rest;
      CharEndOfNoSep(p[1..], rest, c);
    }
  }

  function DigitValue(c: char): nat
    requires IsDigit(c)
  {
    c as int - '0' as int
  }

  function DigitChar(d: nat): (c: char)
    requires d < 10
    ensures IsDigit(c) && DigitValue(c) == d
  {
    ('0' as int + d) as char
  }

  /** The value of a run of decimal digits. */
  function DigitsValue(s: string): nat
    requires AllDigits(s)
  {
    if s == [] then 0 else DigitsValue(s[..|s| - 1]) * 10 + DigitValue(s[|s| - 1])
  }

  /** `str(n)` for a non-negative integer: its decimal digits, without leading zeros. */
  function NatToString(n: nat): (s: string)
    ensures s != [] && AllDigits(s)
    ensures |s| > 1 ==> s[0] != '0'
  {
    if n < 10 then [DigitChar(n)] else NatToString(n / 10) + [DigitChar(n % 10)]
  }

  /** `str(i)` */
  function IntToString(i: int): (s: string) {
    if i < 0 then "-" + NatToString(-i) else NatToString(i)
  }

  /** The digits of a token after its optional sign. */
  function Unsigned(s: string): string {
    if s != [] && (s[0] == '+' || s[0] == '-') then s[1..] else s
  }

  /** `int(s)` on a token without blanks: an optional sign, then at least one digit. */
  function ParseInt(s: string): (r: Option<int>)
    ensures r.Some? <==> Unsigned(s) != [] && AllDigits(Unsigned(s))
    ensures r.Some? ==> r.value == (if s[0] == '-' then -(DigitsValue(Unsigned(s)) as int) else DigitsValue(Unsigned(s)))
    ensures r.Some? && s[0] == '-' ==> r.value <= 0
  {
    if s == [] then None
    else if s[0] == '+' || s[0] == '-' then
      if |s| > 1 && AllDigits(s[1..]) then
        var v: int := DigitsValue(s[1..]);
        Some(if s[0] == '-' then -v else v)
      else None
    else if AllDigits(s) then Some(DigitsValue(s))
    else None
  }

  lemma {:induction false} DigitsRoundTrip(n: nat)
    ensures DigitsValue(NatToString(n)) == n
    decreases n
  {
    if n >= 10 {
      var s := NatToString(n);
      assert s[..|s| - 1] == NatToString(n / 10);
      DigitsRoundTrip(n / 10);
    }
  }

  /** `int(str(i)) == i` */
  lemma IntRoundTrip(i: int)
    ensures ParseInt(IntToString(i)) == Some(i)
  {
    var s := IntToString(i);
    if i < 0 {
      var digits := NatToString(-i);
      assert s[0] == '-' && s[1..] == digits;
      DigitsRoundTrip(-i);
      assert DigitsValue(s[1..]) == -i;
    } else {
      assert IsDigit(s[0]);
      DigitsRoundTrip(i);
    }
  }
}

=== FILE: table_formats.dfy ===
/**
 * How `TabularAlignmentClass` of SortModuleTimes.py chooses the format of a
 * row: line identifiers that score a row, format specifications, the
 * dictionary from identifier to specification list, and the selection of
 * the best-scoring identifier.
 *
 * The identifiers are values here. In the program they are objects keyed by
 * identity in a dictionary whose iteration order Python 2 leaves open; the
 * model keys them by value and iterates in insertion order.
 */
module TableFormats {
  import opened Wrappers
  import Registry

  /** A line identifier. */
  datatype Matcher =
    | NoLines                                      // `LineIdentifierClass`: never scores
    | AllLines                                     // `CatchAllLines`: scores 1 on every row
    | LineNo(lines: seq<int>, successFactor: real) // `LineNo`: the rows listed, negative from the end

  /** `LineNo(lineno, success_factor)` with a single line number. */
  function LineNoOf(lineno: int, successFactor: real): (m: Matcher)
    ensures m.LineNo? && m.lines == [lineno] && m.successFactor == successFactor
  {
    LineNo([lineno], successFactor)
  }

  /** The `success_factor` a `LineNo` gets when the caller gives none. */
  const DefaultSuccessFactor: real := 5.0

  /** `LineNo(lineno)` with the factor left at its default. */
  function LineNoDefault(lineno: int): (m: Matcher)
    ensures m.LineNo? && m.lines == [lineno] && m.successFactor == 5.0
  {
    LineNoOf(lineno, DefaultSuccessFactor)
  }

  /** With the default factor, `LineNo(lineno)` scores 5 on the row it designates and nothing on any other. */
  lemma LineNoDefaultScore(lineno: int, iLine: int, nRows: nat)
    ensures Score(LineNoDefault(lineno), iLine, nRows) ==
      (if iLine == Registry.NormalIndex(lineno, nRows) then Some(5.0) else None)
  {
    assert LineNoDefault(lineno) == LineNo([lineno], 5.0);
    assert [lineno][..0] == [];
    assert CountMatches([lineno], iLine, nRows) == if MatchLine(lineno, iLine, nRows) then 1 else 0;
  }

  /** `matchLine(lineno, iLine, rawdata)`: listed line `lineno` designates row `iLine` of `nRows`. */
  predicate MatchLine(lineno: int, iLine: int, nRows: nat) {
    iLine == Registry.NormalIndex(lineno, nRows)
  }

  /** The number of listed lines that designate row `iLine`. */
  function CountMatches(lines: seq<int>, iLine: int, nRows: nat): nat {
    if lines == [] then 0
    else CountMatches(lines[..|lines| - 1], iLine, nRows) + (if MatchLine(lines[|lines| - 1], iLine, nRows) then 1 else 0)
  }

  /** The listed lines with negative ones counted from the end. */
  function Designated(lines: seq<int>, nRows: nat): (r: seq<int>)
    ensures |r| == |lines| && forall k :: 0 <= k < |lines| ==> r[k] == Registry.NormalIndex(lines[k], nRows)
  {
    seq(|lines|, k requires 0 <= k < |lines| => Registry.NormalIndex(lines[k], nRows))
  }

  /** The count is how often row `iLine` occurs among the designated rows. */
  lemma {:induction false} CountIsMultiplicity(lines: seq<int>, iLine: int, nRows: nat)
    ensures CountMatches(lines, iLine, nRows) == multiset(Designated(lines, nRows))[iLine]
  {
    if lines != [] {
      var init := lines[..|lines| - 1];
      CountIsMultiplicity(init, iLine, nRows);
      assert Designated(lines, nRows) == Designated(init, nRows) + [Registry.NormalIndex(lines[|lines| - 1], nRows)];
    }
  }

  /** What the identifier answers for row `iLine` of a table of `nRows` rows. */
  function Score(m: Matcher, iLine: int, nRows: nat): Option<real> {
    match m
    case NoLines => None
    case AllLines => Some(1.0)
    case LineNo(lines, factor) =>
      var c := CountMatches(lines, iLine, nRows);
      if c == 0 then None else if factor == 0.0 then Some(1.0) else Some(Scaled(c, factor))
  }

  /** `success * self.success_factor` */
  function Scaled(count: nat, factor: real): real {
    count as real * factor
  }

  /**
   * `LineNo` answers nothing exactly when no listed line designates the row;
   * otherwise the number of listed lines designating it times the factor, or
   * 1 for a zero factor.
   */
  lemma LineNoScore(lines: seq<int>, factor: real, iLine: int, nRows: nat)
    ensures Score(LineNo(lines, factor), iLine, nRows).None? <==> iLine !in Designated(lines, nRows)
    ensures iLine in Designated(lines, nRows) ==>
      Score(LineNo(lines, factor), iLine, nRows) ==
        Some(if factor == 0.0 then 1.0 else Scaled(multiset(Designated(lines, nRows))[iLine], factor))
  {
    CountIsMultiplicity(lines, iLine, nRows);
    var d := Designated(lines, nRows);
    assert iLine in d <==> iLine in multiset(d);
  }

  /** `lineMatcher(iLine, rawdata)`: the `__call__` of each identifier, with its loop for `LineNo`. */
  method Call(m: Matcher, iLine: int, nRows: nat) returns (r: Option<real>)
    ensures r == Score(m, iLine, nRows)
  {
    match m {
      case NoLines => r := None;
      case AllLines => r := Some(1.0);
      case LineNo(lines, factor) =>
        var success := 0;
        var i := 0;
        while i < |lines|
          invariant 0 <= i <= |lines|
          invariant success == CountMatches(lines[..i], iLine, nRows)
        {
          assert lines[..i + 1][..i] == lines[..i];
          if MatchLine(lines[i], iLine, nRows) {
            success := success + 1;
          }
          i := i + 1;
        }
        assert lines[..i] == lines;
        assert success == CountMatches(lines, iLine, nRows);
        if success == 0 {
          r := None;
        } else if factor == 0.0 {
          r := Some(1.0);
        } else {
          r := Some(Scaled(success, factor));
        }
    }
  }

  /** The formatter of a cell: a `%` pattern, a callable, or anything else. */
  datatype Formatter = Pattern(pattern: string) | Callable(name: string) | NotCallable

  /** The builtin `str`, the default formatter. */
  const Str := Callable("str")

  /** A parsed specification: the `format`, `align` and `truncate` keys of its dictionary. */
  datatype Spec = Spec(format: Formatter, align: Option<string>, truncate: Option<bool>)

  /** A specification as the caller gives it. */
  datatype SpecArg =
    | NoSpec                                                                      // `None`
    | PatternSpec(pattern: string)                                                // a string
    | DictSpec(format: Option<Formatter>, align: Option<string>, truncate: Option<bool>)  // a dictionary
    | OtherSpec                                                                   // anything else

  /** `ParseFormatSpec(spec)`; `None` is `FormatNotSupported`. */
  function ParseFormatSpec(spec: SpecArg): (r: Option<Spec>)
    ensures r.None? <==> spec.OtherSpec?
    ensures spec.DictSpec? ==> r == Some(Spec(spec.format.GetOr(Str), spec.align, spec.truncate))
  {
    match spec
    case NoSpec => Some(Spec(Str, None, None))
    case PatternSpec(p) => Some(Spec(Pattern(p), None, None))
    case DictSpec(format, align, truncate) => Some(Spec(format.GetOr(Str), align, truncate))
    case OtherSpec => None
  }

  /**
   * The specifications of `SetRowFormats` parsed in order: the list, or the
   * position of the first one that is not supported.
   */
  function ParseSpecs(specs: seq<SpecArg>): Result<seq<Spec>, nat> {
    if specs == [] then Success([])
    else
      match ParseSpecs(specs[..|specs| - 1])
      case Failure(i) => Failure(i)
      case Success(parsed) =>
        match ParseFormatSpec(specs[|specs| - 1])
        case None => Failure(|specs| - 1)
        case Some(spec) => Success(parsed + [spec])
  }

  /**
   * Parsing fails at the first unsupported specification; otherwise each
   * specification is parsed on its own.
   */
  lemma {:induction false} ParseSpecsSpec(specs: seq<SpecArg>)
    ensures ParseSpecs(specs).Failure? ==>
      var i := ParseSpecs(specs).error;
      i < |specs| && specs[i].OtherSpec? && forall k :: 0 <= k < i ==> !specs[k].OtherSpec?
    ensures ParseSpecs(specs).Success? ==>
      && |ParseSpecs(specs).value| == |specs|
      && forall k :: 0 <= k < |specs| ==> ParseFormatSpec(specs[k]) == Some(ParseSpecs(specs).value[k])
  {
    if specs != [] {
      var init := specs[..|specs| - 1];
      ParseSpecsSpec(init);
      if ParseSpecs(init).Success? {
        var parsed := ParseSpecs(init).value;
        if ParseFormatSpec(specs[|specs| - 1]).Some? {
          var all := parsed + [ParseFormatSpec(specs[|specs| - 1]).value];
          forall k | 0 <= k < |specs| ensures ParseFormatSpec(specs[k]) == Some(all[k]) {
            if k < |init| {
              assert specs[k] == init[k];
            }
          }
        } else {
          forall k | 0 <= k < |specs| - 1 ensures !specs[k].OtherSpec? {
            assert specs[k] == init[k];
          }
        }
      } else {
        var i := ParseSpecs(init).error;
        forall k | 0 <= k <= i ensures specs[k] == init[k] { }
      }
    }
  }

  /** Once a specification is not supported, those after it change nothing. */
  lemma {:induction false} ParseSpecsFailurePersists(specs: seq<SpecArg>, k: nat)
    requires k <= |specs| && ParseSpecs(specs[..k]).Failure?
    ensures ParseSpecs(specs) == ParseSpecs(specs[..k])
    decreases |specs| - k
  {
    if k < |specs| {
      assert specs[..k + 1][..k] == specs[..k];
      ParseSpecsFailurePersists(specs, k + 1);
    } else {
      assert specs[..k] == specs;
    }
  }

  /** The dictionary `formats`: selector and specification list, in iteration order. */
  type FormatTable = seq<(Matcher, seq<Spec>)>

  /** No selector appears twice. */
  predicate DistinctSelectors(fs: FormatTable) {
    forall i, j :: 0 <= i < j < |fs| ==> fs[i].0 != fs[j].0
  }

  /** The position of `sel`, if it is a key. */
  function KeyIndex(fs: FormatTable, sel: Matcher): (r: Option<nat>)
    ensures r.Some? ==> r.value < |fs| && fs[r.value].0 == sel
    ensures r.None? ==> forall i :: 0 <= i < |fs| ==> fs[i].0 != sel
  {
    if fs == [] then None
    else if fs[0].0 == sel then Some(0)
    else
      match KeyIndex(fs[1..], sel)
      case None => None
      case Some(i) => Some(i + 1)
  }

  /** `formats[sel]` */
  function Lookup(fs: FormatTable, sel: Matcher): Option<seq<Spec>> {
    match KeyIndex(fs, sel)
    case None => None
    case Some(i) => Some(fs[i].1)
  }

  /** `formats[sel] = v`: a known key keeps its place, a new key goes last. */
  function Put(fs: FormatTable, sel: Matcher, v: seq<Spec>): FormatTable {
    match KeyIndex(fs, sel)
    case None => fs + [(sel, v)]
    case Some(i) => fs[i := (sel, v)]
  }

  /** After `formats[sel] = v`, `sel` gives `v` and every other key what it gave before. */
  lemma PutLookup(fs: FormatTable, sel: Matcher, v: seq<Spec>, other: Matcher)
    requires DistinctSelectors(fs)
    ensures DistinctSelectors(Put(fs, sel, v))
    ensures Lookup(Put(fs, sel, v), sel) == Some(v)
    ensures other != sel ==> Lookup(Put(fs, sel, v), other) == Lookup(fs, other)
  {
    var p := Put(fs, sel, v);
    match KeyIndex(fs, sel)
    case None =>
      assert p[|fs|].0 == sel;
      if KeyIndex(p, sel) != Some(|fs|) {
        assert false;
      }
      if other != sel {
        match KeyIndex(fs, other)
        case None => {}
        case Some(j) =>
          assert p[j] == fs[j];
          assert KeyIndex(p, other) == Some(j) by { KeyIndexUnique(p, other, j); }
      }
    case Some(i) =>
      KeyIndexUnique(p, sel, i);
      if other != sel {
        match KeyIndex(fs, other)
        case None => {}
        case Some(j) =>
          assert p[j] == fs[j];
          KeyIndexUnique(p, other, j);
      }
  }

  /** In a table without repeated selectors, the position of a key is where it is. */
  lemma KeyIndexUnique(fs: FormatTable, sel: Matcher, j: nat)
    requires DistinctSelectors(fs) && j < |fs| && fs[j].0 == sel
    ensures KeyIndex(fs, sel) == Some(j)
  {
  }

  /** The running result of `SelectFormat`'s loop after the first `k` entries: best score and its format. */
  function Best(fs: FormatTable, k: nat, iLine: int, nRows: nat): (Option<real>, Option<seq<Spec>>)
    requires k <= |fs|
  {
    if k == 0 then (None, None)
    else
      var (success, best) := Best(fs, k - 1, iLine, nRows);
      var s := Score(fs[k - 1].0, iLine, nRows);
      if s.None? || (success.Some? && s.value <= success.value) then (success, best)
      else (s, Some(fs[k - 1].1))
  }

  /** `SelectFormat(iLine)`'s answer: the format of the first strictly best-scoring selector. */
  function BestFormat(fs: FormatTable, iLine: int, nRows: nat): Option<seq<Spec>> {
    Best(fs, |fs|, iLine, nRows).1
  }

  function ScoreAt(fs: FormatTable, i: nat, iLine: int, nRows: nat): Option<real>
    requires i < |fs|
  {
    Score(fs[i].0, iLine, nRows)
  }

  /**
   * The loop keeps the selector with the greatest score, and of several
   * with that score the first: no format when no selector scores; otherwise
   * the format of a selector `i` whose score is at least every other score
   * and strictly above the score of every selector before it.
   */
  lemma {:induction false} BestIsFirstGreatest(fs: FormatTable, k: nat, iLine: int, nRows: nat)
    requires k <= |fs|
    ensures Best(fs, k, iLine, nRows).0.None? <==> forall j :: 0 <= j < k ==> ScoreAt(fs, j, iLine, nRows).None?
    ensures Best(fs, k, iLine, nRows).1.None? <==> Best(fs, k, iLine, nRows).0.None?
    ensures Best(fs, k, iLine, nRows).0.Some? ==>
      exists i :: 0 <= i < k && IsFirstGreatest(fs, k, i, iLine, nRows) &&
        ScoreAt(fs, i, iLine, nRows) == Best(fs, k, iLine, nRows).0 && Best(fs, k, iLine, nRows).1 == Some(fs[i].1)
  {
    if k > 0 {
      BestIsFirstGreatest(fs, k - 1, iLine, nRows);
      var (success, best) := Best(fs, k - 1, iLine, nRows);
      var s := ScoreAt(fs, k - 1, iLine, nRows);
      if s.None? || (success.Some? && s.value <= success.value) {
        assert Best(fs, k, iLine, nRows) == (success, best);
        if success.Some? {
          var i :| 0 <= i < k - 1 && IsFirstGreatest(fs, k - 1, i, iLine, nRows) &&
            ScoreAt(fs, i, iLine, nRows) == success && best == Some(fs[i].1);
          KeepFirstGreatest(fs, k, i, iLine, nRows);
        }
      } else {
        assert Best(fs, k, iLine, nRows) == (s, Some(fs[k - 1].1));
        if success.Some? {
          var i :| 0 <= i < k - 1 && IsFirstGreatest(fs, k - 1, i, iLine, nRows) &&
            ScoreAt(fs, i, iLine, nRows) == success && best == Some(fs[i].1);
          assert forall j :: 0 <= j < k - 1 && ScoreAt(fs, j, iLine, nRows).Some? ==>
            ScoreAt(fs, j, iLine, nRows).value < s.value;
        }
        NewFirstGreatest(fs, k, iLine, nRows);
      }
    }
  }

  /** A later selector scoring no higher leaves the first greatest where it was. */
  lemma KeepFirstGreatest(fs: FormatTable, k: nat, i: nat, iLine: int, nRows: nat)
    requires 0 < k <= |fs| && i < k - 1 && IsFirstGreatest(fs, k - 1, i, iLine, nRows)
    requires var s := ScoreAt(fs, k - 1, iLine, nRows);
      s.None? || s.value <= ScoreAt(fs, i, iLine, nRows).value
    ensures IsFirstGreatest(fs, k, i, iLine, nRows)
  {
  }

  /** A selector scoring above all before it is the first greatest so far. */
  lemma NewFirstGreatest(fs: FormatTable, k: nat, iLine: int, nRows: nat)
    requires 0 < k <= |fs| && ScoreAt(fs, k - 1, iLine, nRows).Some?
    requires forall j :: 0 <= j < k - 1 && ScoreAt(fs, j, iLine, nRows).Some? ==>
      ScoreAt(fs, j, iLine, nRows).value < ScoreAt(fs, k - 1, iLine, nRows).value
    ensures IsFirstGreatest(fs, k, k - 1, iLine, nRows)
  {
  }

  /** Selector `i` of the first `k` scores, at least as high as every other and above all before it. */
  predicate IsFirstGreatest(fs: FormatTable, k: nat, i: nat, iLine: int, nRows: nat)
    requires i < k <= |fs|
  {
    && ScoreAt(fs, i, iLine, nRows).Some?
    && (forall j :: 0 <= j < k && ScoreAt(fs, j, iLine, nRows).Some? ==>
          ScoreAt(fs, j, iLine, nRows).value <= ScoreAt(fs, i, iLine, nRows).value)
    && (forall j :: 0 <= j < i && ScoreAt(fs, j, iLine, nRows).Some? ==>
          ScoreAt(fs, j, iLine, nRows).value < ScoreAt(fs, i, iLine, nRows).value)
  }
}

=== FILE: tabular.dfy ===
/**
 * What `TabularAlignmentClass.FormatTable` of SortModuleTimes.py computes,
 * as functions of the table's rows and format dictionary: the format chosen
 * for each row, the cells each row formats to, the width of each column and
 * the padded cells, together with the exceptions the method raises.
 *
 * A cell's value has the type parameter `T`; `%`-formatting and calling a
 * formatter are library calls and are taken as the parameter `apply`.
 */
module Tabular {
  import opened Wrappers
  import opened Strings
  import opened Alignment
  import opened TableFormats

  /** The exceptions `SelectFormat` and `FormatTable` raise. */
  datatype TableError =
    | RowIndex                         // `IndexError`: `SelectFormat` of a row that is not there
    | NoRowFormat(row: nat)            // `TypeError`: no selector scores a row that has cells
    | NoItemSpec(row: nat)             // `TypeError`: the row's format is an empty list
    | FormatterNotSupported(item: nat) // `RuntimeError`: the formatter is neither a string nor callable
    | StaleName                        // `NameError`: padding reads the item counter before any cell set it
    | StaleIndex(index: nat)           // `IndexError`: padding indexes the row formats with a stale item counter
    | JustifyTypeError(row: nat, item: nat) // `TypeError`: `JustifyString` of a justified cell of two or more words

  /** The specification used where none exists; only reached for rows without cells. */
  const DefaultSpec := Spec(Str, None, None)

  /** The specification of item `i`: its own, or the last of the list for items beyond it. */
  function SpecFor(specs: seq<Spec>, i: nat): Spec
    requires specs != []
  {
    if i < |specs| then specs[i] else specs[|specs| - 1]
  }

  /** The format `SelectFormat` picks for every row. */
  function RowFormats<T>(fs: FormatTable, rows: seq<seq<T>>): (r: seq<Option<seq<Spec>>>)
    ensures |r| == |rows| && forall i :: 0 <= i < |rows| ==> r[i] == BestFormat(fs, i, |rows|)
  {
    seq(|rows|, i requires 0 <= i < |rows| => BestFormat(fs, i, |rows|))
  }

  /** The first `k` cells of a row formatted with `specs`. */
  function FormatCells<T>(specs: seq<Spec>, row: seq<T>, k: nat, apply: (Formatter, T) -> string)
    : (r: Result<seq<string>, TableError>)
    requires specs != [] && k <= |row|
    ensures r.Success? ==> |r.value| == k
  {
    if k == 0 then Success([])
    else
      match FormatCells(specs, row, k - 1, apply)
      case Failure(e) => Failure(e)
      case Success(cells) =>
        var f := SpecFor(specs, k - 1).format;
        if f.NotCallable? then Failure(FormatterNotSupported(k - 1))
        else Success(cells + [apply(f, row[k - 1])])
  }

  /** Row `iRow` formatted with the format selected for it. */
  function FormatRow<T>(specs: Option<seq<Spec>>, row: seq<T>, iRow: nat, apply: (Formatter, T) -> string)
    : (r: Result<seq<string>, TableError>)
    ensures r.Success? ==> |r.value| == |row|
  {
    if row == [] then Success([])
    else if specs.None? then Failure(NoRowFormat(iRow))
    else if specs.value == [] then Failure(NoItemSpec(iRow))
    else FormatCells(specs.value, row, |row|, apply)
  }

  /** Every cell's formatter can be applied. */
  predicate Formattable(specs: seq<Spec>, k: nat)
    requires specs != []
  {
    forall i :: 0 <= i < k ==> !SpecFor(specs, i).format.NotCallable?
  }

  /**
   * The first `k` cells format when every formatter among them can be
   * applied, each cell then being its own formatter applied to its value;
   * otherwise formatting stops at the first cell whose formatter cannot be.
   */
  lemma {:induction false} FormatCellsSpec<T>(specs: seq<Spec>, row: seq<T>, k: nat, apply: (Formatter, T) -> string)
    requires specs != [] && k <= |row|
    ensures FormatCells(specs, row, k, apply).Success? <==> Formattable(specs, k)
    ensures FormatCells(specs, row, k, apply).Success? ==>
      forall i :: 0 <= i < k ==> FormatCells(specs, row, k, apply).value[i] == apply(SpecFor(specs, i).format, row[i])
    ensures FormatCells(specs, row, k, apply).Failure? ==>
      exists i :: 0 <= i < k && FormatCells(specs, row, k, apply).error == FormatterNotSupported(i) &&
        SpecFor(specs, i).format.NotCallable? && Formattable(specs, i)
  {
    if k > 0 {
      FormatCellsSpec(specs, row, k - 1, apply);
      if FormatCells(specs, row, k - 1, apply).Failure? {
        var i :| 0 <= i < k - 1 && FormatCells(specs, row, k - 1, apply).error == FormatterNotSupported(i) &&
          SpecFor(specs, i).format.NotCallable? && Formattable(specs, i);
        assert !Formattable(specs, k);
      }
    }
  }

  /** Once a cell cannot be formatted, the cells after it change nothing. */
  lemma {:induction false} FormatCellsFailurePersists<T>(specs: seq<Spec>, row: seq<T>, k: nat,
                                                         apply: (Formatter, T) -> string)
    requires specs != [] && k <= |row| && FormatCells(specs, row, k, apply).Failure?
    ensures FormatCells(specs, row, |row|, apply) == FormatCells(specs, row, k, apply)
    decreases |row| - k
  {
    if k < |row| {
      FormatCellsFailurePersists(specs, row, k + 1, apply);
    }
  }

  /**
   * A row without cells formats to nothing; a row with cells fails when no
   * format was selected for it or the format is an empty list, and
   * otherwise formats as its cells do.
   */
  lemma FormatRowSpec<T>(specs: Option<seq<Spec>>, row: seq<T>, iRow: nat, apply: (Formatter, T) -> string)
    ensures row == [] ==> FormatRow(specs, row, iRow, apply) == Success([])
    ensures row != [] && specs.None? ==> FormatRow(specs, row, iRow, apply) == Failure(NoRowFormat(iRow))
    ensures row != [] && specs == Some([]) ==> FormatRow(specs, row, iRow, apply) == Failure(NoItemSpec(iRow))
    ensures row != [] && specs.Some? && specs.value != [] ==>
      && (FormatRow(specs, row, iRow, apply).Success? <==> Formattable(specs.value, |row|))
      && (FormatRow(specs, row, iRow, apply).Success? ==>
            forall i :: 0 <= i < |row| ==>
              FormatRow(specs, row, iRow, apply).value[i] == apply(SpecFor(specs.value, i).format, row[i]))
  {
    if row != [] && specs.Some? && specs.value != [] {
      FormatCellsSpec(specs.value, row, |row|, apply);
    }
  }

  /** The first `k` rows formatted, or the exception of the first row that fails. */
  function Contents<T>(formats: seq<Option<seq<Spec>>>, rows: seq<seq<T>>, k: nat, apply: (Formatter, T) -> string)
    : (r: Result<seq<seq<string>>, TableError>)
    requires |formats| == |rows| && k <= |rows|
    ensures r.Success? ==> |r.value| == k && forall i :: 0 <= i < k ==> |r.value[i]| == |rows[i]|
  {
    if k == 0 then Success([])
    else
      match Contents(formats, rows, k - 1, apply)
      case Failure(e) => Failure(e)
      case Success(c) =>
        match FormatRow(formats[k - 1], rows[k - 1], k - 1, apply)
        case Failure(e) => Failure(e)
        case Success(cells) => Success(c + [cells])
  }

  /**
   * The rows format exactly when each of them does, each to its own cells;
   * otherwise the exception is that of the first row that fails.
   */
  lemma {:induction false} ContentsSpec<T>(formats: seq<Option<seq<Spec>>>, rows: seq<seq<T>>, k: nat,
                                           apply: (Formatter, T) -> string)
    requires |formats| == |rows| && k <= |rows|
    ensures Contents(formats, rows, k, apply).Success? <==>
      forall i :: 0 <= i < k ==> FormatRow(formats[i], rows[i], i, apply).Success?
    ensures Contents(formats, rows, k, apply).Success? ==>
      forall i :: 0 <= i < k ==> FormatRow(formats[i], rows[i], i, apply) == Success(Contents(formats, rows, k, apply).value[i])
    ensures Contents(formats, rows, k, apply).Failure? ==>
      exists i :: 0 <= i < k && FormatRow(formats[i], rows[i], i, apply) == Failure(Contents(formats, rows, k, apply).error) &&
        forall j :: 0 <= j < i ==> FormatRow(formats[j], rows[j], j, apply).Success?
  {
    if k > 0 {
      ContentsSpec(formats, rows, k - 1, apply);
    }
  }

  /** Once a row fails, the rows after it change nothing. */
  lemma {:induction false} ContentsFailurePersists<T>(formats: seq<Option<seq<Spec>>>, rows: seq<seq<T>>, k: nat,
                                                      apply: (Formatter, T) -> string)
    requires |formats| == |rows| && k <= |rows| && Contents(formats, rows, k, apply).Failure?
    ensures Contents(formats, rows, |rows|, apply) == Contents(formats, rows, k, apply)
    decreases |rows| - k
  {
    if k < |rows| {
      ContentsFailurePersists(formats, rows, k + 1, apply);
    }
  }

  /** Every row with cells had a non-empty format selected once the rows formatted. */
  lemma ContentsUsable<T>(formats: seq<Option<seq<Spec>>>, rows: seq<seq<T>>, apply: (Formatter, T) -> string)
    requires |formats| == |rows| && Contents(formats, rows, |rows|, apply).Success?
    ensures forall i :: 0 <= i < |rows| && rows[i] != [] ==> formats[i].Some? && formats[i].value != []
  {
    ContentsSpec(formats, rows, |rows|, apply);
  }

  /** The item counter after a row: the row's last position, unchanged by a row without cells. */
  function After(counter: Option<nat>, row: seq<string>): Option<nat> {
    if row == [] then counter else Some(|row| - 1)
  }

  /** The item counter after going through `rows` from `start`. */
  function CounterAfter(rows: seq<seq<string>>, start: Option<nat>): Option<nat> {
    if rows == [] then start else After(CounterAfter(rows[..|rows| - 1], start), rows[|rows| - 1])
  }

  /**
   * The padding pass from row `k` on, entered with the item counter
   * `counter`: `AllFormats[iItem]` at the head of each row fails on a counter
   * never set or at or past the number of rows.
   */
  function StaleFrom(rows: seq<seq<string>>, k: nat, counter: Option<nat>, nRows: nat): (r: Option<TableError>)
    requires k <= |rows|
    ensures r.None? || r == Some(StaleName) || (r.value.StaleIndex? && r.value.index >= nRows)
    ensures counter.Some? ==> r != Some(StaleName)
    decreases |rows| - k
  {
    if k == |rows| then None
    else if counter.None? then Some(StaleName)
    else if counter.value >= nRows then Some(StaleIndex(counter.value))
    else StaleFrom(rows, k + 1, After(counter, rows[k]), nRows)
  }

  /** The exception of the padding pass of formatted rows `c`, if any. */
  function Stale(c: seq<seq<string>>): Option<TableError> {
    StaleFrom(c, 0, CounterAfter(c, None), |c|)
  }

  /**
   * The alignment and truncation of one cell to the width of its column, as
   * meant: a justified cell is aligned by the corrected `JustifyString`.
   */
  function AlignCell(spec: Spec, item: string, width: nat): string {
    var alignment := spec.align.GetOr("left");
    var aligned :=
      if alignment == "right" then RightString(item, width, ' ')
      else if alignment == "justified" then Justified(item, width, ' ')
      else if alignment == "center" then CenterString(item, width, ' ')
      else LeftString(item, width, ' ');
    if spec.truncate.GetOr(true) then Truncate(aligned, width) else aligned
  }

  /** A cell `JustifyString` as written cannot align: justified, and of two or more words. */
  predicate Unjustifiable(spec: Spec, item: string) {
    spec.align.GetOr("left") == "justified" && |SplitOn(item, ' ')| >= 2
  }

  /**
   * The alignment and truncation of one cell as written: a justified cell
   * goes through `JustifyString` as written. Exactly the cells it cannot
   * align fail; every other cell comes out as `AlignCell` means it to.
   */
  function AlignCellAsWritten(spec: Spec, item: string, width: nat): (r: Result<string, JustifyError>)
    ensures r.Failure? <==> Unjustifiable(spec, item)
    ensures r.Success? ==> r.value == AlignCell(spec, item, width)
  {
    var alignment := spec.align.GetOr("left");
    var aligned :=
      if alignment == "right" then Success(RightString(item, width, ' '))
      else if alignment == "justified" then JustifyStringAsWritten(item, width, ' ')
      else if alignment == "center" then Success(CenterString(item, width, ' '))
      else Success(LeftString(item, width, ' '));
    if aligned.Failure? then Failure(aligned.error)
    else if spec.truncate.GetOr(true) then Success(Truncate(aligned.value, width))
    else Success(aligned.value)
  }

  /** The specification of item `i` of a row with format `specs`. */
  function RowSpec(specs: Option<seq<Spec>>, i: nat): Spec {
    if specs.Some? && specs.value != [] then SpecFor(specs.value, i) else DefaultSpec
  }

  /** The width of column `i`. */
  function WidthAt(widths: seq<Option<nat>>, i: nat): nat {
    if i < |widths| && widths[i].Some? then widths[i].value else 0
  }

  /** A formatted row with each cell aligned to its column. */
  function PadRow(specs: Option<seq<Spec>>, cells: seq<string>, widths: seq<Option<nat>>): (r: seq<string>)
    ensures |r| == |cells|
  {
    seq(|cells|, i requires 0 <= i < |cells| => AlignCell(RowSpec(specs, i), cells[i], WidthAt(widths, i)))
  }

  /** Every formatted row padded. */
  function Laid(formats: seq<Option<seq<Spec>>>, c: seq<seq<string>>): (r: seq<seq<string>>)
    requires |formats| == |c|
    ensures |r| == |c| && forall i :: 0 <= i < |c| ==> |r[i]| == |c[i]|
  {
    var widths := ColumnWidths(c);
    seq(|c|, i requires 0 <= i < |c| => PadRow(formats[i], c[i], widths))
  }

  /**
   * The first `k` cells of row `iRow` padded as the cell loop of the padding
   * pass does it, where `JustifyString` as written raises on a justified
   * cell of two or more words: the intended padding when none of them is
   * such a cell, otherwise the `TypeError` of the first that is.
   * `PadItems` proves that the loop as written computes this.
   */
  function PadCells(specs: Option<seq<Spec>>, cells: seq<string>, widths: seq<Option<nat>>, iRow: nat, k: nat)
    : (r: Result<seq<string>, TableError>)
    requires k <= |cells|
    ensures r.Success? ==> |r.value| == k
    ensures r.Failure? ==>
      r.error.JustifyTypeError? && r.error.row == iRow && r.error.item < k &&
      Unjustifiable(RowSpec(specs, r.error.item), cells[r.error.item])
  {
    if Justifiable(specs, cells, k) then Success(PadRow(specs, cells, widths)[..k])
    else Failure(JustifyTypeError(iRow, FirstUnjustifiable(specs, cells, k)))
  }

  /** None of the first `k` cells of a row is a justified cell of two or more words. */
  predicate Justifiable(specs: Option<seq<Spec>>, cells: seq<string>, k: nat)
    requires k <= |cells|
  {
    forall i :: 0 <= i < k ==> !Unjustifiable(RowSpec(specs, i), cells[i])
  }

  lemma JustifiableStep(specs: Option<seq<Spec>>, cells: seq<string>, k: nat)
    requires 0 < k <= |cells|
    ensures Justifiable(specs, cells, k) <==>
      Justifiable(specs, cells, k - 1) && !Unjustifiable(RowSpec(specs, k - 1), cells[k - 1])
  {
  }

  /** Rows each padded as intended make up the laid-out table. */
  lemma LaidRows(formats: seq<Option<seq<Spec>>>, c: seq<seq<string>>, t: seq<seq<string>>)
    requires |formats| == |c| == |t|
    requires forall i :: 0 <= i < |c| ==> t[i] == PadRow(formats[i], c[i], ColumnWidths(c))
    ensures t == Laid(formats, c)
  {
  }

  /**
   * The first of the first `k` cells of a row that is a justified cell of
   * two or more words: the cell whose `JustifyString` raises.
   */
  function FirstUnjustifiable(specs: Option<seq<Spec>>, cells: seq<string>, k: nat): (i: nat)
    requires k <= |cells| && !Justifiable(specs, cells, k)
    ensures i < k && Unjustifiable(RowSpec(specs, i), cells[i]) && Justifiable(specs, cells, i)
  {
    JustifiableStep(specs, cells, k);
    if Justifiable(specs, cells, k - 1) then k - 1 else FirstUnjustifiable(specs, cells, k - 1)
  }

  /**
   * A cell that cannot be justified, with none before it that cannot, is
   * the first such cell of any longer prefix of the row.
   */
  lemma FirstUnjustifiableIs(specs: Option<seq<Spec>>, cells: seq<string>, k: nat, i: nat)
    requires i < k <= |cells| && Justifiable(specs, cells, i) && Unjustifiable(RowSpec(specs, i), cells[i])
    ensures !Justifiable(specs, cells, k) && FirstUnjustifiable(specs, cells, k) == i
  {
    var f := FirstUnjustifiable(specs, cells, k);
    assert !(f < i) && !(i < f);
  }

  /**
   * The padding pass from row `k` on, entered with the item counter
   * `counter`: each row first looks up `AllFormats[iItem]`, then has its
   * cells aligned, where `JustifyString` as written raises on the first
   * justified cell of two or more words; the first exception on the way,
   * if any. `PassFromPads` proves that the cell loop as written raises
   * exactly this.
   */
  function PassFrom(formats: seq<Option<seq<Spec>>>, c: seq<seq<string>>, k: nat, counter: Option<nat>)
    : (r: Option<TableError>)
    requires |formats| == |c| && k <= |c|
    ensures r.None? || r == Some(StaleName) || r.value.StaleIndex? || (r.value.JustifyTypeError? && k <= r.value.row < |c|)
    decreases |c| - k
  {
    if k == |c| then None
    else if counter.None? then Some(StaleName)
    else if counter.value >= |c| then Some(StaleIndex(counter.value))
    else if !Justifiable(formats[k], c[k], |c[k]|) then
      Some(JustifyTypeError(k, FirstUnjustifiable(formats[k], c[k], |c[k]|)))
    else PassFrom(formats, c, k + 1, After(counter, c[k]))
  }

  /**
   * With a live counter, padding row `k` as written fails with the error
   * the pass names for that row, or gives the intended row and lets the
   * pass go on to row `k + 1`.
   */
  lemma PassFromPads(formats: seq<Option<seq<Spec>>>, c: seq<seq<string>>,
                     widths: seq<Option<nat>>, k: nat, counter: Option<nat>)
    requires |formats| == |c| && k < |c| && counter.Some? && counter.value < |c|
    ensures PadCells(formats[k], c[k], widths, k, |c[k]|).Failure? ==>
      PassFrom(formats, c, k, counter) == Some(PadCells(formats[k], c[k], widths, k, |c[k]|).error)
    ensures PadCells(formats[k], c[k], widths, k, |c[k]|).Success? ==>
      PadCells(formats[k], c[k], widths, k, |c[k]|).value == PadRow(formats[k], c[k], widths) &&
      PassFrom(formats, c, k, counter) == PassFrom(formats, c, k + 1, After(counter, c[k]))
  {
    var p := PadRow(formats[k], c[k], widths);
    assert p[..|c[k]|] == p;
  }

  /** Every cell of rows `k` on can be aligned by `JustifyString` as written, row by row. */
  predicate JustifiableFrom(formats: seq<Option<seq<Spec>>>, c: seq<seq<string>>, k: nat)
    requires |formats| == |c| && k <= |c|
    decreases |c| - k
  {
    k == |c| || (Justifiable(formats[k], c[k], |c[k]|) && JustifiableFrom(formats, c, k + 1))
  }

  /** `JustifiableFrom` says of every cell of rows `k` on that it is not a justified cell of two or more words. */
  lemma {:induction false} JustifiableFromAll(formats: seq<Option<seq<Spec>>>, c: seq<seq<string>>, k: nat)
    requires |formats| == |c| && k <= |c|
    ensures JustifiableFrom(formats, c, k) <==>
      forall i, j :: k <= i < |c| && 0 <= j < |c[i]| ==> !Unjustifiable(RowSpec(formats[i], j), c[i][j])
    decreases |c| - k
  {
    if k < |c| {
      JustifiableFromAll(formats, c, k + 1);
      if Justifiable(formats[k], c[k], |c[k]|) && JustifiableFrom(formats, c, k + 1) {
        forall i, j | k <= i < |c| && 0 <= j < |c[i]| ensures !Unjustifiable(RowSpec(formats[i], j), c[i][j]) {
          if i == k {
            assert !Unjustifiable(RowSpec(formats[k], j), c[k][j]);
          }
        }
      }
    }
  }

  /**
   * Where no cell is a justified cell of two or more words, the padding
   * pass fails exactly as the stale look-up does.
   */
  lemma {:induction false} PassWithoutJustify(formats: seq<Option<seq<Spec>>>, c: seq<seq<string>>, k: nat,
                                              counter: Option<nat>)
    requires |formats| == |c| && k <= |c| && JustifiableFrom(formats, c, k)
    ensures PassFrom(formats, c, k, counter) == StaleFrom(c, k, counter, |c|)
    decreases |c| - k
  {
    if k < |c| && counter.Some? && counter.value < |c| {
      PassWithoutJustify(formats, c, k + 1, After(counter, c[k]));
    }
  }

  /**
   * The padding pass gets through exactly when the stale look-up does and
   * no cell is a justified cell of two or more words.
   */
  lemma {:induction false} PassFromSpec(formats: seq<Option<seq<Spec>>>, c: seq<seq<string>>, k: nat,
                                        counter: Option<nat>)
    requires |formats| == |c| && k <= |c|
    ensures PassFrom(formats, c, k, counter).None? <==>
      StaleFrom(c, k, counter, |c|).None? && JustifiableFrom(formats, c, k)
    decreases |c| - k
  {
    if k < |c| && counter.Some? && counter.value < |c| {
      PassFromSpec(formats, c, k + 1, After(counter, c[k]));
      StaleFromRow(c, k, counter);
    }
  }

  /** With a live counter, the stale look-up from row `k` is that from row `k + 1`. */
  lemma StaleFromRow(c: seq<seq<string>>, k: nat, counter: Option<nat>)
    requires k < |c| && counter.Some? && counter.value < |c|
    ensures StaleFrom(c, k, counter, |c|) == StaleFrom(c, k + 1, After(counter, c[k]), |c|)
  {
  }

  /**
   * A `TypeError` the padding pass raises names the first justified cell
   * of two or more words of its row.
   */
  lemma {:induction false} PassFromNamesCell(formats: seq<Option<seq<Spec>>>, c: seq<seq<string>>, k: nat,
                                             counter: Option<nat>)
    requires |formats| == |c| && k <= |c|
    ensures PassFrom(formats, c, k, counter).Some? && PassFrom(formats, c, k, counter).value.JustifyTypeError? ==>
      var e := PassFrom(formats, c, k, counter).value;
      e.item < |c[e.row]| && Unjustifiable(RowSpec(formats[e.row], e.item), c[e.row][e.item]) &&
      Justifiable(formats[e.row], c[e.row], e.item)
    decreases |c| - k
  {
    if k < |c| && counter.Some? && counter.value < |c| && Justifiable(formats[k], c[k], |c[k]|) {
      PassFromNamesCell(formats, c, k + 1, After(counter, c[k]));
    }
  }

  /**
   * `FormatTable()` as written: formatting, then the padding pass with its
   * stale look-up and `JustifyString` as written.
   */
  function Table<T>(rows: seq<seq<T>>, fs: FormatTable, apply: (Formatter, T) -> string)
    : Result<seq<seq<string>>, TableError>
  {
    var formats := RowFormats(fs, rows);
    match Contents(formats, rows, |rows|, apply)
    case Failure(e) => Failure(e)
    case Success(c) =>
      match PassFrom(formats, c, 0, CounterAfter(c, None))
      case Some(e) => Failure(e)
      case None => Success(Laid(formats, c))
  }

  /**
   * `FormatTable()` without the stale look-up and with `JustifyString`
   * corrected: the table the method is meant to return.
   */
  function IntendedTable<T>(rows: seq<seq<T>>, fs: FormatTable, apply: (Formatter, T) -> string)
    : Result<seq<seq<string>>, TableError>
  {
    var formats := RowFormats(fs, rows);
    match Contents(formats, rows, |rows|, apply)
    case Failure(e) => Failure(e)
    case Success(c) => Success(Laid(formats, c))
  }

  /**
   * The padding pass as written only ever adds an exception: where the
   * table as written succeeds it is the intended one, and where only it
   * fails, the exception is a stale counter or a cell that cannot be
   * justified.
   */
  lemma StaleOnlyFails<T>(rows: seq<seq<T>>, fs: FormatTable, apply: (Formatter, T) -> string)
    ensures Table(rows, fs, apply).Success? ==> Table(rows, fs, apply) == IntendedTable(rows, fs, apply)
    ensures Table(rows, fs, apply).Failure? && IntendedTable(rows, fs, apply).Success? ==>
      Table(rows, fs, apply).error == StaleName || Table(rows, fs, apply).error.StaleIndex? ||
      Table(rows, fs, apply).error.JustifyTypeError?
    ensures IntendedTable(rows, fs, apply).Failure? ==> Table(rows, fs, apply) == IntendedTable(rows, fs, apply)
  {
  }

  /**
   * A table no cell of which is a justified cell of two or more words fails
   * as written exactly where the stale look-up fails it.
   */
  lemma JustifiableTable<T>(rows: seq<seq<T>>, fs: FormatTable, apply: (Formatter, T) -> string)
    requires Contents(RowFormats(fs, rows), rows, |rows|, apply).Success?
    requires JustifiableFrom(RowFormats(fs, rows), Contents(RowFormats(fs, rows), rows, |rows|, apply).value, 0)
    ensures var c := Contents(RowFormats(fs, rows), rows, |rows|, apply).value;
      Table(rows, fs, apply) == if Stale(c).Some? then Failure(Stale(c).value) else IntendedTable(rows, fs, apply)
  {
    var c := Contents(RowFormats(fs, rows), rows, |rows|, apply).value;
    PassWithoutJustify(RowFormats(fs, rows), c, 0, CounterAfter(c, None));
  }

  /** Starting from a counter that was set, the counter stays set and below the longest row. */
  lemma {:induction false} CounterBelow(rows: seq<seq<string>>, start: Option<nat>, bound: nat)
    requires forall i :: 0 <= i < |rows| ==> |rows[i]| <= bound
    requires start.Some? ==> start.value < bound
    ensures CounterAfter(rows, start).Some? ==> CounterAfter(rows, start).value < bound
  {
    if rows != [] {
      var init := rows[..|rows| - 1];
      CounterBelow(init, start, bound);
    }
  }

  /** The counter stays unset exactly when it starts unset and no row has a cell. */
  lemma {:induction false} CounterUnset(rows: seq<seq<string>>, start: Option<nat>)
    ensures CounterAfter(rows, start).None? <==> start.None? && forall i :: 0 <= i < |rows| ==> rows[i] == []
  {
    if rows != [] {
      var init := rows[..|rows| - 1];
      CounterUnset(init, start);
      assert forall i :: 0 <= i < |init| ==> init[i] == rows[i];
    }
  }

  /** From row `k` on, a counter below the number of rows never goes stale when no row is longer. */
  lemma {:induction false} StaleFromHarmless(rows: seq<seq<string>>, k: nat, counter: Option<nat>)
    requires k <= |rows| && counter.Some? && counter.value < |rows|
    requires forall i :: 0 <= i < |rows| ==> |rows[i]| <= |rows|
    ensures StaleFrom(rows, k, counter, |rows|) == None
    decreases |rows| - k
  {
    if k < |rows| {
      StaleFromHarmless(rows, k + 1, After(counter, rows[k]));
    }
  }

  /** A pass that starts without a counter fails at its first row. */
  lemma StaleFromUnset(rows: seq<seq<string>>, k: nat, nRows: nat)
    requires k < |rows|
    ensures StaleFrom(rows, k, None, nRows) == Some(StaleName)
  {
  }

  /**
   * The stale look-up fails a table with rows exactly when all its rows are
   * empty (`NameError`) or some row has more cells than the table has rows
   * and leaves a counter too large (`IndexError`): a table no row of which
   * has more cells than there are rows, and some row of which has a cell,
   * never fails it.
   */
  lemma StaleHarmless(c: seq<seq<string>>)
    ensures Stale(c) == Some(StaleName) <==> c != [] && forall i :: 0 <= i < |c| ==> c[i] == []
    ensures (exists i :: 0 <= i < |c| && c[i] != []) && (forall i :: 0 <= i < |c| ==> |c[i]| <= |c|) ==>
      Stale(c) == None
  {
    CounterUnset(c, None);
    if (forall i :: 0 <= i < |c| ==> |c[i]| <= |c|) {
      CounterBelow(c, None, |c|);
      if exists i :: 0 <= i < |c| && c[i] != [] {
        StaleFromHarmless(c, 0, CounterAfter(c, None));
      }
    }
    if c != [] && CounterAfter(c, None).None? {
      StaleFromUnset(c, 0, |c|);
    }
  }

  /**
   * The stale look-up as written: a table of one row of two cells with the
   * default format fails with `IndexError`, the counter left at 1 indexing
   * a list of one row format.
   */
  lemma OneRowTwoCellsFails<T>(x: T, y: T, apply: (Formatter, T) -> string)
    ensures Table([[x, y]], [(AllLines, [DefaultSpec])], apply) == Failure(StaleIndex(1))
    ensures IntendedTable([[x, y]], [(AllLines, [DefaultSpec])], apply).Success?
  {
    var fs: FormatTable := [(AllLines, [DefaultSpec])];
    assert Best(fs, 0, 0, 1) == (None, None);
    assert BestFormat(fs, 0, 1) == Some([DefaultSpec]);
    var formats := RowFormats(fs, [[x, y]]);
    assert formats == [Some([DefaultSpec])];
    var c := [[apply(Str, x), apply(Str, y)]];
    assert SpecFor([DefaultSpec], 0) == DefaultSpec && SpecFor([DefaultSpec], 1) == DefaultSpec;
    assert Formattable([DefaultSpec], 2);
    FormatCellsSpec([DefaultSpec], [x, y], 2, apply);
    var cells := FormatCells([DefaultSpec], [x, y], 2, apply).value;
    assert cells[0] == c[0][0] && cells[1] == c[0][1];
    assert cells == c[0];
    assert FormatRow(Some([DefaultSpec]), [x, y], 0, apply) == FormatCells([DefaultSpec], [x, y], 2, apply);
    assert FormatRow(formats[0], [x, y], 0, apply) == Success(c[0]);
    assert Contents(formats, [[x, y]], 0, apply) == Success([]);
    assert Contents(formats, [[x, y]], 1, apply) == Success([] + [c[0]]);
    assert CounterAfter(c, None) == Some(1) by {
      assert c[..0] == [];
    }
  }

  /**
   * `JustifyString` as written in the padding pass: a table of one cell
   * `"a b"` with a justified format raises `TypeError`, while the intended
   * table exists.
   */
  lemma OneJustifiedCellFails<T>(x: T, apply: (Formatter, T) -> string)
    requires apply(Str, x) == "a b"
    ensures Table([[x]], [(AllLines, [Spec(Str, Some("justified"), None)])], apply) == Failure(JustifyTypeError(0, 0))
    ensures IntendedTable([[x]], [(AllLines, [Spec(Str, Some("justified"), None)])], apply).Success?
  {
    var spec := Spec(Str, Some("justified"), None);
    var fs: FormatTable := [(AllLines, [spec])];
    assert Best(fs, 0, 0, 1) == (None, None);
    assert BestFormat(fs, 0, 1) == Some([spec]);
    var formats := RowFormats(fs, [[x]]);
    assert formats == [Some([spec])];
    assert SpecFor([spec], 0) == spec;
    assert Formattable([spec], 1);
    FormatCellsSpec([spec], [x], 1, apply);
    assert FormatCells([spec], [x], 1, apply).value == ["a b"];
    assert FormatRow(formats[0], [x], 0, apply) == Success(["a b"]);
    assert Contents(formats, [[x]], 0, apply) == Success([]);
    var c := [["a b"]];
    assert Contents(formats, [[x]], 1, apply) == Success([] + [c[0]]);
    assert CounterAfter(c, None) == Some(0) by {
      assert c[..0] == [];
    }
    JustifyTwoWordsFails();
    assert Unjustifiable(RowSpec(formats[0], 0), "a b");
    assert !Justifiable(formats[0], c[0], 1);
    assert PassFrom(formats, c, 0, Some(0)) == Some(JustifyTypeError(0, 0));
  }

  /**
   * A cell that is truncated is exactly as wide as its column when it fits
   * it, whichever the alignment as meant (justified cells by the corrected
   * `JustifyString`); left, right and centered cells keep their text at the
   * start, the end and the centering offset.
   */
  lemma AlignCellFits(spec: Spec, item: string, width: nat)
    requires |item| <= width
    ensures spec.truncate.GetOr(true) ==> |AlignCell(spec, item, width)| == width
    ensures spec.align.GetOr("left") == "right" ==>
      AlignCell(spec, item, width)[width - |item|..] == item
    ensures spec.align.GetOr("left") !in {"right", "justified", "center"} ==>
      AlignCell(spec, item, width)[..|item|] == item
    ensures spec.align.GetOr("left") == "center" ==>
      AlignCell(spec, item, width)[CenterLeft(item, width)..CenterLeft(item, width) + |item|] == item
  {
    var alignment := spec.align.GetOr("left");
    if alignment == "justified" && |SplitOn(item, ' ')| >= 2 {
      JustifiedWidth(item, width, ' ');
    }
    if alignment == "center" {
      CenterTruncated(item, width, ' ');
    }
  }

  /**
   * The intended table: one padded row per row of the table, each with one
   * cell per value; cell `j` of row `i` is the value formatted with the
   * row's specification for item `j` and then aligned to column `j`, whose
   * width is that of the longest formatted cell of the column; a truncated
   * cell is exactly that wide.
   */
  lemma IntendedTableCells<T>(rows: seq<seq<T>>, fs: FormatTable, apply: (Formatter, T) -> string, i: nat, j: nat)
    requires IntendedTable(rows, fs, apply).Success? && i < |rows| && j < |rows[i]|
    ensures |IntendedTable(rows, fs, apply).value| == |rows|
    ensures |IntendedTable(rows, fs, apply).value[i]| == |rows[i]|
    ensures var c := Contents(RowFormats(fs, rows), rows, |rows|, apply).value;
      var spec := RowSpec(BestFormat(fs, i, |rows|), j);
      && BestFormat(fs, i, |rows|).Some? && BestFormat(fs, i, |rows|).value != []
      && c[i][j] == apply(spec.format, rows[i][j])
      && IntendedTable(rows, fs, apply).value[i][j] == AlignCell(spec, c[i][j], WidthAt(ColumnWidths(c), j))
      && FitsColumn(c, i, j) && WidthAt(ColumnWidths(c), j) == ColumnWidths(c)[j].value
      && (spec.truncate.GetOr(true) ==> |IntendedTable(rows, fs, apply).value[i][j]| == WidthAt(ColumnWidths(c), j))
  {
    var formats := RowFormats(fs, rows);
    var c := Contents(formats, rows, |rows|, apply).value;
    ContentsSpec(formats, rows, |rows|, apply);
    ContentsUsable(formats, rows, apply);
    FormatRowSpec(formats[i], rows[i], i, apply);
    CellFits(c, i, j);
    AlignCellFits(RowSpec(formats[i], j), c[i][j], WidthAt(ColumnWidths(c), j));
  }

  /** `ToStrings(separator)` of a padded table: each row's cells joined. */
  function Lines(t: seq<seq<string>>, separator: string): (r: seq<string>)
    ensures |r| == |t|
  {
    seq(|t|, i requires 0 <= i < |t| => Join(t[i], separator))
  }

  lemma {:induction false} SumLenPointwise(a: seq<string>, b: seq<string>)
    requires |a| == |b| && forall i :: 0 <= i < |a| ==> |a[i]| == |b[i]|
    ensures SumLen(a) == SumLen(b)
  {
    if a != [] {
      SumLenPointwise(a[..|a| - 1], b[..|b| - 1]);
    }
  }

  /**
   * With every cell truncated, two rows with the same number of cells give
   * lines of the same length when joined by a one-character separator: the
   * columns line up.
   */
  lemma AlignedLines<T>(rows: seq<seq<T>>, fs: FormatTable, apply: (Formatter, T) -> string, sep: char, i: nat, k: nat)
    requires IntendedTable(rows, fs, apply).Success? && i < |rows| && k < |rows| && |rows[i]| == |rows[k]|
    requires forall j :: 0 <= j < |rows[i]| ==> RowSpec(BestFormat(fs, i, |rows|), j).truncate.GetOr(true)
    requires forall j :: 0 <= j < |rows[k]| ==> RowSpec(BestFormat(fs, k, |rows|), j).truncate.GetOr(true)
    ensures var t := IntendedTable(rows, fs, apply).value;
      |Lines(t, [sep])[i]| == |Lines(t, [sep])[k]|
  {
    var t := IntendedTable(rows, fs, apply).value;
    forall j | 0 <= j < |t[i]| ensures |t[i][j]| == |t[k][j]| {
      IntendedTableCells(rows, fs, apply, i, j);
      IntendedTableCells(rows, fs, apply, k, j);
    }
    if t[i] != [] {
      SumLenPointwise(t[i], t[k]);
      JoinLength(t[i], sep);
      JoinLength(t[k], sep);
    }
  }
}

=== FILE: tabular_class.dfy ===
/**
 * `TabularAlignmentClass` of SortModuleTimes.py: a table of rows and a
 * dictionary of row formats, both updated in place, and the methods that
 * format the table. Each method is proved to compute the function of the
 * `Tabular` module that describes it.
 */
module TabularClass {
  import opened Wrappers
  import opened Strings
  import opened Alignment
  import opened TableFormats
  import opened Tabular

  /** The row formatting loop of `FormatTable` for one row. */
  method FormatItems<T>(specs: Option<seq<Spec>>, row: seq<T>, iRow: nat, apply: (Formatter, T) -> string)
    returns (r: Result<seq<string>, TableError>)
    ensures r == FormatRow(specs, row, iRow, apply)
  {
    var lineContent: seq<string> := [];
    var lastSpec: Option<Spec> := None;
    var iItem := 0;
    while iItem < |row|
      invariant 0 <= iItem <= |row|
      invariant iItem == 0 ==> lineContent == [] && lastSpec.None?
      invariant iItem > 0 ==> specs.Some? && specs.value != [] && lastSpec == Some(SpecFor(specs.value, iItem - 1))
      invariant specs.Some? && specs.value != [] ==> FormatCells(specs.value, row, iItem, apply) == Success(lineContent)
    {
      // `RowFormats[iItem]` on `None` is a `TypeError`
      if specs.None? {
        return Failure(NoRowFormat(iRow));
      }
      var spec: Spec;
      if iItem < |specs.value| {
        spec := specs.value[iItem];
        lastSpec := Some(spec);
      } else if lastSpec.None? {
        // `IndexError` caught, and then `None['format']`
        return Failure(NoItemSpec(iRow));
      } else {
        spec := lastSpec.value;
      }
      assert spec == SpecFor(specs.value, iItem);
      var formatter := spec.format;
      if formatter.NotCallable? {
        FormatCellsFailurePersists(specs.value, row, iItem + 1, apply);
        return Failure(FormatterNotSupported(iItem));
      }
      lineContent := lineContent + [apply(formatter, row[iItem])];
      iItem := iItem + 1;
    }
    r := Success(lineContent);
  }

  /**
   * The formatting pass of `FormatTable`: every row formatted in turn, its
   * cells added to a `MaxItemLengthsClass`; also gives the item counter
   * the pass leaves behind.
   */
  method FormatContents<T>(allFormats: seq<Option<seq<Spec>>>, rows: seq<seq<T>>, apply: (Formatter, T) -> string)
    returns (r: Result<seq<seq<string>>, TableError>, widths: seq<Option<nat>>, counter: Option<nat>)
    requires |allFormats| == |rows|
    ensures r == Contents(allFormats, rows, |rows|, apply)
    ensures r.Success? ==> widths == ColumnWidths(r.value) && counter == CounterAfter(r.value, None)
  {
    var itemLengths := new MaxItemLengths(0);
    var tableContent: seq<seq<string>> := [];
    counter := None;
    var iRow := 0;
    while iRow < |rows|
      invariant 0 <= iRow <= |rows|
      invariant Contents(allFormats, rows, iRow, apply) == Success(tableContent)
      invariant itemLengths.maxlength == ColumnWidths(tableContent)
      invariant counter == CounterAfter(tableContent, None)
    {
      var lineContent := FormatItems(allFormats[iRow], rows[iRow], iRow, apply);
      if lineContent.Failure? {
        ContentsFailurePersists(allFormats, rows, iRow + 1, apply);
        return Failure(lineContent.error), [], None;
      }
      itemLengths.Add(lineContent.value);
      if rows[iRow] != [] {
        counter := Some(|rows[iRow]| - 1);
      }
      ghost var before := tableContent;
      tableContent := tableContent + [lineContent.value];
      assert tableContent[..|tableContent| - 1] == before;
      iRow := iRow + 1;
    }
    r := Success(tableContent);
    widths := itemLengths.maxlength;
  }

  /**
   * The alignment of one cell in the padding pass of `FormatTable`, with
   * `JustifyString` as written.
   */
  method AlignItem(spec: Spec, item: string, fieldWidth: nat) returns (r: Result<string, JustifyError>)
    ensures r == AlignCellAsWritten(spec, item, fieldWidth)
  {
    var alignment := spec.align.GetOr("left");
    var alignedItem: string;
    if alignment == "right" {
      alignedItem := RightString(item, fieldWidth, ' ');
    } else if alignment == "justified" {
      var justified := JustifyStringAsWritten(item, fieldWidth, ' ');
      if justified.Failure? {
        return Failure(justified.error);
      }
      alignedItem := justified.value;
    } else if alignment == "center" {
      alignedItem := CenterString(item, fieldWidth, ' ');
    } else {
      alignedItem := LeftString(item, fieldWidth, ' ');
    }
    if spec.truncate.GetOr(true) {
      alignedItem := Truncate(alignedItem, fieldWidth);
    }
    r := Success(alignedItem);
  }

  /** The padding of formatted row `iRow`, cell by cell in place. */
  method PadItems(rowFormats: Option<seq<Spec>>, cells: seq<string>, widths: seq<Option<nat>>, iRow: nat)
    returns (r: Result<seq<string>, TableError>)
    requires cells != [] ==> rowFormats.Some? && rowFormats.value != []
    requires |cells| <= |widths| && forall j :: 0 <= j < |cells| ==> widths[j].Some?
    ensures r == PadCells(rowFormats, cells, widths, iRow, |cells|)
  {
    var row := cells;
    var lastSpec: Option<Spec> := None;
    var iItem := 0;
    while iItem < |row|
      invariant 0 <= iItem <= |row| && |row| == |cells|
      invariant iItem > 0 ==> lastSpec == Some(RowSpec(rowFormats, iItem - 1))
      invariant Justifiable(rowFormats, cells, iItem)
      invariant forall j :: 0 <= j < iItem ==> row[j] == PadRow(rowFormats, cells, widths)[j]
      invariant forall j :: iItem <= j < |row| ==> row[j] == cells[j]
    {
      var spec: Spec;
      if iItem < |rowFormats.value| {
        spec := rowFormats.value[iItem];
        lastSpec := Some(spec);
      } else {
        spec := lastSpec.value;
      }
      var fieldWidth := widths[iItem].value;
      assert spec == RowSpec(rowFormats, iItem) && fieldWidth == WidthAt(widths, iItem) && row[iItem] == cells[iItem];
      var alignedItem := AlignItem(spec, row[iItem], fieldWidth);
      if alignedItem.Failure? {
        FirstUnjustifiableIs(rowFormats, cells, |cells|, iItem);
        return Failure(JustifyTypeError(iRow, iItem));
      }
      JustifiableStep(rowFormats, cells, iItem + 1);
      row := row[iItem := alignedItem.value];
      iItem := iItem + 1;
    }
    var p := PadRow(rowFormats, cells, widths);
    assert row == p[..|cells|];
    r := Success(row);
  }

  /**
   * Row `iRow` of the padding pass: the look-up `AllFormats[iItem]` with
   * the item counter the previous rows left, then the row's cells aligned.
   */
  method PadRowOfPass(allFormats: seq<Option<seq<Spec>>>, contents: seq<seq<string>>, widths: seq<Option<nat>>,
                      iRow: nat, counter: Option<nat>)
    returns (r: Result<seq<string>, TableError>)
    requires |allFormats| == |contents| && widths == ColumnWidths(contents) && iRow < |contents|
    requires contents[iRow] != [] ==> allFormats[iRow].Some? && allFormats[iRow].value != []
    ensures r.Failure? ==> PassFrom(allFormats, contents, iRow, counter) == Some(r.error)
    ensures r.Success? ==> r.value == PadRow(allFormats[iRow], contents[iRow], widths)
    ensures r.Success? ==>
      PassFrom(allFormats, contents, iRow, counter) ==
      PassFrom(allFormats, contents, iRow + 1, After(counter, contents[iRow]))
  {
    // `Spec = AllFormats[iItem]`
    if counter.None? {
      return Failure(StaleName);
    }
    if counter.value >= |allFormats| {
      return Failure(StaleIndex(counter.value));
    }
    RowHasWidths(contents, iRow);
    PassFromPads(allFormats, contents, widths, iRow, counter);
    r := PadItems(allFormats[iRow], contents[iRow], widths, iRow);
  }

  /**
   * The padding pass of `FormatTable`: each row first indexes the row
   * formats with the item counter the previous cell left behind, then has
   * its cells aligned; the first exception on the way ends it.
   */
  method PadContents(allFormats: seq<Option<seq<Spec>>>, contents: seq<seq<string>>, widths: seq<Option<nat>>,
                     start: Option<nat>)
    returns (r: Result<seq<seq<string>>, TableError>)
    requires |allFormats| == |contents| && widths == ColumnWidths(contents)
    requires forall i :: 0 <= i < |contents| && contents[i] != [] ==> allFormats[i].Some? && allFormats[i].value != []
    ensures PassFrom(allFormats, contents, 0, start).Some? ==> r == Failure(PassFrom(allFormats, contents, 0, start).value)
    ensures PassFrom(allFormats, contents, 0, start).None? ==> r == Success(Laid(allFormats, contents))
  {
    var tableContent := contents;
    var counter: Option<nat> := start;
    var iRow := 0;
    while iRow < |contents|
      invariant 0 <= iRow <= |contents| && |tableContent| == |contents|
      invariant PassFrom(allFormats, contents, iRow, counter) == PassFrom(allFormats, contents, 0, start)
      invariant forall i :: 0 <= i < iRow ==> tableContent[i] == PadRow(allFormats[i], contents[i], widths)
      invariant forall i :: iRow <= i < |contents| ==> tableContent[i] == contents[i]
    {
      var cells := tableContent[iRow];
      var row := PadRowOfPass(allFormats, contents, widths, iRow, counter);
      if row.Failure? {
        return Failure(row.error);
      }
      if cells != [] {
        counter := Some(|cells| - 1);
      }
      tableContent := tableContent[iRow := row.value];
      iRow := iRow + 1;
    }
    LaidRows(allFormats, contents, tableContent);
    r := Success(tableContent);
  }

  class TabularAlignment<T> {
    /** The rows of the table, each a list of values. */
    var tabledata: seq<seq<T>>
    /** The dictionary from line identifier to the row format it selects. */
    var formats: FormatTable

    /** `TabularAlignmentClass([])`: no rows and no formats. */
    constructor ()
      ensures tabledata == [] && formats == []
    {
      tabledata := [];
      formats := [];
    }

    /**
     * `TabularAlignmentClass(specs)`: with specifications, they become the
     * format of every line; an unsupported one is reported by position.
     */
    static method New(specs: seq<SpecArg>) returns (r: Result<TabularAlignment<T>, nat>)
      ensures r.Failure? <==> ParseSpecs(specs).Failure?
      ensures r.Failure? ==> r.error == ParseSpecs(specs).error
      ensures r.Success? ==> fresh(r.value) && r.value.tabledata == []
      ensures r.Success? && specs == [] ==> r.value.formats == []
      ensures r.Success? && specs != [] ==> r.value.formats == [(AllLines, ParseSpecs(specs).value)]
    {
      var t := new TabularAlignment();
      if specs != [] {
        var err := t.SetDefaultFormats(specs);
        if err.Some? {
          return Failure(err.value);
        }
      }
      r := Success(t);
    }

    /**
     * `SetRowFormats(rowSelector, specs)`: the specifications parsed in
     * order become the format `rowSelector` selects; an unsupported one is
     * reported by position and changes nothing.
     */
    method SetRowFormats(rowSelector: Matcher, specs: seq<SpecArg>) returns (err: Option<nat>)
      modifies this
      ensures err.Some? <==> ParseSpecs(specs).Failure?
      ensures err.Some? ==> err.value == ParseSpecs(specs).error && unchanged(this)
      ensures err.None? ==> formats == Put(old(formats), rowSelector, ParseSpecs(specs).value)
      ensures tabledata == old(tabledata)
    {
      var parsed: seq<Spec> := [];
      var iSpec := 0;
      while iSpec < |specs|
        invariant 0 <= iSpec <= |specs|
        invariant ParseSpecs(specs[..iSpec]) == Success(parsed)
      {
        assert specs[..iSpec + 1][..iSpec] == specs[..iSpec];
        var spec := ParseFormatSpec(specs[iSpec]);
        if spec.None? {
          assert ParseSpecs(specs[..iSpec + 1]) == Failure(iSpec);
          ParseSpecsFailurePersists(specs, iSpec + 1);
          return Some(iSpec);
        }
        parsed := parsed + [spec.value];
        iSpec := iSpec + 1;
      }
      assert specs[..iSpec] == specs;
      formats := Put(formats, rowSelector, parsed);
      err := None;
    }

    /** `SetDefaultFormats(specs)`: the format of every line. */
    method SetDefaultFormats(specs: seq<SpecArg>) returns (err: Option<nat>)
      modifies this
      ensures err.Some? <==> ParseSpecs(specs).Failure?
      ensures err.Some? ==> err.value == ParseSpecs(specs).error && unchanged(this)
      ensures err.None? ==> formats == Put(old(formats), AllLines, ParseSpecs(specs).value)
      ensures tabledata == old(tabledata)
    {
      err := SetRowFormats(AllLines, specs);
    }

    /** `AddData(data)`: rows appended. */
    method AddData(data: seq<seq<T>>)
      modifies this
      ensures tabledata == old(tabledata) + data && formats == old(formats)
    {
      tabledata := tabledata + data;
    }

    /** `AddRow(*row_data)`: one row appended. */
    method AddRow(rowData: seq<T>)
      modifies this
      ensures tabledata == old(tabledata) + [rowData] && formats == old(formats)
    {
      tabledata := tabledata + [rowData];
    }

    /**
     * `SelectFormat(iLine)`: the format of the first selector with the best
     * score for row `iLine` (negative counted from the end), `None` when no
     * selector scores it; a row that is not there is an `IndexError`.
     */
    method SelectFormat(iLine: int) returns (r: Result<Option<seq<Spec>>, TableError>)
      ensures r.Success? <==> -|tabledata| <= iLine < |tabledata|
      ensures r.Failure? ==> r.error == RowIndex
      ensures r.Success? ==> r.value == BestFormat(formats, iLine, |tabledata|)
    {
      if !(-|tabledata| <= iLine < |tabledata|) {
        return Failure(RowIndex);
      }
      var success: Option<real> := None;
      var bestFormat: Option<seq<Spec>> := None;
      var i := 0;
      while i < |formats|
        invariant 0 <= i <= |formats|
        invariant (success, bestFormat) == Best(formats, i, iLine, |tabledata|)
      {
        var (lineMatcher, format) := formats[i];
        var matchSuccess := Call(lineMatcher, iLine, |tabledata|);
        // Python 2 orders `None` below every number
        if matchSuccess.None? || (success.Some? && matchSuccess.value <= success.value) {
        } else {
          bestFormat := Some(format);
          success := matchSuccess;
        }
        i := i + 1;
      }
      r := Success(bestFormat);
    }

    /** The format of every row. */
    method SelectAll() returns (allFormats: seq<Option<seq<Spec>>>)
      ensures allFormats == RowFormats(formats, tabledata)
    {
      allFormats := [];
      var iRow := 0;
      while iRow < |tabledata|
        invariant 0 <= iRow <= |tabledata| && |allFormats| == iRow
        invariant forall i :: 0 <= i < iRow ==> allFormats[i] == BestFormat(formats, i, |tabledata|)
      {
        var f := SelectFormat(iRow);
        allFormats := allFormats + [f.value];
        iRow := iRow + 1;
      }
    }

    /** `FormatTable()`: the padded cells of every row, or the exception raised on the way. */
    method FormatTable(apply: (Formatter, T) -> string) returns (r: Result<seq<seq<string>>, TableError>)
      ensures r == Table(tabledata, formats, apply)
    {
      var allFormats := SelectAll();
      var contents, widths, counter := FormatContents(allFormats, tabledata, apply);
      if contents.Failure? {
        return Failure(contents.error);
      }
      ContentsUsable(allFormats, tabledata, apply);
      r := PadContents(allFormats, contents.value, widths, counter);
    }

    /** `ToStrings(separator)`: each padded row with its cells joined by `separator`. */
    method ToStrings(separator: string, apply: (Formatter, T) -> string) returns (r: Result<seq<string>, TableError>)
      ensures r.Failure? <==> Table(tabledata, formats, apply).Failure?
      ensures r.Failure? ==> r.error == Table(tabledata, formats, apply).error
      ensures r.Success? ==> r.value == Lines(Table(tabledata, formats, apply).value, separator)
    {
      var t := FormatTable(apply);
      if t.Failure? {
        return Failure(t.error);
      }
      r := Success(Lines(t.value, separator));
    }
  }
}

=== FILE: timing_lines.dfy ===
/**
 * The two line grammars of the Timing service log read by SortModuleTimes.py:
 *
 *   TimeModule> run: R subRun: S event: E <instance> <type> <time>
 *   TimeEvent> run: R subRun: S event: E <time>
 *
 * Tokens are separated by blanks. `float()` on the time token is a library
 * call and is taken as the parameter `toReal`.
 */
module TimingLines {
  import opened Wrappers
  import opened Strings
  import opened ModuleStats

  /**
   * `FormatError` carries the offending line; `IndexError` is what Python
   * raises when the line has fewer tokens than the keyword checks look at.
   */
  datatype ParseError = FormatError(line: string) | IndexError

  /** A parsed `TimeModule>` line: the record and the module it times. */
  datatype ModuleRecord = ModuleRecord(moduleKey: StatsKey, data: TimeData)

  const ModuleTag := "TimeModule>"
  const EventTag := "TimeEvent>"

  /**
   * The keyword checks both parsers make, in the order Python evaluates
   * them: the tag, `run:`, `subRun:`, `event:` and then the token count.
   * Looking at a keyword position past the end is an `IndexError`.
   */
  function CheckHeader(t: seq<string>, tag: string, count: nat, line: string): (e: Option<ParseError>)
    ensures e.None? <==>
      |t| == count && |t| >= 6 && t[0] == tag && t[1] == "run:" && t[3] == "subRun:" && t[5] == "event:"
    ensures e == Some(IndexError) ==> |t| < 6
    ensures |t| >= 6 && e.Some? ==> e == Some(FormatError(line))
  {
    if |t| == 0 then Some(IndexError)
    else if t[0] != tag then Some(FormatError(line))
    else if |t| < 2 then Some(IndexError)
    else if t[1] != "run:" then Some(FormatError(line))
    else if |t| < 4 then Some(IndexError)
    else if t[3] != "subRun:" then Some(FormatError(line))
    else if |t| < 6 then Some(IndexError)
    else if t[5] != "event:" then Some(FormatError(line))
    else if |t| != count then Some(FormatError(line))
    else None
  }

  /** The run, subRun and event fields of a header-checked token list, if all are integers. */
  function EventFields(t: seq<string>): (r: Option<(int, int, int)>)
    requires |t| >= 7
    ensures r.Some? <==> ParseInt(t[2]).Some? && ParseInt(t[4]).Some? && ParseInt(t[6]).Some?
    ensures r.Some? ==> r.value == (ParseInt(t[2]).value, ParseInt(t[4]).value, ParseInt(t[6]).value)
  {
    match (ParseInt(t[2]), ParseInt(t[4]), ParseInt(t[6]))
    case (Some(run), Some(subRun), Some(event)) => Some((run, subRun, event))
    case _ => None
  }

  /** `ParseTimeModuleLine(line)` */
  function ParseTimeModuleLine(line: string, toReal: string -> Option<real>): (r: Result<ModuleRecord, ParseError>)
    ensures r.Success? <==>
      (var t := Split(line);
       && |t| == 10 && t[0] == ModuleTag && t[1] == "run:" && t[3] == "subRun:" && t[5] == "event:"
       && ParseInt(t[2]).Some? && ParseInt(t[4]).Some? && ParseInt(t[6]).Some? && toReal(t[9]).Some?)
    ensures r.Success? ==>
      (var t := Split(line);
       && r.value.moduleKey == Module(t[7], t[8])
       && r.value.data == TimeData(ParseInt(t[2]).value, ParseInt(t[4]).value, ParseInt(t[6]).value,
                                   toReal(t[9]).value))
    ensures r == Failure(IndexError) ==> |Split(line)| < 6
    ensures r.Failure? && r.error.FormatError? ==> r.error.line == line
  {
    var t := Split(line);
    match CheckHeader(t, ModuleTag, 10, line)
    case Some(e) => Failure(e)
    case None =>
      match (EventFields(t), toReal(t[9]))
      case (Some((run, subRun, event)), Some(time)) =>
        Success(ModuleRecord(Module(t[7], t[8]), TimeData(run, subRun, event, time)))
      case _ => Failure(FormatError(line))
  }

  /** `ParseTimeEventLine(line)` */
  function ParseTimeEventLine(line: string, toReal: string -> Option<real>): (r: Result<TimeData, ParseError>)
    ensures r.Success? <==>
      (var t := Split(line);
       && |t| == 8 && t[0] == EventTag && t[1] == "run:" && t[3] == "subRun:" && t[5] == "event:"
       && ParseInt(t[2]).Some? && ParseInt(t[4]).Some? && ParseInt(t[6]).Some? && toReal(t[7]).Some?)
    ensures r.Success? ==>
      (var t := Split(line);
       r.value == TimeData(ParseInt(t[2]).value, ParseInt(t[4]).value, ParseInt(t[6]).value, toReal(t[7]).value))
    ensures r == Failure(IndexError) ==> |Split(line)| < 6
    ensures r.Failure? && r.error.FormatError? ==> r.error.line == line
  {
    var t := Split(line);
    match CheckHeader(t, EventTag, 8, line)
    case Some(e) => Failure(e)
    case None =>
      match (EventFields(t), toReal(t[7]))
      case (Some((run, subRun, event)), Some(time)) => Success(TimeData(run, subRun, event, time))
      case _ => Failure(FormatError(line))
  }

  /** The words of the line the Timing service writes for a module record; `render` prints the time. */
  function ModuleWords(rec: ModuleRecord, render: real -> string): seq<string>
    requires rec.moduleKey.Module?
  {
    var d := rec.data;
    [ModuleTag, "run:", IntToString(d.run), "subRun:", IntToString(d.subRun),
     "event:", IntToString(d.event), rec.moduleKey.instance, rec.moduleKey.moduleType, render(d.time)]
  }

  /** The words of the line the Timing service writes for an event record. */
  function EventWords(d: TimeData, render: real -> string): seq<string> {
    [EventTag, "run:", IntToString(d.run), "subRun:", IntToString(d.subRun),
     "event:", IntToString(d.event), render(d.time)]
  }

  /** The line the Timing service writes for a module record: its words, blank-separated. */
  function TimeModuleLine(rec: ModuleRecord, render: real -> string): string
    requires rec.moduleKey.Module?
  {
    Join(ModuleWords(rec, render), " ")
  }

  /** The line the Timing service writes for an event record. */
  function TimeEventLine(d: TimeData, render: real -> string): string {
    Join(EventWords(d, render), " ")
  }

  predicate IsWord(w: string) {
    w != [] && NoSpace(w)
  }

  lemma IntStringIsWord(i: int)
    ensures IsWord(IntToString(i))
  {
    var s := NatToString(if i < 0 then -i else i);
    forall k | 0 <= k < |s| ensures !IsSpace(s[k]) {
      assert IsDigit(s[k]);
    }
    if i < 0 {
      assert IntToString(i) == "-" + s;
      forall k | 0 <= k < |IntToString(i)| ensures !IsSpace(IntToString(i)[k]) {
        if k > 0 {
          assert IntToString(i)[k] == s[k - 1];
        }
      }
    }
  }

  /** A token list whose every token is a word is what `split()` gives back. */
  lemma AllWords(words: seq<string>)
    requires forall i :: 0 <= i < |words| ==> IsWord(words[i])
    ensures AreWords(words)
  {
    forall i | 0 <= i < |words| ensures words[i] != [] && NoSpace(words[i]) {
      assert IsWord(words[i]);
    }
  }

  /** The tokens of a written module line pass the keyword checks and carry its fields. */
  lemma ModuleWordsFields(rec: ModuleRecord, render: real -> string, line: string)
    requires rec.moduleKey.Module?
    ensures CheckHeader(ModuleWords(rec, render), ModuleTag, 10, line) == None
    ensures EventFields(ModuleWords(rec, render)) == Some((rec.data.run, rec.data.subRun, rec.data.event))
  {
    var t := ModuleWords(rec, render);
    assert t[0] == ModuleTag && t[1] == "run:" && t[3] == "subRun:" && t[5] == "event:";
    IntRoundTrip(rec.data.run);
    IntRoundTrip(rec.data.subRun);
    IntRoundTrip(rec.data.event);
  }

  /** The tokens of a written event line pass the keyword checks and carry its fields. */
  lemma EventWordsFields(d: TimeData, render: real -> string, line: string)
    ensures CheckHeader(EventWords(d, render), EventTag, 8, line) == None
    ensures EventFields(EventWords(d, render)) == Some((d.run, d.subRun, d.event))
  {
    var t := EventWords(d, render);
    assert t[0] == EventTag && t[1] == "run:" && t[3] == "subRun:" && t[5] == "event:";
    IntRoundTrip(d.run);
    IntRoundTrip(d.subRun);
    IntRoundTrip(d.event);
  }

  /**
   * Parsing a module line written from a record gives the record back, when
   * the module names are single words and the time's rendering is a word
   * that `float()` reads back exactly.
   */
  lemma ModuleLineRoundTrip(rec: ModuleRecord, render: real -> string, toReal: string -> Option<real>)
    requires rec.moduleKey.Module? && IsWord(rec.moduleKey.instance) && IsWord(rec.moduleKey.moduleType)
    requires IsWord(render(rec.data.time)) && toReal(render(rec.data.time)) == Some(rec.data.time)
    ensures ParseTimeModuleLine(TimeModuleLine(rec, render), toReal) == Success(rec)
  {
    var words := ModuleWords(rec, render);
    IntStringIsWord(rec.data.run);
    IntStringIsWord(rec.data.subRun);
    IntStringIsWord(rec.data.event);
    AllWords(words);
    SplitJoin(words);
    ModuleWordsFields(rec, render, TimeModuleLine(rec, render));
  }

  /** Parsing an event line written from a record gives the record back. */
  lemma EventLineRoundTrip(d: TimeData, render: real -> string, toReal: string -> Option<real>)
    requires IsWord(render(d.time)) && toReal(render(d.time)) == Some(d.time)
    ensures ParseTimeEventLine(TimeEventLine(d, render), toReal) == Success(d)
  {
    var words := EventWords(d, render);
    IntStringIsWord(d.run);
    IntStringIsWord(d.subRun);
    IntStringIsWord(d.event);
    AllWords(words);
    SplitJoin(words);
    EventWordsFields(d, render, TimeEventLine(d, render));
  }

  /** A line of one kind is never accepted by the other parser. */
  lemma ParsersExclusive(line: string, toReal: string -> Option<real>)
    ensures !(ParseTimeModuleLine(line, toReal).Success? && ParseTimeEventLine(line, toReal).Success?)
  {
  }
}

=== FILE: timing_reader.dfy ===
/**
 * The reading loop of SortModuleTimes.py: every line of every log file is
 * stripped, a line equal to the one before it in the same file is skipped,
 * `TimeModule> ` lines feed the series of their module (created and
 * registered the first time the module is met) and `TimeEvent> ` lines feed
 * the series of whole events. The first line that does not parse stops the
 * reading with an error that names the file and the line.
 *
 * The files arrive as their lists of lines; opening and decompressing them
 * is not part of this model.
 */
module TimingReader {
  import opened Wrappers
  import opened Strings
  import opened Statistics
  import opened ModuleStats
  import opened TimingLines

  /** A line that feeds a series. */
  datatype Entry = ModuleEntry(rec: ModuleRecord) | EventEntry(data: TimeData)

  /** The parse error of line `lineNo` (counted from 0) of file `file`. */
  datatype ReadError = ReadError(file: nat, lineNo: nat, error: ParseError)

  /** The key of the series of whole events. */
  const EventsKey := Named("=== events ===")

  /** What a stripped line contributes: nothing, an entry, or a parse error. */
  function Classify(line: string, toReal: string -> Option<real>): Option<Result<Entry, ParseError>> {
    if HasPrefix(line, "TimeModule> ") then
      match ParseTimeModuleLine(line, toReal)
      case Success(rec) => Some(Success(ModuleEntry(rec)))
      case Failure(e) => Some(Failure(e))
    else if HasPrefix(line, "TimeEvent> ") then
      match ParseTimeEventLine(line, toReal)
      case Success(d) => Some(Success(EventEntry(d)))
      case Failure(e) => Some(Failure(e))
    else None
  }

  /** How a stripped line is read: `Classify` with a given `float()`. */
  type Classifier = string -> Option<Result<Entry, ParseError>>

  function ClassifierOf(toReal: string -> Option<real>): Classifier {
    line => Classify(line, toReal)
  }

  /** Every line of a file with its surrounding blanks removed. */
  function StripAll(lines: seq<string>): (r: seq<string>)
    ensures |r| == |lines| && forall i :: 0 <= i < |lines| ==> r[i] == Strip(lines[i])
  {
    seq(|lines|, i requires 0 <= i < |lines| => Strip(lines[i]))
  }

  /** Stripped line `i` repeats the one before it. */
  predicate Repeated(lines: seq<string>, i: nat)
    requires i < |lines|
  {
    i > 0 && lines[i] == lines[i - 1]
  }

  /** The entries of the first `k` stripped lines of a file, or the first error among them. */
  function FileEntries(lines: seq<string>, k: nat, classify: Classifier): Result<seq<Entry>, (nat, ParseError)>
    requires k <= |lines|
  {
    if k == 0 then Success([])
    else
      match FileEntries(lines, k - 1, classify)
      case Failure(e) => Failure(e)
      case Success(es) =>
        if Repeated(lines, k - 1) then Success(es)
        else
          match classify(lines[k - 1])
          case None => Success(es)
          case Some(Success(x)) => Success(es + [x])
          case Some(Failure(e)) => Failure((k - 1, e))
  }

  /** The entries of the first `k` files, in order, or the first error among them. */
  function LogEntries(files: seq<seq<string>>, k: nat, classify: Classifier): Result<seq<Entry>, ReadError>
    requires k <= |files|
  {
    if k == 0 then Success([])
    else
      match LogEntries(files, k - 1, classify)
      case Failure(e) => Failure(e)
      case Success(es) =>
        match FileEntries(StripAll(files[k - 1]), |files[k - 1]|, classify)
        case Failure((line, e)) => Failure(ReadError(k - 1, line, e))
        case Success(fs) => Success(es + fs)
  }

  /** The modules of the entries, each once, in the order they are first met. */
  function ModuleOrder(es: seq<Entry>): seq<StatsKey> {
    if es == [] then []
    else
      var order, last := ModuleOrder(es[..|es| - 1]), es[|es| - 1];
      if last.ModuleEntry? && last.rec.moduleKey !in order then order + [last.rec.moduleKey] else order
  }

  /** The records of module `m`, in order. */
  function ModuleRecords(es: seq<Entry>, m: StatsKey): seq<TimeData> {
    if es == [] then []
    else
      var recs, last := ModuleRecords(es[..|es| - 1], m), es[|es| - 1];
      if last.ModuleEntry? && last.rec.moduleKey == m then recs + [last.rec.data] else recs
  }

  /** The event records, in order. */
  function EventRecords(es: seq<Entry>): seq<TimeData> {
    if es == [] then []
    else
      var recs, last := EventRecords(es[..|es| - 1]), es[|es| - 1];
      if last.EventEntry? then recs + [last.data] else recs
  }

  predicate NoDuplicates<T(==)>(s: seq<T>) {
    forall i, j :: 0 <= i < j < |s| ==> s[i] != s[j]
  }

  lemma {:induction false} ModuleOrderSpec(es: seq<Entry>, m: StatsKey)
    ensures NoDuplicates(ModuleOrder(es))
    ensures m in ModuleOrder(es) <==> ModuleRecords(es, m) != []
  {
    if es != [] {
      var init := es[..|es| - 1];
      ModuleOrderSpec(init, m);
      var order, last := ModuleOrder(init), es[|es| - 1];
      if last.ModuleEntry? && last.rec.moduleKey !in order {
        ModuleOrderSpec(init, last.rec.moduleKey);
        var r := order + [last.rec.moduleKey];
        forall i, j | 0 <= i < j < |r| ensures r[i] != r[j] {
          if j == |order| {
            assert r[i] == order[i];
          } else {
            assert r[i] == order[i] && r[j] == order[j];
          }
        }
      }
    }
  }

  /**
   * A line equal to the line before it, once stripped, contributes nothing
   * to the file's entries.
   */
  lemma RepeatedLineSkipped(lines: seq<string>, line: string, classify: Classifier)
    requires lines != [] && line == lines[|lines| - 1]
    ensures FileEntries(lines + [line], |lines| + 1, classify) == FileEntries(lines, |lines|, classify)
  {
    var all := lines + [line];
    assert all[..|lines|] == lines[..|lines|];
    FileEntriesOfPrefix(lines, all, |lines|, classify);
    assert all[|lines|] == all[|lines| - 1];
    assert Repeated(all, |lines|);
    SkippedLine(all, |lines|, classify);
  }

  /** A line the classifier ignores contributes nothing to the file's entries. */
  lemma OtherLineIgnored(lines: seq<string>, line: string, classify: Classifier)
    requires classify(line).None?
    ensures FileEntries(lines + [line], |lines| + 1, classify) == FileEntries(lines, |lines|, classify)
  {
    var all := lines + [line];
    assert all[..|lines|] == lines[..|lines|];
    FileEntriesOfPrefix(lines, all, |lines|, classify);
    assert all[|lines|] == line;
    assert classify(all[|lines|]).None?;
    SkippedLine(all, |lines|, classify);
  }

  /** Line `k`, when it repeats the one before or is ignored, leaves the entries as they were. */
  lemma SkippedLine(lines: seq<string>, k: nat, classify: Classifier)
    requires k < |lines| && (Repeated(lines, k) || classify(lines[k]).None?)
    ensures FileEntries(lines, k + 1, classify) == FileEntries(lines, k, classify)
  {
  }

  /** The entries of the first `k` lines depend on those lines only. */
  lemma {:induction false} FileEntriesOfPrefix(a: seq<string>, b: seq<string>, k: nat, classify: Classifier)
    requires k <= |a| && k <= |b| && a[..k] == b[..k]
    ensures FileEntries(a, k, classify) == FileEntries(b, k, classify)
  {
    if k > 0 {
      assert a[..k - 1] == b[..k - 1];
      FileEntriesOfPrefix(a, b, k - 1, classify);
      assert a[k - 1] == a[..k][k - 1] == b[k - 1];
      if k > 1 {
        assert a[k - 2] == a[..k][k - 2] == b[k - 2];
      }
    }
  }

  /** Once a line fails to parse, the file's result is that failure. */
  lemma {:induction false} FileErrorPersists(lines: seq<string>, k: nat, n: nat, classify: Classifier)
    requires k <= n <= |lines| && FileEntries(lines, k, classify).Failure?
    ensures FileEntries(lines, n, classify) == FileEntries(lines, k, classify)
    decreases n
  {
    if n > k {
      FileErrorPersists(lines, k, n - 1, classify);
    }
  }

  /** Once a file fails to parse, the result of the whole reading is that failure. */
  lemma {:induction false} LogErrorPersists(files: seq<seq<string>>, k: nat, n: nat, classify: Classifier)
    requires k <= n <= |files| && LogEntries(files, k, classify).Failure?
    ensures LogEntries(files, n, classify) == LogEntries(files, k, classify)
    decreases n
  {
    if n > k {
      LogErrorPersists(files, k, n - 1, classify);
    }
  }

  /**
   * What reading a sequence of entries leaves, as a value: the modules in the
   * order they were first met, the records of each module and the event
   * records.
   */
  datatype View = View(order: seq<StatsKey>, recs: map<StatsKey, seq<TimeData>>, events: seq<TimeData>)

  ghost predicate ViewOk(v: View) {
    NoDuplicates(v.order) && forall k :: k in v.recs <==> k in v.order
  }

  /** The nothing-read view. */
  const Empty := View([], map[], [])

  /** The view with module `k` registered: unchanged if `k` is known, else `k` added with no records. */
  function Open(v: View, k: StatsKey): (r: View)
    requires ViewOk(v)
    ensures ViewOk(r) && k in r.recs && r.events == v.events
  {
    if k in v.order then v
    else
      var r := View(v.order + [k], v.recs[k := []], v.events);
      assert forall i :: 0 <= i < |v.order| ==> r.order[i] == v.order[i];
      r
  }

  /** The view after one more entry. */
  function Next(v: View, e: Entry): (r: View)
    requires ViewOk(v)
    ensures ViewOk(r)
  {
    match e
    case EventEntry(d) => v.(events := v.events + [d])
    case ModuleEntry(rec) =>
      var w := Open(v, rec.moduleKey);
      w.(recs := w.recs[rec.moduleKey := w.recs[rec.moduleKey] + [rec.data]])
  }

  /** The view after the entries `es`, starting from `v`. */
  function ReplayFrom(v: View, es: seq<Entry>): (r: View)
    requires ViewOk(v)
    ensures ViewOk(r)
  {
    if es == [] then v else Next(ReplayFrom(v, es[..|es| - 1]), es[|es| - 1])
  }

  function Replay(es: seq<Entry>): View {
    ReplayFrom(Empty, es)
  }

  /** Reading `a` and then `b` is reading `a + b`. */
  lemma {:induction false} ReplayAppend(v: View, a: seq<Entry>, b: seq<Entry>)
    requires ViewOk(v)
    ensures ReplayFrom(v, a + b) == ReplayFrom(ReplayFrom(v, a), b)
    decreases |b|
  {
    if b == [] {
      assert a + b == a;
    } else {
      var b0 := b[..|b| - 1];
      assert (a + b)[..|a + b| - 1] == a + b0;
      assert (a + b)[|a + b| - 1] == b[|b| - 1];
      ReplayAppend(v, a, b0);
    }
  }

  /**
   * The view is what the reference definitions say: the modules in
   * first-met order, each with exactly its own records, and the event records.
   */
  lemma {:induction false} ReplayMatches(es: seq<Entry>)
    ensures Replay(es).order == ModuleOrder(es)
    ensures Replay(es).events == EventRecords(es)
    ensures forall k :: k in Replay(es).recs ==> Replay(es).recs[k] == ModuleRecords(es, k)
  {
    if es != [] {
      var init, e := es[..|es| - 1], es[|es| - 1];
      ReplayMatches(init);
      if e.ModuleEntry? {
        ModuleOrderSpec(init, e.rec.moduleKey);
      }
    }
  }

  /** The series `s` holds what feeding it the records `fed` in order leaves. */
  ghost predicate Holds(s: TimeModuleStats, fed: seq<TimeData>)
    reads s, s.acc
  {
    && s.Valid()
    && (s.tracked ==> s.entries == FirstOccurrences(fed))
    && (!s.tracked ==> s.acc.Samples == TimesOf(fed))
  }

  /** Feeding one more record to a series keeps it in step with its records. */
  lemma HoldsAfterAdd(fed: seq<TimeData>, d: TimeData, entries: seq<TimeData>)
    requires entries == FirstOccurrences(fed)
    ensures FirstOccurrences(fed + [d]) ==
      if d.Key() in KeysOf(entries) then entries else entries + [d]
  {
    assert (fed + [d])[..|fed|] == fed;
  }

  /**
   * `ModuleStats.add(TimeData)` for each record of `fed` in turn: a series
   * that holds `prior` then holds `prior + fed`. This is what the reading loop
   * does to the series of a module with that module's records.
   */
  method FeedSeries(s: TimeModuleStats, ghost prior: seq<TimeData>, fed: seq<TimeData>)
    requires Holds(s, prior)
    modifies s, s.acc
    ensures Holds(s, prior + fed)
  {
    var i := 0;
    assert prior + fed[..0] == prior;
    while i < |fed|
      invariant 0 <= i <= |fed|
      invariant Holds(s, prior + fed[..i])
    {
      FeedOne(s, prior + fed[..i], fed[i]);
      assert prior + fed[..i + 1] == (prior + fed[..i]) + [fed[i]];
      i := i + 1;
    }
    assert fed[..i] == fed;
  }

  /** One turn of `FeedSeries`: `ModuleStats.add(TimeData)` for the record `d`. */
  method FeedOne(s: TimeModuleStats, ghost fed: seq<TimeData>, d: TimeData)
    requires Holds(s, fed)
    modifies s, s.acc
    ensures Holds(s, fed + [d])
  {
    if s.tracked {
      HoldsAfterAdd(fed, d, s.entries);
    }
    var _ := s.Add(d);
  }

  /**
   * The lines of one file, stripped, read on top of the view `v0`. The result
   * is the error of the first line that does not parse, if there is one.
   */
  method ReadFile(v0: View, lines: seq<string>, classify: Classifier) returns (r: Result<View, (nat, ParseError)>)
    requires ViewOk(v0)
    ensures r.Failure? <==> FileEntries(lines, |lines|, classify).Failure?
    ensures r.Failure? ==> r.error == FileEntries(lines, |lines|, classify).error
    ensures r.Success? ==> r.value == ReplayFrom(v0, FileEntries(lines, |lines|, classify).value)
  {
    ghost var read: seq<Entry> := [];
    var v := v0;
    var lastLine: Option<string> := None;
    var i := 0;
    while i < |lines|
      invariant 0 <= i <= |lines|
      invariant FileEntries(lines, i, classify) == Success(read)
      invariant lastLine == if i == 0 then None else Some(lines[i - 1])
      invariant v == ReplayFrom(v0, read)
    {
      var line := lines[i];
      if lastLine != Some(line) {
        lastLine := Some(line);
        var c := classify(line);
        if c.Some? {
          if c.value.Failure? {
            FileErrorPersists(lines, i + 1, |lines|, classify);
            return Failure((i, c.value.error));
          }
          var e := c.value.value;
          assert (read + [e])[..|read|] == read;
          read := read + [e];
          v := Next(v, e);
        }
      }
      i := i + 1;
    }
    r := Success(v);
  }

  /** One turn of the reading loop: the next file, read on top of the view of the files before it. */
  method ReadNextFile(files: seq<seq<string>>, f: nat, ghost es: seq<Entry>, v: View, classify: Classifier)
    returns (r: Result<View, ReadError>, ghost es': seq<Entry>)
    requires f < |files| && LogEntries(files, f, classify) == Success(es) && v == Replay(es)
    ensures r.Failure? <==> LogEntries(files, f + 1, classify).Failure?
    ensures r.Failure? ==> r.error == LogEntries(files, f + 1, classify).error
    ensures r.Success? ==> LogEntries(files, f + 1, classify) == Success(es') && r.value == Replay(es')
    ensures r.Failure? ==> LogEntries(files, |files|, classify) == Failure(r.error)
  {
    var lines := StripAll(files[f]);
    var fr := ReadFile(v, lines, classify);
    es' := es;
    if fr.Failure? {
      r := Failure(ReadError(f, fr.error.0, fr.error.1));
      LogErrorPersists(files, f + 1, |files|, classify);
    } else {
      ghost var read := FileEntries(lines, |lines|, classify).value;
      ReplayAppend(Empty, es, read);
      es' := es + read;
      r := Success(fr.value);
    }
  }

  /**
   * The reading loop over all files, each line read by `classify`. It fails
   * exactly when some line does not parse, with the position of the first
   * such line; otherwise it gives the view of the entries of all files.
   */
  method ReadAll(files: seq<seq<string>>, classify: Classifier) returns (r: Result<View, ReadError>)
    ensures r.Failure? <==> LogEntries(files, |files|, classify).Failure?
    ensures r.Failure? ==> r.error == LogEntries(files, |files|, classify).error
    ensures r.Success? ==> r.value == Replay(LogEntries(files, |files|, classify).value)
  {
    ghost var es: seq<Entry> := [];
    var v := Empty;
    for f := 0 to |files|
      invariant LogEntries(files, f, classify) == Success(es)
      invariant v == Replay(es)
    {
      var fr;
      fr, es := ReadNextFile(files, f, es, v, classify);
      if fr.Failure? {
        return fr;
      }
      v := fr.value;
    }
    r := Success(v);
  }

  /** The reading loop of the program: every line read by `Classify`, with `float()` as `toReal`. */
  method ReadLogs(files: seq<seq<string>>, toReal: string -> Option<real>) returns (r: Result<View, ReadError>)
    ensures r.Failure? <==> LogEntries(files, |files|, ClassifierOf(toReal)).Failure?
    ensures r.Failure? ==> r.error == LogEntries(files, |files|, ClassifierOf(toReal)).error
    ensures r.Success? ==> r.value == Replay(LogEntries(files, |files|, ClassifierOf(toReal)).value)
  {
    r := ReadAll(files, ClassifierOf(toReal));
  }
}

=== FILE: wrappers.dfy ===
/** Failure-compatible wrappers shared by every module of the model. */
module Wrappers {

  /** Python's `None` or a present value. */
  datatype Option<+T> = None | Some(value: T) {
    /** The value, or `default` when there is none (`dict.get(key, default)`). */
    function GetOr(default: T): T {
      if Some? then value else default
    }
  }

  /** A value, or the exception that the source raises instead of returning. */
  datatype Result<+T, +E> = Success(value: T) | Failure(error: E)
}
